=== FILE: README.md ===
# arxiv-troller, modelled in Dafny

arxiv-troller is a Django site for browsing arXiv papers. It has several parts:

- An ingestion side fills a Postgres store. One command harvests OAI-PMH pages, another bulk-loads msgpack record files, and a third embeds the abstracts with the Voyage service.
- A search page finds papers in one of three ways: a case-insensitive title match, the nearest neighbours of one paper, or a round-robin of the neighbours of every paper of a user's tag.
- Logged-in users keep tags: named collections of papers, shown in a drawer beside the results.

This project models the decision logic of that system and proves what it promises.

**Modules**

- **Search page** (`django/papers/views.py`):
  - `Latex`: the LaTeX-to-HTML substitution chain.
  - `Filters`: the date-window table and the candidate filter. The request context, whose exclusion set the filter grows in place, is the class `Filters.SearchContext`.
  - `SearchQuery`: the `tag:` / `paper:` query classifier, the strategy dispatch and the `has_more` rule.
  - `Retrieval`: the keyword and nearest-neighbour retrievers, and the multi-source tag search with its de-duplication and round-robin deal.
  - `SearchView`: the request as a whole. This covers the drawer, the dispatch, the category set, the tag names per card and the result cards.
- **Tag store** (`django/papers/views_auth.py`): module `Tags`. Its class `TagStore` carries the tag and membership tables and updates them in place with add, remove, rename and delete. It also covers the drawer order and the 60-character title truncation.
- **Record loader** (`arxiv_troller/papers/management/commands/add_records.py`): module `Records`, over the shared tables of `Catalog`.
  - A batch is one transaction.
  - New papers are those whose arXiv id is not stored.
  - Missing authors are created once each.
  - Every author of a new paper is linked at its position.
- **Harvester** (`django/papers/management/commands/harvest_records.py`): module `Harvest`.
  - Category splitting and the three shapes of the author field.
  - `save_paper`, which writes authors only for a newly created paper.
  - The running maximum `last_date`.
  - The resumption-token and restart rule of the `while True` loop.
  - The run as a whole, `HarvestRun`: the requests made, the papers stored, the count and the final `last_date`, as a function of the server's responses and the clock.
- **Embedder** (`django/papers/management/commands/add_voyage_embeddings.py`): module `Voyage`. It covers:
  - the selection of the papers still without a half-2048 embedding;
  - the id chunks;
  - the three variants written for each (paper, embedding) pair, including the sign-bit string that the Hamming search reads.
- **Older views** (`arxiv_troller/papers/views.py`): module `LegacyViews`.
  - The title search, capped at 100.
  - The similar-papers view over gemini-embedding-001 abstract embeddings: the source is excluded, results are ordered by distance and capped at 60, and each carries `1/(1+d)`.

**Shared helpers**

- `Wrappers`: Option and Result.
- `Text`: strip over Python's whitespace, ASCII lower-casing, containment, split and join, Python's `int()` on a string, replace-all.
- `Ranking`: the lexicographic key order, insertion sort, top-k, and `Query` (filter, order, slice, as a Django queryset does).
- `Chunking`: consecutive slices and their concatenation.
- `Corpus`: papers, tags, memberships and the Hamming distance.

**Modelling choices**

- The store is a map from paper id to paper. Tables that commands append to are sequences; a row's position stands for its primary key.
- Times are integers counting seconds since the epoch, on the search side and in the loaders alike; a `%Y-%m-%d` date is midnight of that day.
- The clock, `random.shuffle`, the two-second time budget of the tag search, the HTTP server, the Voyage service and the L2 distance are all parameters of the operations that use them.

## Model

| member | source | states |
|---|---|---|
| Filters.DateCutoff | django/papers/views.py:81-97 | "all" gives no cutoff; any cutoff lies between 730 days and 1 day before now |
| Filters.DateCutoffTable | django/papers/views.py:87-97 | each of the eight tokens gives now minus its 1/3/7/30/90/180/365/730 days; any other token gives no cutoff |
| Filters.WiderWindowsReachFurther | django/papers/views.py:87-96 | a later token of the table reaches strictly further back than an earlier one |
| Filters.EffectiveDateFilter | django/papers/views.py:204-205 | the filter used is never empty, and a non-empty request value is kept |
| Filters.MissingDateFilterMeansLastWeek | django/papers/views.py:204-205 | a missing date filter means the last seven days, for every kind of search |
| Filters.SearchContext.constructor | django/papers/views.py:149-160 | the context holds the request's exclusions, date filter, category, drawer tag and clock |
| Filters.SearchContext.GetValidPapers | django/papers/views.py:452-472 | the exclusion set grows in place by the drawer tag's members and the current paper; a paper is admitted iff it is outside the old exclusions, the tag's members and the current paper, is no older than the cutoff if there is one, and carries the category if one is asked |
| SearchQuery.MatchesUnique | django/papers/views.py:124 | a prefix pattern match has one captured rest |
| SearchQuery.MatchPrefix | django/papers/views.py:124-139 | the match succeeds iff the query is the prefix, one whitespace character and a non-empty rest, and yields that rest |
| SearchQuery.FindArxiv | django/papers/views.py:143 | finds a paper with the given arXiv id, or reports that none has it |
| SearchQuery.Classify | django/papers/views.py:115-147 | an error leaves the query unparsed; a parsed paper clears the query and excludes a parsed tag; a parsed tag is the user's own and sets `search_all` to "1"; a parsed paper id names a stored paper |
| SearchQuery.ClassifyTag | django/papers/views.py:124-135 | `tag: X` wins over `paper:`; an anonymous user gets the login error, an unknown name gets not-found, and the user's tag named X is selected |
| SearchQuery.ClassifyPaper | django/papers/views.py:139-147 | `paper: X` looks X up, stripped, by arXiv id only; a miss is not-found, a hit selects that paper's id |
| SearchQuery.ClassifyPlain | django/papers/views.py:122-147 | a query with neither prefix is left as it is, with nothing parsed |
| SearchQuery.Or | django/papers/views.py:155-156 | Python's `a or b`: truthy iff either is, and `a` when `a` is truthy |
| SearchQuery.ChooseStrategy | django/papers/views.py:155-217 | an error means no search; the single-paper search needs a non-empty id, parsed or from the parameter; tag search needs no single paper, a parsed tag and `search_all`; keyword search needs none of those and a non-empty query; otherwise nothing runs |
| SearchQuery.ResolvePaper | django/papers/views.py:300-310 | text `int()` reads as the id of a stored paper resolves to it (" 5", "+5" and "1_0" included); else the arXiv id is tried; else a number is not-found and any other text a server error |
| SearchQuery.PaperQueryResolves | django/papers/views.py:139-211 | a `paper:` query that parsed always leads to a single-paper search that resolves to that paper |
| SearchQuery.PagingEnds | django/papers/views.py:219 | a chain of pages, each excluding the papers of the one before and each answering `has_more`, is at most 380 pages long minus the first exclusion count, so paging always ends |
| Latex.IndexOf | django/papers/views.py:36-44 | the first occurrence of a character, or its absence |
| Latex.BraceGroup | django/papers/views.py:36-44 | `{([^}]+)}`: a non-empty group without `}` followed by the closing brace, or no match |
| Latex.BraceCommand | django/papers/views.py:36-40 | text without the command is left unchanged |
| Latex.NoCommand | django/papers/views.py:36-40 | text without a backslash is left unchanged by every command substitution |
| Latex.BraceCommandPlain | django/papers/views.py:36-40 | text without a backslash in front of the rest passes through, and the rest is substituted |
| Latex.BraceCommandFront | django/papers/views.py:36-40 | `\cmd{x}` at the front becomes the replacement around `x`, and the substitution goes on after the closing brace |
| Latex.BraceCommandRenders | django/papers/views.py:36-40 | one `\cmd{x}` between backslash-free text becomes the replacement around `x`, and nothing else changes |
| Latex.FormattingBold | django/papers/views.py:36-40 | `\textbf{x}` between backslash-free text becomes `<strong>x</strong>` after all five formatting substitutions |
| Latex.NoTildeInOutput | django/papers/views.py:60-75 | no `~` survives, not even one unescaped from `\~` |
| Latex.NoBacktickInOutput | django/papers/views.py:64-71 | no backtick survives the quote substitutions |
| Latex.ReplaceNowhere | django/papers/views.py:52-76 | a substitution whose pattern does not occur leaves the text unchanged |
| Latex.DoubleBackslashPercent | django/papers/views.py:52-76 | `\\%` becomes `\%` |
| Latex.BackslashPercent | django/papers/views.py:52 | `\%` becomes `%` |
| Latex.NotIdempotent | django/papers/views.py:52-76 | applying the chain twice differs from applying it once |
| Corpus.Hamming | django/papers/views.py:25-29 | the bit distance is at most either length |
| Corpus.HammingSymmetric | django/papers/views.py:25-29 | the bit distance is symmetric |
| Corpus.HammingZeroIff | django/papers/views.py:25-29 | distance zero iff the bit strings are equal |
| Corpus.Members | django/papers/views.py:458-459 | the paper ids of exactly the tag's memberships |
| Corpus.RowsOf | django/papers/views.py:333 | exactly the memberships of the tag |
| Retrieval.NewestFirstOrder | django/papers/views.py:289 | the ranking key orders by `created` descending |
| Retrieval.NearestOrder | django/papers/views.py:484 | the ranking key orders by distance ascending |
| Retrieval.KeywordSearch | django/papers/views.py:278-293 | at most 20 stored papers |
| Retrieval.KeywordSearchMatches | django/papers/views.py:287-288 | distinct papers, each admitted by the filter and with the query in its title, case-insensitively |
| Retrieval.KeywordSearchNewestFirst | django/papers/views.py:289 | newest first |
| Retrieval.KeywordSearchTop | django/papers/views.py:289-291 | no matching paper left out is newer than one returned; fewer than 20 means every match is returned |
| Retrieval.SimilarEmbeddings | django/papers/views.py:475-486 | nothing without a source embedding; at most `num_results` embedded papers |
| Retrieval.SimilarEmbeddingsValid | django/papers/views.py:479-480 | distinct papers, each admitted by the filter and embedded |
| Retrieval.SimilarEmbeddingsNearestFirst | django/papers/views.py:481-484 | non-decreasing Hamming distance to the source |
| Retrieval.SimilarEmbeddingsTop | django/papers/views.py:484 | no admitted paper left out is nearer than one returned; a list shorter than `num_results` holds every admitted embedded paper |
| Retrieval.Depth | django/papers/views.py:344-345 | the per-source depth is at least 2 |
| Retrieval.DepthCoversPage | django/papers/views.py:344-345 | sources times depth exceeds one page |
| Retrieval.FreshUnseen | django/papers/views.py:356-360 | the new neighbours are exactly the unseen ones, each once, and no more than the neighbour list |
| Retrieval.KeepUnseen | django/papers/views.py:354-360 | the inner loop keeps the unseen neighbours and adds them to the seen set |
| Retrieval.CollectGroups | django/papers/views.py:348-367 | the groups are those of a prefix of the sources; the loop stops early only after reaching 20 papers or running out of time, and the budget was unspent after every earlier source; before the last source searched there were fewer than 20 papers, so it stops at the first source that reaches 20; every paper appears once overall and is admitted; fewer than 20 plus the depth papers |
| Retrieval.CollectLoop | django/papers/views.py:348-367 | the same loop, naming the index of the last source searched |
| Retrieval.CollectSource | django/papers/views.py:352-363 | one pass of the outer loop: the groups grow to those of one more source, stay distinct and admitted, and the paper count grows by at most the depth |
| Retrieval.InBudgetAll | django/papers/views.py:365-367 | a run that kept going had its budget unspent after every source it handled |
| Retrieval.CollectStep | django/papers/views.py:352-363 | one source adds its fresh neighbours as a group, if any |
| Retrieval.AppendGroup | django/papers/views.py:362-363 | appending a fresh group keeps the results distinct and admitted |
| Retrieval.Round | django/papers/views.py:371-373 | one round deals at most one paper per group |
| Retrieval.DealRound | django/papers/views.py:371-373 | the inner loop deals exactly one round: the `i`-th paper of each group long enough |
| Retrieval.RoundRobin | django/papers/views.py:369-373 | the nested loop deals the groups round-robin to the given depth |
| Retrieval.Take | django/papers/views.py:370-373 | the first `n` of a group |
| Retrieval.RoundHeads | django/papers/views.py:370-373 | a round adds exactly each group's next paper |
| Retrieval.InterleaveHeads | django/papers/views.py:369-373 | the deal to depth `n` holds exactly each group's first `n` papers |
| Retrieval.InterleaveDealsAll | django/papers/views.py:369-373 | a deal as deep as the longest group is a permutation of all the groups' papers |
| Retrieval.InterleavePrefix | django/papers/views.py:370 | a shallower deal is a prefix of a deeper one |
| Retrieval.DealtAt | django/papers/views.py:371-373 | paper `j` of group `g` is dealt at its round-robin position |
| Retrieval.RoundRobinOrder | django/papers/views.py:370-373 | the `j`-th paper of any group precedes the `(j+1)`-th of every group |
| Retrieval.TagSearchCore | django/papers/views.py:341-375 | the output is the round-robin deal of the groups of a prefix of the sources; it is a permutation of them, without repeats, all admitted, and shorter than 20 plus the depth |
| SearchView.PapersOf | django/papers/views.py:333-334 | the membership rows' papers, in order |
| SearchView.ValidPapers | django/papers/views.py:452-472 | the request's context, through `get_valid_papers`, gives the request's filter |
| SearchView.PaperSearchRun | django/papers/views.py:296-321 | an unknown source fails; otherwise the neighbours are distinct stored papers, and `has_more` follows the grown exclusions |
| SearchView.PaperSearchValid | django/papers/views.py:296-321 | a paper search lists distinct stored papers |
| SearchView.KeywordRun | django/papers/views.py:278-293 | the keyword results, distinct and stored, with `has_more` |
| SearchView.TagRun | django/papers/views.py:324-375 | nothing for an empty tag; otherwise the dealt neighbours of a prefix of the shuffled sources, distinct and stored |
| SearchView.Execute | django/papers/views.py:207-219 | only a single-paper search whose paper cannot be found fails; otherwise the outcome of the chosen search |
| SearchView.CollectCategories | django/papers/views.py:221-226 | exactly the categories of the results, each once, in code-point order |
| SearchView.CategorySet | django/papers/views.py:222-225 | the loop collects exactly the results' categories, without repeats |
| SearchView.CategoriesStep | django/papers/views.py:223-225 | one more paper adds exactly its categories |
| SearchView.SortedText | django/papers/views.py:226 | `sorted` keeps the strings and orders them |
| SearchView.TagRowsForMine | django/papers/views.py:232-234 | the query returns only the user's memberships of result papers |
| SearchView.TagRowsForAll | django/papers/views.py:232-234 | the query returns every such membership |
| SearchView.NamesStep | django/papers/views.py:235-238 | one more row extends only its paper's names |
| SearchView.NamesForMembers | django/papers/views.py:235-238 | a name is listed for a paper iff some row for that paper carries it |
| SearchView.PaperTags | django/papers/views.py:229-238 | the map holds a paper iff it has names, and then its names in row order |
| SearchView.PaperTagsExact | django/papers/views.py:229-238 | a result's listed names are exactly the names of the user's tags that hold it |
| SearchView.DrawerItems | django/papers/views.py:179-202 | one item per membership, in the order the sort asks, with its processed title |
| SearchView.ResultIds | django/papers/views.py:240-248 | the cards' papers, in order |
| SearchView.CardShows | django/papers/views.py:240-248 | a card shows the processed title and abstract, and for a logged-in user exactly the user's tags that hold the paper |
| SearchView.Cards | django/papers/views.py:240-248 | one card per paper, in order |
| SearchView.Assemble | django/papers/views.py:228-248 | the cards, with tag names only for a logged-in user |
| SearchView.OpenDrawer | django/papers/views.py:172-202 | a failed drawer lookup is the request's error; otherwise the open tag and its drawer, and no drawer for AJAX |
| SearchView.List | django/papers/views.py:207-248 | the listing of the chosen strategy; fails only where the dispatch fails |
| SearchView.Search | django/papers/views.py:100-275 | a failed drawer lookup fails first, then an unresolvable single paper; otherwise the page carries the chosen strategy, the parse error, the effective date filter, the open tag, its drawer and the listing |
| Tags.LookupTag | django/papers/views_auth.py:43 | succeeds iff `int()` reads the id (sign, surrounding whitespace and underscores included) and it names one of the user's own tags; a missing, negative or unused id is not-found and one `int()` refuses a server error |
| Tags.FindTag | django/papers/views_auth.py:45 | finds the user's tag with that name, or reports that none exists |
| Tags.FindTagUnique | django/papers/models.py:86 | with (user, name) unique, the lookup finds that tag |
| Tags.GetOrCreateTag | django/papers/views_auth.py:45 | returns the existing tag unchanged, or creates exactly one new tag for the user with that name; a new name over 100 characters fails with a server error |
| Tags.Attach | django/papers/views_auth.py:49 | afterwards the membership exists; an existing one leaves the state unchanged, otherwise exactly one row is appended |
| Tags.AddToTagRejects | django/papers/views_auth.py:37-47 | a missing paper id, or no tag id and an empty stripped name, is a bad request; any failure leaves the state unchanged |
| Tags.AddToTagAttaches | django/papers/views_auth.py:40-51 | on success the paper is a member of the returned tag, which is the user's and has the returned name |
| Tags.AddToTagIdempotent | django/papers/views_auth.py:45-49 | repeating the same request changes nothing and answers the same |
| Tags.AddByNameAgain | django/papers/views_auth.py:45 | after a get-or-create by name, the lookup by the same name finds the tag it returned |
| Tags.AddToTagValid | django/papers/models.py:86-101 | adding keeps the tag store valid: unique names per user, unique memberships, rows pointing at existing tags and papers |
| Tags.AddToTagOwnTagsOnly | django/papers/views_auth.py:43-49 | existing tags are untouched; new tags and memberships belong to the requesting user only |
| Tags.GetOrCreateValid | django/papers/models.py:86 | get-or-create keeps the store valid |
| Tags.AttachValid | django/papers/models.py:101 | attaching keeps the store valid |
| Tags.Unlink | django/papers/views_auth.py:62 | exactly the rows other than that (tag, paper) membership remain |
| Tags.RemoveFromTagOnlyThatRow | django/papers/views_auth.py:58-64 | only the paper's membership in the user's own tag goes; tags and other memberships stay; a failure changes nothing |
| Tags.UnlinkValid | django/papers/views_auth.py:62 | removal keeps the store valid |
| Tags.RenameTagRules | django/papers/views_auth.py:71-86 | an empty stripped name is refused first; a name held by another of the user's tags is refused; a free name over 100 characters fails with a server error; otherwise only that tag's name changes |
| Tags.RenameToOwnNameSucceeds | django/papers/views_auth.py:80 | renaming a tag to its own name succeeds and changes nothing |
| Tags.RenameTagValid | django/papers/models.py:86 | renaming keeps the store valid |
| Tags.Drop | django/papers/models.py:94 | the cascade keeps exactly the rows of other tags |
| Tags.DeleteTagCascades | django/papers/views_auth.py:95-104 | a missing tag id is a bad request; a success removes the user's tag and all its memberships, and nothing else |
| Tags.DeleteTagValid | django/papers/views_auth.py:104 | deletion keeps the store valid |
| Tags.DrawerOrder | django/papers/views_auth.py:118-128 | one entry per membership of the tag |
| Tags.DrawerIsPermutation | django/papers/views_auth.py:119 | the drawer holds exactly the tag's memberships, each once |
| Tags.DrawerKeyMeaning | django/papers/views_auth.py:121-128 | the sort key compares by title ascending, created descending, updated descending with absent dates first, or added-at descending |
| Tags.DrawerOrdered | django/papers/views_auth.py:118-128 | an earlier drawer entry comes first under the chosen sort |
| Tags.Truncate60 | django/papers/views_auth.py:138-141 | a title of at most 60 characters is kept; a longer one becomes its first 60 characters followed by "..." |
| Tags.TagStore.constructor | django/papers/models.py:78-101 | an empty tag store |
| Tags.TagStore.GetOrCreate | django/papers/views_auth.py:45 | the store afterwards and the tag id, or the error, are those of `get_or_create`: the existing tag, a new tag, or a server error for a new name over 100 characters with nothing written |
| Tags.TagStore.AttachPaper | django/papers/views_auth.py:49 | the membership is added unless it exists, and nothing else changes |
| Tags.TagStore.AddToTag | django/papers/views_auth.py:31-51 | the store and answer are those of the add specification |
| Tags.TagStore.RemoveFromTag | django/papers/views_auth.py:56-64 | the store and answer are those of the remove specification |
| Tags.TagStore.RenameTag | django/papers/views_auth.py:69-88 | the store and answer are those of the rename specification |
| Tags.TagStore.DeleteTag | django/papers/views_auth.py:93-106 | the store and answer are those of the delete specification |
| Tags.TagStore.GetTagDrawer | django/papers/views_auth.py:110-141 | a missing tag id is a bad request; a failed lookup is its error; otherwise the tag's memberships in drawer order, each with its truncated processed title |
| Catalog.Dedup | arxiv_troller/papers/management/commands/add_records.py:97-101 | the dict's keys are exactly the keys met |
| Catalog.DedupDistinct | arxiv_troller/papers/management/commands/add_records.py:97-101 | the dict's keys never repeat |
| Catalog.Missing | arxiv_troller/papers/management/commands/add_records.py:109-117 | the authors to create are exactly the keys not stored |
| Catalog.MissingDistinct | arxiv_troller/papers/management/commands/add_records.py:109-117 | no author is listed for creation twice |
| Catalog.BatchKeysFit | arxiv_troller/papers/management/commands/add_records.py:119-126 | when the new keys fit, every key of the batch is stored afterwards, once |
| Catalog.GrowsTrans | arxiv_troller/papers/models.py:6-36 | rows added in two steps are rows added: every table stays a prefix and every added link belongs to an added paper |
| Catalog.Tables.constructor | arxiv_troller/papers/models.py:6-36 | empty tables satisfying the schema |
| Records.Stored | arxiv_troller/papers/management/commands/add_records.py:86-88 | exactly the stored arXiv ids |
| Records.NewItems | arxiv_troller/papers/management/commands/add_records.py:90 | exactly the batch items whose id is not stored, in batch order |
| Records.AuthorKeysMembers | arxiv_troller/papers/management/commands/add_records.py:98-100 | a key is collected iff some new item lists that author |
| Records.CollectAuthorKeys | arxiv_troller/papers/management/commands/add_records.py:96-101 | the loop fills the dict with each author key once, in order of first appearance |
| Records.MissingAuthors | arxiv_troller/papers/management/commands/add_records.py:103-117 | the loop lists exactly the keys not yet stored |
| Records.Trunc | arxiv_troller/papers/management/commands/add_records.py:168-172 | the cut is at most 200 characters and leaves short names alone |
| Records.Cut | arxiv_troller/papers/management/commands/add_records.py:167-173 | a cut key fits, and a key that fits is unchanged, so the lookup hits exactly the stored author |
| Records.CategoryList | arxiv_troller/papers/management/commands/add_records.py:140-142 | a single value becomes a one-element list; a list is kept |
| Records.MapRows | arxiv_troller/papers/management/commands/add_records.py:129-153 | one paper row per new item, in order |
| Records.InsertPapers | arxiv_troller/papers/management/commands/add_records.py:155 | `ignore_conflicts`: the old rows stay, and only rows with ids not yet present are added |
| Records.InsertPapersDistinct | arxiv_troller/papers/models.py:15 | arXiv ids stay unique |
| Records.InsertPapersCount | arxiv_troller/papers/management/commands/add_records.py:155 | rows with new, distinct ids are all inserted |
| Records.InsertLinks | arxiv_troller/papers/management/commands/add_records.py:179 | the links afterwards are the old ones, in place, then new ones taken from those added; together exactly the old and the added |
| Records.InsertLinksDistinct | arxiv_troller/papers/models.py:36 | links stay unique |
| Records.Lookup | arxiv_troller/papers/management/commands/add_records.py:123-126 | the lookup holds exactly the stored authors with a batch keyname, each at its row |
| Records.ItemLinks | arxiv_troller/papers/management/commands/add_records.py:166-177 | link `j` of a paper points at the author of the cut key `j`, with order `j` |
| Records.AuthorLinks | arxiv_troller/papers/management/commands/add_records.py:166-177 | the inner loop builds exactly those links |
| Records.BuildLinks | arxiv_troller/papers/management/commands/add_records.py:163-177 | the loop builds one link per listed author of each new paper |
| Records.LinksForCover | arxiv_troller/papers/management/commands/add_records.py:163-177 | every listed author of every new paper is linked at its position |
| Records.LinksForOnly | arxiv_troller/papers/management/commands/add_records.py:163-177 | every link is one of those |
| Records.LinksForBounded | arxiv_troller/papers/management/commands/add_records.py:174 | when the keys fit, links point at existing papers and authors |
| Records.KeysFit | arxiv_troller/papers/management/commands/add_records.py:167-174 | a batch that commits had only keys that fit |
| Records.Stage | arxiv_troller/papers/management/commands/add_records.py:96-179 | the staged tables are exactly `Insert` of the new items, and satisfy the schema |
| Records.Transact | arxiv_troller/papers/management/commands/add_records.py:82-181 | an author too long for the table rolls back; nothing new returns `(0, skipped)` unwritten; otherwise the tables become `Commit` of the batch; the counts are the new items and the rest of the batch |
| Records.NothingNew | arxiv_troller/papers/management/commands/add_records.py:90-94 | a batch with nothing new has every id stored already and no author to reject |
| Records.ProcessBatch | arxiv_troller/papers/management/commands/add_records.py:82-181 | the transaction commits exactly `Commit` of the batch or changes nothing; the counts are the new items and the rest; afterwards every batch id is stored and a second run would find nothing new |
| Records.CommitGrows | arxiv_troller/papers/management/commands/add_records.py:155-179 | a commit only appends rows to the three tables, and every link it adds belongs to a paper it adds |
| Records.InsertGrows | arxiv_troller/papers/management/commands/add_records.py:155-179 | when no new item is stored, the inserts keep the old rows as prefixes and link only new papers |
| Records.FreshIndex | arxiv_troller/papers/management/commands/add_records.py:158-165 | the paper of an id not stored before is found after the old rows |
| Records.BatchFits | arxiv_troller/papers/management/commands/add_records.py:96-120 | the new items' authors all fit exactly when no item whose id is not stored has an author too long for the table |
| Records.BatchStored | arxiv_troller/papers/management/commands/add_records.py:155-161 | after the insert every batch id is stored and no stored id was lost |
| Records.Reloaded | arxiv_troller/papers/management/commands/add_records.py:90 | a batch whose ids are all stored has no new items |
| Records.SortedListing | arxiv_troller/papers/management/commands/add_records.py:36-37 | the sorted listing is exactly the `.msgpack` files, each once, in name order |
| Records.DropKeeps | arxiv_troller/papers/management/commands/add_records.py:38 | dropping the first names keeps order and distinctness |
| Records.RecordFilesSpec | arxiv_troller/papers/management/commands/add_records.py:36-38 | the files loaded are distinct `.msgpack` files of the directory, in name order |
| Records.LoadBatch | arxiv_troller/papers/management/commands/add_records.py:59-63 | one slice: the tables become `Commit` of it and the counts are its new items and the rest, or it fails, writing nothing, exactly when an item whose id is not stored has an author too long for the table; only rows are added |
| Records.LoadFile | arxiv_troller/papers/management/commands/add_records.py:59-63 | a zero batch size raises, even for an empty file, and a negative one loads nothing, both leaving the tables alone; otherwise it is `LoadSlices` |
| Records.LoadSlices | arxiv_troller/papers/management/commands/add_records.py:59-63 | the tables and created count are exactly `LoadAll` over the slices, or the run stops as `StopsIn` says at a slice with an unfit new item; the counts add up to the file's records, all stored afterwards, a file whose authors all fit always loads, and only rows are added |
| Records.LoadFiles | arxiv_troller/papers/management/commands/add_records.py:53-67 | for a positive batch size, the tables and created count are exactly `LoadFilesAll`, or the run stops as `FilesStopIn` says; created plus skipped equals the records of the files and every one is stored; files whose authors all fit always load; only rows are added |
| Records.Handle | arxiv_troller/papers/management/commands/add_records.py:29-80 | a zero batch size raises at the first file and a negative one reports 0/0, both without writing; otherwise the tables and created count are exactly `LoadFilesAll` over the selected files or the run stops as `FilesStopIn` says, created plus skipped equals their records and every such record is stored, records whose authors all fit always load, and a failure names a record not stored before whose author does not fit; only rows are added |
| Records.LoadAllGrows | arxiv_troller/papers/management/commands/add_records.py:59-63 | a run of committed slices only appends rows, and links only papers it added |
| Records.LoadAllStep | arxiv_troller/papers/management/commands/add_records.py:59-63 | one more slice commits on the tables the slices before it left, and counts its new items |
| Records.LoadFilesAllGrows | arxiv_troller/papers/management/commands/add_records.py:53-67 | a run of files only appends rows, and links only papers it added |
| Records.LoadFilesAllStep | arxiv_troller/papers/management/commands/add_records.py:53-67 | one more file runs its slices on the tables the files before it left |
| Records.FilesStop | arxiv_troller/papers/management/commands/add_records.py:53-67 | a file whose slices stop the run stops the run of the files, which then only added rows |
| Records.FilesRaise | arxiv_troller/papers/management/commands/add_records.py:53-67 | a file holding a record not stored before whose author the table refuses makes the whole run of files unfit for the tables it started from, and the run stops there having only added rows |
| Chunking.Chunks | arxiv_troller/papers/management/commands/add_records.py:59-60 | every slice is non-empty and at most the batch size, and all but the last are full |
| Chunking.FlattenChunks | arxiv_troller/papers/management/commands/add_records.py:59-60 | the slices concatenate back to the data, in order |
| Harvest.CategoryListSpaced | django/papers/management/commands/harvest_records.py:94-98 | the pieces of a split category string hold no space and join back to the stripped string |
| Harvest.AuthorList | django/papers/management/commands/harvest_records.py:116-122 | a list is used as is; a dict's list under "author" is used; any other dict value becomes a one-element list; neither shape fails |
| Harvest.Keys | django/papers/management/commands/harvest_records.py:124-127 | one author key per entry, with absent forenames as none |
| Harvest.PaperLinks | django/papers/management/commands/harvest_records.py:123-128 | author `j` is linked at order `j` |
| Harvest.AuthorLoop | django/papers/management/commands/harvest_records.py:123-128 | the loop only appends to the author and link tables, every link it adds belongs to the new paper, and it raises only `KeyError` or a too-long column |
| Harvest.AuthorNext | django/papers/management/commands/harvest_records.py:123-128 | one author only appends to the tables the authors before it left, and its links belong to the new paper |
| Harvest.AuthorLoopStops | django/papers/management/commands/harvest_records.py:123-128 | once an author raised, the later authors are not read and the tables stay as they were |
| Harvest.AuthorLoopRules | django/papers/management/commands/harvest_records.py:123-128 | the loop gets through every author iff each has a keyname and fits the table, and then links them all in order; when it raises at author `i`, authors `0..i-1` are linked and nothing else was written |
| Harvest.AuthorLoopSchema | django/papers/management/commands/harvest_records.py:123-128 | the loop keeps the authors distinct and within their columns, the links distinct, pointing at existing rows, and numbered within the list |
| Harvest.LinkAuthors | django/papers/management/commands/harvest_records.py:123-128 | the loop leaves exactly the tables of `AuthorLoop`: it keeps the schema and the stored authors and links as prefixes, links every author at its position when it gets through, and when it raises at author `i` has linked exactly authors `0..i-1` |
| Harvest.LinkedAuthors | django/papers/management/commands/harvest_records.py:123-128 | link `i` points at the stored author of entry `i` |
| Harvest.LinkedStep | django/papers/management/commands/harvest_records.py:124-128 | one more author keeps the loop's invariant |
| Harvest.MissingDedupSnoc | django/papers/management/commands/harvest_records.py:124-127 | the authors created grow as get-or-create does |
| Harvest.TablesStep | django/papers/management/commands/harvest_records.py:124-128 | one more author keeps the schema |
| Harvest.SaveAll | django/papers/management/commands/harvest_records.py:93-129 | a save only appends rows, links only the new paper, and leaves the paper table with the new row exactly when the id is new and the row fits |
| Harvest.SaveAllRules | django/papers/management/commands/harvest_records.py:93-129 | an id already stored writes nothing and answers false; a new id whose arXiv id or a category exceeds 50 characters raises and writes nothing; otherwise the paper is created, an author-list error leaves just that paper, and an author that raises at position `i` leaves authors `0..i-1` linked; it answers true iff the row fits and every author links; the schema holds |
| Harvest.Save | django/papers/management/commands/harvest_records.py:93-129 | the tables and answer are exactly `SaveAll`'s, and the schema holds with every old row still in place |
| Harvest.SavePaper | django/papers/management/commands/harvest_records.py:93-129 | the tables become exactly those of `SaveAll`, only rows are added, an author-list error writes only the paper, and an author that raises at position `i` leaves authors `0..i-1` linked; it returns iff `Saves` and answers true iff `Creates` |
| Harvest.Latest | django/papers/management/commands/harvest_records.py:50-57 | the running maximum of the records' `updated`, or `created` when absent |
| Harvest.LatestGrows | django/papers/management/commands/harvest_records.py:56-57 | `last_date` never moves back |
| Harvest.SavePage | django/papers/management/commands/harvest_records.py:46-61 | the loop over a page: records are saved in turn up to and including the first that raises; it stops there exactly when some record raised, and only adds rows to the three tables |
| Harvest.SavePageLatest | django/papers/management/commands/harvest_records.py:50-57 | `last_date` after a page is the running maximum (`Latest`) over exactly the records saved before the first that raised |
| Harvest.SavePageStops | django/papers/management/commands/harvest_records.py:46-48 | once a record raised, the records after it are not read |
| Harvest.SavePageStores | django/papers/management/commands/harvest_records.py:46-48 | every record saved before the first that raised has its paper stored after the page |
| Harvest.SavePageFails | django/papers/management/commands/harvest_records.py:93-129 | on tables that keep the schema, the record that raised had an id not stored before the page, and its row does not fit or one of its authors does not link |
| Harvest.SavePageValid | django/papers/management/commands/harvest_records.py:46-48 | a page keeps the schema of all three tables |
| Harvest.SavePageCreated | django/papers/management/commands/harvest_records.py:60-61 | the count grows by the papers added, or one less when the record that raised had created its paper |
| Harvest.SavePageSaves | django/papers/management/commands/harvest_records.py:46-61 | a record whose save returns extends the outcome with the tables it left, its count and its date |
| Harvest.SavePageRaises | django/papers/management/commands/harvest_records.py:46-48 | a record whose save raises ends the page with the tables that save left and the count and date from before it |
| Harvest.HarvestPage | django/papers/management/commands/harvest_records.py:46-61 | the loop over a page leaves exactly the tables, count, `last_date` and failure that `SavePage` describes |
| Harvest.MaxCreated | django/papers/management/commands/harvest_records.py:34 | the latest `created` of the stored papers |
| Harvest.ResumptionToken | django/papers/management/commands/harvest_records.py:88-91 | the token text iff it has a non-blank character |
| Harvest.ResumptionTokenStrip | django/papers/management/commands/harvest_records.py:91 | a token is read exactly when the element's stripped text is not empty |
| Harvest.FirstRequest | django/papers/management/commands/harvest_records.py:28-37 | a recent run starts from the latest stored date; otherwise the whole listing |
| Harvest.NextRequest | django/papers/management/commands/harvest_records.py:65-84 | a token continues the listing; without one, a restart from `last_date` iff that is more than 7 days old, else the end |
| Harvest.TurnOf | django/papers/management/commands/harvest_records.py:41-65 | one pass of the try block only adds rows, never moves `last_date` back, and answers only its own page's token |
| Harvest.Fetch | django/papers/management/commands/harvest_records.py:41-65 | one pass on the database leaves exactly the tables, count, `last_date` and token of `TurnOf`; it keeps the schema, only adds rows, and counts at most the papers it added |
| Harvest.TurnOfRules | django/papers/management/commands/harvest_records.py:41-65 | a pass only adds papers, counts at most the papers it added, never moves `last_date` back, and answers only its own page's token |
| Harvest.NextFollows | django/papers/management/commands/harvest_records.py:65-84 | the next request follows the rules for the page before it |
| Harvest.RunFrom | django/papers/management/commands/harvest_records.py:40-84 | the run from a request on: at most one request per response, starting with that request |
| Harvest.RunFromStep | django/papers/management/commands/harvest_records.py:40-84 | one pass, then the rest of the run from the next request, or the end when there is none |
| Harvest.RunKeepsTurn | django/papers/management/commands/harvest_records.py:46-48 | every record a pass saved is still stored when the run ends |
| Harvest.RunFromFollows | django/papers/management/commands/harvest_records.py:65-84 | every request after the first follows the rules for the response before it |
| Harvest.RunFromRestarts | django/papers/management/commands/harvest_records.py:56-82 | restart dates are at least the starting `last_date` and never go back |
| Harvest.RunFromStops | django/papers/management/commands/harvest_records.py:66-84 | a run that ends before the responses run out ends after a response whose `last_date` was not stale |
| Harvest.RunFromTotal | django/papers/management/commands/harvest_records.py:60-61 | a run only adds rows to the three tables, and its count is at most the papers it added |
| Harvest.RunFromRest | django/papers/management/commands/harvest_records.py:40-84 | the rest of a run only adds rows to what its first pass left |
| Harvest.HarvestRunRules | django/papers/management/commands/harvest_records.py:26-86 | the whole run's requests follow the rules, and an early end is a fresh `last_date` |
| Harvest.HarvestRunGrows | django/papers/management/commands/harvest_records.py:26-86 | the whole run only adds rows to the three tables, and its count is at most the papers it added |
| Harvest.HandleStep | django/papers/management/commands/harvest_records.py:41-84 | one request is logged, the tables, count and `last_date` become those of `TurnOf`, the next request is `NextRequest` of its token and `last_date`, and the rest of the run is unchanged |
| Harvest.Handle | django/papers/management/commands/harvest_records.py:26-86 | a recent run on an empty store fails before writing; otherwise the requests, count, `last_date` and all three tables are exactly those of the run `HarvestRun` over the responses, so only rows are added, the requests follow the rules, restarts never go back in time, `total` counts at most the papers added, and an early end means `last_date` was fresh |
| Harvest.Loop | django/papers/management/commands/harvest_records.py:39-84 | the loop leaves exactly the requests, count, `last_date` and tables of `HarvestRun` |
| Voyage.HalfPapers | django/papers/management/commands/add_voyage_embeddings.py:48 | exactly the papers with a half-2048 row |
| Voyage.Pending | django/papers/management/commands/add_voyage_embeddings.py:48-54 | exactly the stored papers without a half-2048 row, in ascending id order |
| Voyage.IdChunks | django/papers/management/commands/add_voyage_embeddings.py:56 | a zero size raises; a negative one gives no chunks; otherwise the chunks concatenate back to the ids, are non-empty, at most the size, and full except the last |
| Voyage.ChunksDisjoint | django/papers/management/commands/add_voyage_embeddings.py:56 | no id of a chunk occurs in an earlier one |
| Voyage.BatchOf | django/papers/management/commands/add_voyage_embeddings.py:76 | only stored papers of the chunk |
| Voyage.BatchOfChunk | django/papers/management/commands/add_voyage_embeddings.py:76 | each stored paper of the chunk, once |
| Voyage.BatchOfNewestFirst | django/papers/management/commands/add_voyage_embeddings.py:76 | in the model's default order, newest first |
| Voyage.BitString | django/papers/management/commands/add_voyage_embeddings.py:105 | one character per component: '1' iff it is positive, '0' otherwise (zero included) |
| Voyage.Prefix | django/papers/management/commands/add_voyage_embeddings.py:99 | the first 256 components, or all of a shorter vector |
| Voyage.PositiveFactor | django/papers/management/commands/add_voyage_embeddings.py:100-101 | dividing by a positive norm keeps each component's sign |
| Voyage.Scale | django/papers/management/commands/add_voyage_embeddings.py:100-101 | each component multiplied by the same constant |
| Voyage.ScaleKeepsBits | django/papers/management/commands/add_voyage_embeddings.py:100-105 | scaling by a positive constant keeps every sign bit |
| Voyage.PrefixBits | django/papers/management/commands/add_voyage_embeddings.py:99-105 | the bits of the prefix are the first bits of the whole vector |
| Voyage.ToBits | django/papers/views.py:25-29 | how the Hamming search reads the stored bit string |
| Voyage.HammingZeroSigns | django/papers/management/commands/add_voyage_embeddings.py:105 | two embeddings of one width are at Hamming distance zero iff every component has the same sign |
| Voyage.Papers | django/papers/management/commands/add_voyage_embeddings.py:95 | the papers of rows, in order |
| Voyage.ZipRows | django/papers/management/commands/add_voyage_embeddings.py:95-108 | the zip stops at the shorter input and pairs paper `i` with embedding `i` in all three variants |
| Voyage.BuildVariants | django/papers/management/commands/add_voyage_embeddings.py:92-108 | the loop builds exactly the zipped rows of each variant |
| Voyage.EmbedBatch | django/papers/management/commands/add_voyage_embeddings.py:76-117 | no rows when the service call raises; otherwise one row of each variant per zipped pair |
| Voyage.WrittenFromChunk | django/papers/management/commands/add_voyage_embeddings.py:76-112 | a batch writes rows only for the chunk's papers, each once, in all three variants alike |
| Voyage.VoyageTables.constructor | django/papers/management/commands/add_voyage_embeddings.py:110-112 | empty embedding tables |
| Voyage.ProcessBatch | django/papers/management/commands/add_voyage_embeddings.py:73-117 | the three tables grow by exactly the batch's rows |
| Voyage.Handle | django/papers/management/commands/add_voyage_embeddings.py:39-71 | a zero batch size raises and a negative one runs no batch, both writing nothing; otherwise it answers the number of batches, and each table grows by exactly the rows of the batches, batch after batch, each answered by its reply; the rows appended are aligned across variants and name each pending paper at most once |
| Voyage.RunBatches | django/papers/management/commands/add_voyage_embeddings.py:61-71 | running the batches appends exactly their rows, batch after batch, aligned and without repeats |
| Voyage.HandleCovers | django/papers/management/commands/add_voyage_embeddings.py:48-71 | every pending paper of a batch the service answers in full gets its row in the tables |
| Voyage.WrittenInFull | django/papers/management/commands/add_voyage_embeddings.py:76-108 | a batch answered in full writes a row for each of its stored papers |
| Voyage.JoinedKeeps | django/papers/management/commands/add_voyage_embeddings.py:61-71 | a row one batch writes stays among the rows of all batches |
| Voyage.BatchRows | django/papers/management/commands/add_voyage_embeddings.py:61-71 | one row set per batch, batch `i` answered by reply `i` |
| Voyage.Step | django/papers/management/commands/add_voyage_embeddings.py:67-71 | one more batch keeps the appended rows aligned and distinct |
| LegacyViews.TitleSearch | arxiv_troller/papers/views.py:14-19 | at most 100 stored papers |
| LegacyViews.SearchPapers | arxiv_troller/papers/views.py:11-19 | an empty or missing query gives no result list; otherwise the title search |
| LegacyViews.TitleSearchMatches | arxiv_troller/papers/views.py:16 | distinct papers whose title contains the query case-insensitively |
| LegacyViews.TitleSearchNewestFirst | arxiv_troller/papers/views.py:18 | newest first |
| LegacyViews.TitleSearchTop | arxiv_troller/papers/views.py:16-18 | no matching paper left out is newer than one returned; fewer than 100 means every match is returned |
| LegacyViews.Similarity | arxiv_troller/papers/views.py:84 | `1/(1+d)` lies in (0, 1] and is 1 iff the distance is 0 |
| LegacyViews.SimilarityDecreasing | arxiv_troller/papers/views.py:84 | similarity strictly decreases as distance grows |
| LegacyViews.GeminiVectors | arxiv_troller/papers/views.py:70 | exactly the gemini-embedding-001 abstract embeddings |
| LegacyViews.Distances | arxiv_troller/papers/views.py:72 | each embedded paper's distance to the source vector |
| LegacyViews.DistanceOrder | arxiv_troller/papers/views.py:74 | the ranking key orders by distance ascending |
| LegacyViews.Nearest60 | arxiv_troller/papers/views.py:69-75 | at most 60 embedded papers, never the source |
| LegacyViews.NearestOrdered | arxiv_troller/papers/views.py:74 | distinct papers in non-decreasing distance |
| LegacyViews.NearestTop | arxiv_troller/papers/views.py:74 | no other paper left out is nearer than one returned |
| LegacyViews.NearestComplete | arxiv_troller/papers/views.py:74 | fewer than 60 means every other embedded paper is returned |
| LegacyViews.ScoredStep | arxiv_troller/papers/views.py:79-86 | one more row extends the scored list by its paper, distance and similarity |
| LegacyViews.ScoredMostSimilarFirst | arxiv_troller/papers/views.py:74-84 | results in non-decreasing distance come in non-increasing similarity |
| LegacyViews.ListedMostSimilarFirst | arxiv_troller/papers/views.py:69-86 | the view lists distinct papers, most similar first |
| LegacyViews.SimilarPapers | arxiv_troller/papers/views.py:56-86 | a missing paper or embedding is not-found; otherwise the 60 nearest other papers, each with its distance and similarity |

## Left out

- Template rendering, JSON parsing of the AJAX body, HTML strings of the JSON answers, login and logout, and the `login_required` and `require_POST` decorators: these are request plumbing. A request is a value holding its user, method, AJAX flag and parameters.
- The bare-URL autolink substitution (`django/papers/views.py:45-49`) is the function parameter `autolink`. Lookbehind and lazy matching are not modelled, but its place in the chain is kept.
- Latex: `process_latex_commands` is not idempotent, and the model proves that it is not (`Latex.NotIdempotent`). The backtick substitution is modelled as the source parses it: each backtick becomes the literal text between the two triple quotes, and a lone apostrophe is left alone.
- Floating point: embeddings are vectors of reals and the L2 distance is a non-negative function parameter. The division of the 256-prefix by its norm is not computed; `Voyage.ScaleKeepsBits` shows that dividing by a positive norm keeps every sign bit.
- Time and randomness are parameters:
  - `random.shuffle` is any permutation;
  - the two-second budget of the tag search is the oracle `overBudget`;
  - the clock is `now`, or one reading per harvested page in `Harvest.Handle`.
- Date parsing (`strptime`, `fromisoformat`) and time zones are left out: dates are integers.
- The network is left out. The OAI-PMH server is a sequence of responses, xmltodict and BeautifulSoup are replaced by response values, and the Voyage service's answer is a parameter. The URL strings, including the lowercase `metadataprefix=arxiv` of the whole-listing run, are request values.
- Concurrency: the thread pool, the rate limiter and the progress bars of the embedder are left out. Batches run one after another, in chunk order.
- Text order is code-point order, and lower-casing covers ASCII only. The database collation and Unicode case folding are left out.
- Text.ParseInt: `int()` also reads non-ASCII decimal digits (Arabic-Indic, fullwidth and the like); only ASCII digits are modelled, so such an id is a server error here.
- Tags.LookupTag / SearchQuery.ResolvePaper: an id beyond the integer column's range is treated as an id that names no row.
- Retrieval.SimilarEmbeddingsNearestFirst / Retrieval.SimilarEmbeddingsTop: they state the exact nearest-neighbour query. The HNSW index with `relaxed_order` and `max_scan_tuples=1000` (`django/papers/views.py:162-165`) only approximates it, so the source may return papers slightly out of order, skip a nearer one, or return fewer under a narrow filter.
- Records.Transact: the only column limit modelled is the 200-character author limit; the 50-character arxiv_id and category limits (`arxiv_troller/papers/models.py:15-19`) are not modelled, and an author that is not a mapping is not modelled.
- Records.Transact: the created count is the number of new items, as in the source, so duplicate ids inside one batch are counted twice. `Records.InsertPapersCount` gives equality only for distinct ids.
- Harvest.Handle: `total` is stated as at most the papers created, because a paper whose author loop later raised stays created but is not counted.
- Voyage.Handle: the embedding tables' uniqueness and foreign keys are not enforced. Their model classes are not part of this model, so a failing `bulk_create` is not modelled.
- LegacyViews.SimilarPapers: an embedding's paper need not be in the store, because the foreign key from embedding to paper is not modelled.
- Filters.SearchContext: each search builds its own context. Exactly one search runs per request, so this is the same as the source's single context.
- `arxiv_troller/papers/views_auth.py` and `arxiv_troller/papers/urls.py` refer to code that does not exist in the repository. They are not part of this model.
- The other embedding generators, `add_citations`, the latency benchmark and the migrations are not part of this model.

=== FILE: Catalog.dfy ===
/** The ingestion tables shared by the record loader and the harvester:
    papers with a unique arXiv id, authors keyed by (keyname, forenames),
    and the ordered paper-author links. A row's position in its table stands
    for its primary key. */
module Catalog {
  import opened Wrappers
  import opened Ranking

  /** `CharField(max_length=200)` of both author columns. */
  const NameLimit: nat := 200

  /** An author as a record gives it, and the author table's key: the
      keyname and the forenames, `None` when absent. */
  datatype AuthorKey = AuthorKey(keyname: string, forenames: Option<string>)

  /** Whether the database accepts the author's columns. */
  predicate Fits(k: AuthorKey)
  {
    |k.keyname| <= NameLimit && (k.forenames.Some? ==> |k.forenames.value| <= NameLimit)
  }

  /** `CharField(max_length=50)` of `arxiv_id` and of each category. */
  const CodeLimit: nat := 50

  /** A paper row. Dates are seconds since the epoch; a `%Y-%m-%d` date is
      midnight of that day. */
  datatype PaperRow = PaperRow(
    arxivId: string,
    title: string,
    summary: string,
    created: int,
    updated: Option<int>,
    categories: seq<string>)

  /** Whether the database accepts the row's limited columns. */
  predicate RowFits(row: PaperRow)
  {
    |row.arxivId| <= CodeLimit && forall c :: c in row.categories ==> |c| <= CodeLimit
  }

  /** A `PaperAuthor` row: the author's position `order` in the paper's
      author list. */
  datatype Link = Link(paper: nat, author: nat, order: nat)

  function Ids(papers: seq<PaperRow>): (r: seq<string>)
    ensures |r| == |papers| && forall i :: 0 <= i < |papers| ==> r[i] == papers[i].arxivId
  {
    seq(|papers|, i requires 0 <= i < |papers| => papers[i].arxivId)
  }

  lemma IdsSnoc(rows: seq<PaperRow>, row: PaperRow)
    ensures Ids(rows + [row]) == Ids(rows) + [row.arxivId]
  {
  }

  /** The position of the first `x` in `s`, or `|s|` when there is none. */
  function IndexOf<T(==)>(s: seq<T>, x: T): (i: nat)
    ensures i <= |s|
    ensures i < |s| ==> s[i] == x
    ensures i == |s| <==> x !in s
    ensures forall j :: 0 <= j < i ==> s[j] != x
  {
    if s == [] then 0
    else if s[0] == x then 0
    else 1 + IndexOf(s[1..], x)
  }

  /** What the tables keep: unique arXiv ids (`unique=True`), author
      columns within their length (the database refuses longer ones), and
      links to existing rows; besides, the loaders' own logic keeps authors
      and (paper, author, order) links free of repeats, which the schema
      does not enforce. */
  ghost predicate Schema(papers: seq<PaperRow>, authors: seq<AuthorKey>, links: seq<Link>)
  {
    && Distinct(Ids(papers))
    && (forall k :: k in authors ==> Fits(k))
    && Distinct(authors)
    && Distinct(links)
    && (forall l :: l in links ==> l.paper < |papers| && l.author < |authors|)
  }

  /** The contents of the three tables at one moment. */
  datatype Db = Db(papers: seq<PaperRow>, authors: seq<AuthorKey>, links: seq<Link>)
  {
    ghost predicate Valid()
    {
      Schema(papers, authors, links)
    }
  }

  /** `d'` only adds rows to `d`: each table of `d` is a prefix of the
      same table of `d'`, and every link added belongs to a paper added. */
  predicate Grows(d: Db, d': Db)
  {
    && |d.papers| <= |d'.papers| && d'.papers[..|d.papers|] == d.papers
    && |d.authors| <= |d'.authors| && d'.authors[..|d.authors|] == d.authors
    && |d.links| <= |d'.links| && d'.links[..|d.links|] == d.links
    && forall j :: |d.links| <= j < |d'.links| ==> d'.links[j].paper >= |d.papers|
  }

  lemma PrefixTrans<T>(a: seq<T>, b: seq<T>, c: seq<T>)
    requires |a| <= |b| && b[..|a|] == a
    requires |b| <= |c| && c[..|b|] == b
    ensures |a| <= |c| && c[..|a|] == a
  {
    assert c[..|a|] == c[..|b|][..|a|];
  }

  /** Growing twice is growing. */
  lemma GrowsTrans(a: Db, b: Db, c: Db)
    requires Grows(a, b) && Grows(b, c)
    ensures Grows(a, c)
  {
    PrefixTrans(a.papers, b.papers, c.papers);
    PrefixTrans(a.authors, b.authors, c.authors);
    PrefixTrans(a.links, b.links, c.links);
    forall j | |a.links| <= j < |c.links| ensures c.links[j].paper >= |a.papers| {
      if j < |b.links| {
        assert c.links[j] == b.links[j];
      }
    }
  }

  /** The first occurrence of each key, in order: the keys of a dict filled
      from `s`, or the authors `get_or_create` meets for the first time. */
  function Dedup(s: seq<AuthorKey>): (r: seq<AuthorKey>)
    ensures forall x :: x in r <==> x in s
  {
    if s == [] then []
    else
      var init := s[..|s| - 1];
      var last := s[|s| - 1];
      assert s == init + [last];
      var prev := Dedup(init);
      if last in prev then prev else prev + [last]
  }

  lemma DedupSnoc(s: seq<AuthorKey>, x: AuthorKey)
    ensures Dedup(s + [x]) == if x in Dedup(s) then Dedup(s) else Dedup(s) + [x]
  {
    assert (s + [x])[..|s|] == s;
  }

  /** The keys, in order, that the table does not hold yet. */
  function Missing(keys: seq<AuthorKey>, table: seq<AuthorKey>): (r: seq<AuthorKey>)
    ensures forall k :: k in r <==> k in keys && k !in table
  {
    if keys == [] then []
    else
      var init := keys[..|keys| - 1];
      var last := keys[|keys| - 1];
      assert keys == init + [last];
      var prev := Missing(init, table);
      if last in table then prev else prev + [last]
  }

  lemma DistinctSnoc<T>(s: seq<T>, x: T)
    requires Distinct(s) && x !in s
    ensures Distinct(s + [x])
  {
    forall i, j | 0 <= i < j < |s + [x]| ensures (s + [x])[i] != (s + [x])[j] {
      if j == |s| {
        assert (s + [x])[i] == s[i];
      }
    }
  }

  /** A dict's keys are never repeated. */
  lemma {:induction false} DedupDistinct(s: seq<AuthorKey>)
    ensures Distinct(Dedup(s))
  {
    if s != [] {
      var init := s[..|s| - 1];
      DedupDistinct(init);
      if s[|s| - 1] !in Dedup(init) {
        DistinctSnoc(Dedup(init), s[|s| - 1]);
      }
    }
  }

  /** No author is listed for creation twice. */
  lemma {:induction false} MissingDistinct(keys: seq<AuthorKey>, table: seq<AuthorKey>)
    requires Distinct(keys)
    ensures Distinct(Missing(keys, table))
  {
    if keys != [] {
      var init := keys[..|keys| - 1];
      var last := keys[|keys| - 1];
      assert Distinct(init) by {
        forall i, j | 0 <= i < j < |init| ensures init[i] != init[j] {
          assert init[i] == keys[i] && init[j] == keys[j];
        }
      }
      MissingDistinct(init, table);
      if last !in table {
        assert last !in init by {
          forall i | 0 <= i < |init| ensures init[i] != last {
            assert init[i] == keys[i];
          }
        }
        DistinctSnoc(Missing(init, table), last);
      }
    }
  }

  /** When every new key fits, every key is stored afterwards, once, and
      the table still holds only keys that fit. */
  lemma BatchKeysFit(table: seq<AuthorKey>, keys: seq<AuthorKey>, missing: seq<AuthorKey>)
    requires Distinct(table) && forall k :: k in table ==> Fits(k)
    requires missing == Missing(Dedup(keys), table)
    requires forall k :: k in missing ==> Fits(k)
    ensures Distinct(table + missing)
    ensures forall k :: k in table + missing ==> Fits(k)
    ensures forall k :: k in keys ==> k in table + missing && Fits(k)
  {
    DedupDistinct(keys);
    MissingDistinct(Dedup(keys), table);
    DistinctConcatKeys(table, missing);
  }

  lemma DistinctConcatKeys(a: seq<AuthorKey>, b: seq<AuthorKey>)
    requires Distinct(a) && Distinct(b)
    requires forall x :: x in b ==> x !in a
    ensures Distinct(a + b)
  {
    forall i, j | 0 <= i < j < |a + b| ensures (a + b)[i] != (a + b)[j] {
      if j >= |a| && i < |a| {
        assert (a + b)[j] in b;
      }
    }
  }

  /** The tables, updated in place by the ingestion commands. */
  class Tables {
    var papers: seq<PaperRow>
    var authors: seq<AuthorKey>
    var links: seq<Link>

    ghost predicate Valid()
      reads this
    {
      Schema(papers, authors, links)
    }

    /** What the tables hold now. */
    function Contents(): Db
      reads this
    {
      Db(papers, authors, links)
    }

    constructor()
      ensures Valid()
      ensures papers == [] && authors == [] && links == []
    {
      papers := [];
      authors := [];
      links := [];
    }
  }
}

=== FILE: Chunking.dfy ===
/** Sequence helpers: the slicing comprehension
    `[s[i : i + n] for i in range(0, len(s), n)]`, used to cut loaded
    records into insert batches and paper ids into embedding batches, and the
    element-by-element mapping loop the views use to build their lists. */
module Chunking {

  /** `[f(x) for x in xs]`, built one element at a time. */
  method MapSeq<S, T>(xs: seq<S>, f: S -> T) returns (ys: seq<T>)
    ensures |ys| == |xs| && forall i :: 0 <= i < |xs| ==> ys[i] == f(xs[i])
  {
    ys := [];
    for i := 0 to |xs|
      invariant |ys| == i
      invariant forall j :: 0 <= j < i ==> ys[j] == f(xs[j])
    {
      ys := ys + [f(xs[i])];
    }
  }

  /** Concatenation of a sequence of sequences. */
  function Flatten<T>(ss: seq<seq<T>>): (r: seq<T>)
  {
    if ss == [] then [] else ss[0] + Flatten(ss[1..])
  }

  lemma {:induction false} FlattenAppend<T>(ss: seq<seq<T>>, g: seq<T>)
    ensures Flatten(ss + [g]) == Flatten(ss) + g
  {
    if ss != [] {
      assert (ss + [g])[1..] == ss[1..] + [g];
      FlattenAppend(ss[1..], g);
    } else {
      assert ss + [g] == [g];
    }
  }

  /** The concatenation of the first `b + 1` sequences. */
  lemma FlattenPrefix<T>(ss: seq<seq<T>>, b: nat)
    requires b < |ss|
    ensures Flatten(ss[..b + 1]) == Flatten(ss[..b]) + ss[b]
  {
    assert ss[..b + 1] == ss[..b] + [ss[b]];
    FlattenAppend(ss[..b], ss[b]);
  }

  /** An element of one of the sequences is an element of their
      concatenation. */
  lemma {:induction false} FlattenHas<T>(ss: seq<seq<T>>, i: nat, x: T)
    requires i < |ss| && x in ss[i]
    ensures x in Flatten(ss)
  {
    if i > 0 {
      FlattenHas(ss[1..], i - 1, x);
    }
  }

  /** Consecutive slices of `size` elements; every slice is non-empty, at most
      `size` long, and all but the last are exactly `size` long. */
  function Chunks<T>(s: seq<T>, size: nat): (r: seq<seq<T>>)
    requires size > 0
    ensures forall i :: 0 <= i < |r| ==> 0 < |r[i]| <= size
    ensures forall i :: 0 <= i < |r| - 1 ==> |r[i]| == size
    decreases |s|
  {
    if s == [] then []
    else if |s| <= size then [s]
    else
      [s[..size]] + Chunks(s[size..], size)
  }

  /** The slices cover the input in order: concatenated, they give it back. */
  lemma {:induction false} FlattenChunks<T>(s: seq<T>, size: nat)
    requires size > 0
    ensures Flatten(Chunks(s, size)) == s
    decreases |s|
  {
    if |s| > size {
      var r := Chunks(s, size);
      FlattenChunks(s[size..], size);
      assert r[1..] == Chunks(s[size..], size);
      assert s == s[..size] + s[size..];
    } else if s != [] {
      assert Flatten([s]) == s + Flatten<T>([]);
    }
  }

  /** Slice `i` starts at offset `i * size` of the input. */
  lemma {:induction false} ChunkAt<T>(s: seq<T>, size: nat, i: nat)
    requires size > 0 && i < |Chunks(s, size)|
    ensures i * size < |s|
    ensures Chunks(s, size)[i] == s[i * size .. if (i + 1) * size < |s| then (i + 1) * size else |s|]
    decreases |s|
  {
    if i > 0 {
      var t := s[size..];
      ChunkAt(t, size, i - 1);
      assert Chunks(s, size)[i] == Chunks(t, size)[i - 1];
      MulSucc(i - 1, size);
      MulSucc(i, size);
      var lo := (i - 1) * size;
      var hi := if i * size < |t| then i * size else |t|;
      SliceShift(s, size, lo, hi);
    }
  }

  lemma SliceShift<T>(s: seq<T>, n: nat, a: nat, b: nat)
    requires n <= |s| && a <= b <= |s| - n
    ensures s[n..][a..b] == s[n + a..n + b]
  {
  }

  lemma MulSucc(k: nat, n: nat)
    ensures k * n + n == (k + 1) * n
  {
  }
}

=== FILE: Corpus.dfy ===
/** The stored entities the search and curation code reads: papers, the
    packed bit-vector embeddings the similarity search runs on, tags and tag
    memberships. Timestamps are whole seconds. */
module Corpus {
  import opened Wrappers

  type PaperId = nat
  type TagId = nat
  type UserId = nat

  /** Seconds in a day: `timedelta(days=1)`. */
  const Day: int := 86400

  /** A paper row; `summary` holds the `abstract` column. */
  datatype Paper = Paper(
    arxivId: string,
    title: string,
    summary: string,
    created: int,
    updated: Option<int>,
    categories: seq<string>)

  /** The paper table, by internal id. */
  type Store = map<PaperId, Paper>

  /** The configured embedding table (`EmbeddingVoyageBit2048`): at most one
      packed bit vector per paper. */
  type BitTable = map<PaperId, seq<bool>>

  /** A user's named collection; (user, name) is unique. */
  datatype Tag = Tag(user: UserId, name: string)

  /** A tag membership row; (tag, paper) is unique. */
  datatype TaggedRow = TaggedRow(tag: TagId, paper: PaperId, addedAt: int)

  /** The failure statuses the views answer with: 400 for a rejected
      request, 404 for a missing row, 500 for an exception the view does not
      catch (a non-numeric id reaching an id lookup). */
  datatype HttpError = BadRequest | NotFound | ServerError

  /** Hamming distance between two bit strings: the number of positions,
      among those both have, where they differ. */
  function Hamming(a: seq<bool>, b: seq<bool>): (d: nat)
    ensures d <= |a| && d <= |b|
  {
    if a == [] || b == [] then 0
    else (if a[0] != b[0] then 1 else 0) + Hamming(a[1..], b[1..])
  }

  lemma {:induction false} HammingSymmetric(a: seq<bool>, b: seq<bool>)
    ensures Hamming(a, b) == Hamming(b, a)
  {
    if a != [] && b != [] {
      HammingSymmetric(a[1..], b[1..]);
    }
  }

  /** Between vectors of one width, distance zero means equal vectors. */
  lemma {:induction false} HammingZeroIff(a: seq<bool>, b: seq<bool>)
    requires |a| == |b|
    ensures Hamming(a, b) == 0 <==> a == b
  {
    if a != [] {
      HammingZeroIff(a[1..], b[1..]);
      assert a == [a[0]] + a[1..] && b == [b[0]] + b[1..];
    }
  }

  /** The ids of the papers in tag `t`, from the membership table. */
  function Members(rows: seq<TaggedRow>, t: TagId): (r: set<PaperId>)
    ensures forall p :: p in r <==> exists i :: 0 <= i < |rows| && rows[i].tag == t && rows[i].paper == p
  {
    set i | 0 <= i < |rows| && rows[i].tag == t :: rows[i].paper
  }

  /** The membership rows of tag `t`, in table order. */
  function RowsOf(rows: seq<TaggedRow>, t: TagId): (r: seq<TaggedRow>)
    ensures forall x :: x in r <==> x in rows && x.tag == t
  {
    if rows == [] then []
    else (if rows[0].tag == t then [rows[0]] else []) + RowsOf(rows[1..], t)
  }
}

=== FILE: Filters.dfy ===
/** The candidate filter of the search view: the date-window table, the
    value a filter reduces to, and the request context whose exclusion set
    `get_valid_papers` extends in place. */
module Filters {
  import opened Wrappers
  import opened Corpus

  /** The tokens `get_date_cutoff` knows, from the narrowest window to the
      widest, and the length of each window in days. */
  const WindowTokens: seq<string> := ["1day", "3day", "1week", "1month", "3months", "6months", "1year", "2years"]
  const WindowLengths: seq<nat> := [1, 3, 7, 30, 90, 180, 365, 730]

  /** The window the search view falls back to when no date filter is given. */
  const DefaultDateFilter: string := "1week"

  /** `get_date_cutoff(date_filter)` at time `now`: "all" and every unknown
      token give no cutoff; a known token gives `now` minus its window. */
  function DateCutoff(token: string, now: int): (r: Option<int>)
    ensures token == "all" ==> r.None?
    ensures r.Some? ==> now - 730 * Day <= r.value <= now - Day
  {
    if token == "all" then None
    else if token == "1day" then Some(now - 1 * Day)
    else if token == "3day" then Some(now - 3 * Day)
    else if token == "1week" then Some(now - 7 * Day)
    else if token == "1month" then Some(now - 30 * Day)
    else if token == "3months" then Some(now - 90 * Day)
    else if token == "6months" then Some(now - 180 * Day)
    else if token == "1year" then Some(now - 365 * Day)
    else if token == "2years" then Some(now - 730 * Day)
    else None
  }

  /** The cutoff agrees with the window table: a listed token reaches back
      its listed number of days, and a token that is not listed gives no
      cutoff at all. */
  lemma DateCutoffTable(token: string, now: int)
    ensures forall i :: 0 <= i < |WindowTokens| && WindowTokens[i] == token ==>
      DateCutoff(token, now) == Some(now - WindowLengths[i] * Day)
    ensures token !in WindowTokens ==> DateCutoff(token, now).None?
  {
  }

  /** A wider window never cuts off later: down the table the cutoffs move
      strictly back in time. */
  lemma {:induction false} WiderWindowsReachFurther(i: nat, j: nat, now: int)
    requires i < j < |WindowTokens|
    ensures DateCutoff(WindowTokens[j], now).value < DateCutoff(WindowTokens[i], now).value
  {
    DateCutoffTable(WindowTokens[i], now);
    DateCutoffTable(WindowTokens[j], now);
  }

  /** An empty `date_filter` is replaced before any retrieval runs, for every
      kind of search; so a request without one searches the last week. */
  function EffectiveDateFilter(param: string): (r: string)
    ensures r != ""
    ensures param != "" ==> r == param
  {
    if param == "" then DefaultDateFilter else param
  }

  lemma MissingDateFilterMeansLastWeek(now: int)
    ensures DateCutoff(EffectiveDateFilter(""), now) == Some(now - 7 * Day)
  {
  }

  /** What the query set returned by `get_valid_papers` admits: ids outside
      the exclusion set, created no earlier than the cutoff if there is one,
      and carrying the category if one is asked for. */
  datatype Filter = Filter(excluded: set<PaperId>, cutoff: Option<int>, category: string)

  predicate Admits(f: Filter, id: PaperId, p: Paper)
  {
    id !in f.excluded
    && (f.cutoff.Some? ==> p.created >= f.cutoff.value)
    && (f.category != "" ==> f.category in p.categories)
  }

  /** The request context the search functions share. Only the exclusion set
      changes after the context is built. */
  class SearchContext {
    var excludeIds: set<PaperId>
    const dateFilter: string
    const categoryFilter: string
    /** The tag whose drawer is open, if any (the `tag` request parameter). */
    const currentTag: Option<TagId>
    const now: int

    constructor(excludeIds: set<PaperId>, dateFilter: string, categoryFilter: string, currentTag: Option<TagId>, now: int)
      ensures this.excludeIds == excludeIds && this.dateFilter == dateFilter
      ensures this.categoryFilter == categoryFilter && this.currentTag == currentTag && this.now == now
    {
      this.excludeIds := excludeIds;
      this.dateFilter := dateFilter;
      this.categoryFilter := categoryFilter;
      this.currentTag := currentTag;
      this.now := now;
    }

    /** The members of the open drawer's tag, which every search excludes. */
    function Drawn(rows: seq<TaggedRow>): set<PaperId>
    {
      if currentTag.Some? then Members(rows, currentTag.value) else {}
    }

    /** The filter the current exclusion set and the request's date and
        category give. */
    function Current(): Filter
      reads this
    {
      Filter(excludeIds, DateCutoff(dateFilter, now), categoryFilter)
    }

    /** `get_valid_papers(context, current_paper)`: adds the open drawer's
        members and the current paper to the shared exclusion set, then
        filters on it. A paper passes exactly when it is outside the old
        exclusion set, the drawer and the current paper, is recent enough and
        has the category. */
    method GetValidPapers(rows: seq<TaggedRow>, current: Option<PaperId>) returns (f: Filter)
      modifies this
      ensures excludeIds == old(excludeIds)
        + (if currentTag.Some? then Members(rows, currentTag.value) else {})
        + (if current.Some? then {current.value} else {})
      ensures f == Filter(excludeIds, DateCutoff(dateFilter, now), categoryFilter)
      ensures forall id, p :: Admits(f, id, p) <==>
        id !in old(excludeIds)
        && (currentTag.Some? ==> id !in Members(rows, currentTag.value))
        && (current.Some? ==> id != current.value)
        && (DateCutoff(dateFilter, now).Some? ==> p.created >= DateCutoff(dateFilter, now).value)
        && (categoryFilter != "" ==> categoryFilter in p.categories)
    {
      if currentTag.Some? {
        excludeIds := excludeIds + Members(rows, currentTag.value);
      }
      if current.Some? {
        excludeIds := excludeIds + {current.value};
      }
      f := Filter(excludeIds, DateCutoff(dateFilter, now), categoryFilter);
    }
  }
}

=== FILE: Harvest.dfy ===
/** The OAI-PMH harvester (`harvest_records`): it pages through the arXiv
    listing, saves each record's paper with `get_or_create`, and follows
    resumption tokens; when a listing ends or fails while the newest date
    seen is more than a week old, it starts again from that date. */
module Harvest {
  import opened Wrappers
  import opened Text
  import opened Ranking
  import opened Catalog

  /** Seven days, in seconds: times are seconds since the epoch. */
  const Week: int := 7 * 86400

  /** A record's `categories`: one space-separated string, or a value used
      as it is. */
  datatype CategoriesField = Spaced(text: string) | Given(codes: seq<string>)

  /** One author element: its `keyname` and `forenames` children, `None`
      when absent. */
  datatype AuthorData = AuthorData(keyname: Option<string>, forenames: Option<string>)

  /** The `author` child of `authors`: a single element or a list of them. */
  datatype AuthorValue = One(entry: AuthorData) | Many(entries: seq<AuthorData>)

  /** The record's `authors` value: a list, a mapping with or without an
      `author` child, or anything else (an empty element). */
  datatype AuthorsField = AsList(entries: seq<AuthorData>) | AsDict(author: Option<AuthorValue>) | Neither

  /** A record of the listing; `created` and `updated` are already times. */
  datatype Record = Record(
    id: string,
    title: string,
    summary: string,
    created: int,
    updated: Option<int>,
    categories: CategoriesField,
    authors: AuthorsField)

  /** How `save_paper` can raise: a missing key, the author list never
      assigned, or a value too long for its column (`DataError`). */
  datatype SaveError = KeyError | UnboundAuthors | ValueTooLong

  /** The categories as stored: a string is stripped and split on single
      spaces. */
  function CategoryList(c: CategoriesField): seq<string>
  {
    match c
    case Spaced(text) => Split(Strip(text), ' ')
    case Given(codes) => codes
  }

  /** A split string's pieces hold no space and join back to the stripped
      string. */
  lemma CategoryListSpaced(text: string)
    ensures forall i :: 0 <= i < |CategoryList(Spaced(text))| ==> ' ' !in CategoryList(Spaced(text))[i]
    ensures Join(CategoryList(Spaced(text)), ' ') == Strip(text)
  {
    JoinSplit(Strip(text), ' ');
  }

  /** The paper row `get_or_create` creates for a record. */
  function RowOf(data: Record): PaperRow
  {
    PaperRow(data.id, data.title, data.summary, data.created, data.updated, CategoryList(data.categories))
  }

  /** The author list `save_paper` iterates over, or how it fails to get
      one. */
  function AuthorList(f: AuthorsField): (r: Result<seq<AuthorData>, SaveError>)
    ensures f.AsList? ==> r == Ok(f.entries)
    ensures f.AsDict? && f.author.Some? && f.author.value.Many? ==> r == Ok(f.author.value.entries)
    ensures f.AsDict? && f.author.Some? && f.author.value.One? ==> r == Ok([f.author.value.entry])
    ensures r.Err? <==> f.Neither? || (f.AsDict? && f.author.None?)
  {
    match f
    case AsList(entries) => Ok(entries)
    case AsDict(None) => Err(KeyError)
    case AsDict(Some(Many(entries))) => Ok(entries)
    case AsDict(Some(One(entry))) => Ok([entry])
    case Neither => Err(UnboundAuthors)
  }

  function KeyOf(a: AuthorData): AuthorKey
    requires a.keyname.Some?
  {
    AuthorKey(a.keyname.value, a.forenames)
  }

  /** Whether every author has a keyname and fits the author table. */
  predicate AuthorsOk(entries: seq<AuthorData>)
  {
    forall e :: e in entries ==> e.keyname.Some? && Fits(KeyOf(e))
  }

  /** Whether `save_paper` gets through the authors of a new paper. */
  predicate Linkable(f: AuthorsField)
  {
    AuthorList(f).Ok? && AuthorsOk(AuthorList(f).value)
  }

  function Keys(entries: seq<AuthorData>): (r: seq<AuthorKey>)
    requires forall e :: e in entries ==> e.keyname.Some?
    ensures |r| == |entries| && forall i :: 0 <= i < |entries| ==> r[i] == KeyOf(entries[i])
  {
    seq(|entries|, i requires 0 <= i < |entries| => KeyOf(entries[i]))
  }

  /** The links of a new paper: author `j` of the list at `order` j. */
  function PaperLinks(paper: nat, keys: seq<AuthorKey>, authors: seq<AuthorKey>): (r: seq<Link>)
    ensures |r| == |keys|
    ensures forall j :: 0 <= j < |keys| ==> r[j] == Link(paper, IndexOf(authors, keys[j]), j)
  {
    seq(|keys|, j requires 0 <= j < |keys| => Link(paper, IndexOf(authors, keys[j]), j))
  }

  /** The authors and links after a new paper's author loop: the authors not
      stored are created in order of first appearance, and the paper gets
      one link per listed author. */
  ghost predicate Linked(paper: nat, entries: seq<AuthorData>, authors: seq<AuthorKey>, links: seq<Link>,
                         authors': seq<AuthorKey>, links': seq<Link>)
  {
    && (forall e :: e in entries ==> e.keyname.Some?)
    && authors' == authors + Missing(Dedup(Keys(entries)), authors)
    && links' == links + PaperLinks(paper, Keys(entries), authors')
  }

  /** After the author loop, link `i` of the new paper points at the stored
      author of entry `i`, with order `i`. */
  lemma LinkedAuthors(paper: nat, entries: seq<AuthorData>, authors: seq<AuthorKey>, links: seq<Link>,
                      authors': seq<AuthorKey>, links': seq<Link>)
    requires Linked(paper, entries, authors, links, authors', links')
    ensures |links'| == |links| + |entries|
    ensures forall i :: 0 <= i < |entries| ==>
      && links'[|links| + i].paper == paper
      && links'[|links| + i].order == i
      && links'[|links| + i].author < |authors'|
      && authors'[links'[|links| + i].author] == KeyOf(entries[i])
  {
    var keys := Keys(entries);
    forall i | 0 <= i < |entries|
      ensures links'[|links| + i].author < |authors'| && authors'[links'[|links| + i].author] == KeyOf(entries[i])
    {
      var k := keys[i];
      assert k in keys;
      assert k in Dedup(keys);
      if k !in authors {
        assert k in Missing(Dedup(keys), authors);
      }
      assert k in authors';
    }
  }

  lemma IndexOfAppend<T>(s: seq<T>, t: seq<T>, x: T)
    requires x in s
    ensures IndexOf(s + t, x) == IndexOf(s, x)
  {
    if s[0] != x {
      assert (s + t)[1..] == s[1..] + t;
      IndexOfAppend(s[1..], t, x);
    }
  }

  /** One more author through `get_or_create`: the created authors grow the
      way `Missing(Dedup(...))` does. */
  lemma MissingDedupSnoc(keys: seq<AuthorKey>, table: seq<AuthorKey>, k: AuthorKey)
    ensures Missing(Dedup(keys + [k]), table)
      == if k in table || k in keys then Missing(Dedup(keys), table) else Missing(Dedup(keys), table) + [k]
  {
    DedupSnoc(keys, k);
    var d := Dedup(keys);
    if k !in d {
      assert (d + [k])[..|d|] == d;
    }
  }

  /** What the author loop leaves: how it ended, and the author and link
      tables. */
  datatype Written = Written(r: Result<(), SaveError>, authors: seq<AuthorKey>, links: seq<Link>)

  /** `save_paper`'s author loop for a new paper at position `paper`: each
      author in turn is looked up, created when missing, and linked at its
      position. The first author without a keyname, or missing and too long
      for the table, raises; what was written before it stays. */
  function AuthorLoop(paper: nat, entries: seq<AuthorData>, authors: seq<AuthorKey>, links: seq<Link>): (w: Written)
    ensures |authors| <= |w.authors| && w.authors[..|authors|] == authors
    ensures |links| <= |w.links| && w.links[..|links|] == links
    ensures forall j :: |links| <= j < |w.links| ==> w.links[j].paper == paper
    ensures w.r.Err? ==> w.r.error == KeyError || w.r.error == ValueTooLong
  {
    if entries == [] then Written(Ok(()), authors, links)
    else
      var prev := AuthorLoop(paper, entries[..|entries| - 1], authors, links);
      var w := AuthorNext(paper, prev, |entries| - 1, entries[|entries| - 1]);
      PrefixTrans(authors, prev.authors, w.authors);
      PrefixTrans(links, prev.links, w.links);
      assert forall j :: |prev.links| <= j < |w.links| ==> w.links[j].paper == paper;
      w
  }

  /** One author of the loop, at position `i`: nothing happens once an
      author raised; otherwise the author is looked up, created when missing
      and linked. */
  function AuthorNext(paper: nat, prev: Written, i: nat, e: AuthorData): (w: Written)
    ensures |prev.authors| <= |w.authors| && w.authors[..|prev.authors|] == prev.authors
    ensures |prev.links| <= |w.links| && w.links[..|prev.links|] == prev.links
    ensures forall j :: |prev.links| <= j < |w.links| ==> w.links[j].paper == paper
  {
    if prev.r.Err? then prev
    else if e.keyname.None? then prev.(r := Err(KeyError))
    else
      var k := KeyOf(e);
      var idx := IndexOf(prev.authors, k);
      if idx == |prev.authors| && !Fits(k) then prev.(r := Err(ValueTooLong))
      else
        var authors' := if idx == |prev.authors| then prev.authors + [k] else prev.authors;
        assert authors'[..|prev.authors|] == prev.authors;
        assert (prev.links + [Link(paper, idx, i)])[..|prev.links|] == prev.links;
        Written(Ok(()), authors', prev.links + [Link(paper, idx, i)])
  }

  /** One more author of the list takes one more step. */
  lemma AuthorLoopSnoc(paper: nat, entries: seq<AuthorData>, i: nat, authors: seq<AuthorKey>, links: seq<Link>)
    requires i < |entries|
    ensures AuthorLoop(paper, entries[..i + 1], authors, links) ==
      AuthorNext(paper, AuthorLoop(paper, entries[..i], authors, links), i, entries[i])
  {
    assert entries[..i + 1][..i] == entries[..i];
  }

  /** Once an author raised, the later authors are not read. */
  lemma {:induction false} AuthorLoopStops(paper: nat, entries: seq<AuthorData>, authors: seq<AuthorKey>, links: seq<Link>, i: nat)
    requires i <= |entries| && AuthorLoop(paper, entries[..i], authors, links).r.Err?
    ensures AuthorLoop(paper, entries, authors, links) == AuthorLoop(paper, entries[..i], authors, links)
    decreases |entries|
  {
    if i < |entries| {
      var init := entries[..|entries| - 1];
      assert init[..i] == entries[..i];
      AuthorLoopStops(paper, init, authors, links, i);
    } else {
      assert entries[..i] == entries;
    }
  }

  /** What the author loop promises when it leaves `w`: every stored author
      fits; it gets through every author exactly when each has a keyname
      and fits the table, and then it has linked them all; when it raises,
      it has linked the authors before the one that raised. */
  ghost predicate LoopRules(paper: nat, entries: seq<AuthorData>, authors: seq<AuthorKey>, links: seq<Link>, w: Written)
  {
    && (forall k :: k in w.authors ==> Fits(k))
    && (w.r.Ok? <==> AuthorsOk(entries))
    && (w.r.Ok? ==> Linked(paper, entries, authors, links, w.authors, w.links))
    && (w.r.Err? ==>
          exists i :: 0 <= i < |entries| && !AuthorsOk(entries[..i + 1]) &&
            Linked(paper, entries[..i], authors, links, w.authors, w.links))
  }

  /** The author loop keeps its promises. */
  lemma {:induction false} AuthorLoopRules(paper: nat, entries: seq<AuthorData>, authors: seq<AuthorKey>, links: seq<Link>)
    requires forall k :: k in authors ==> Fits(k)
    ensures LoopRules(paper, entries, authors, links, AuthorLoop(paper, entries, authors, links))
  {
    if entries == [] {
      assert Keys(entries) == [] && Dedup([]) == [] && Missing([], authors) == [];
      assert authors + [] == authors && links + [] == links;
    } else {
      var n := |entries| - 1;
      AuthorLoopRules(paper, entries[..n], authors, links);
      AuthorLoopSnoc(paper, entries, n, authors, links);
      assert entries[..n + 1] == entries;
      AuthorRulesStep(paper, entries, n, authors, links, AuthorLoop(paper, entries[..n], authors, links));
    }
  }

  /** One author keeps the promises of the loop. */
  lemma AuthorRulesStep(paper: nat, entries: seq<AuthorData>, n: nat, authors: seq<AuthorKey>, links: seq<Link>, prev: Written)
    requires n < |entries| && LoopRules(paper, entries[..n], authors, links, prev)
    ensures LoopRules(paper, entries[..n + 1], authors, links, AuthorNext(paper, prev, n, entries[n]))
  {
    var e := entries[n];
    PrefixSlice(entries, n + 1, n);
    if prev.r.Err? {
      RaisedBefore(paper, entries[..n + 1], n, authors, links, prev);
    } else if e.keyname.None? || (KeyOf(e) !in prev.authors && !Fits(KeyOf(e))) {
      RaisesHere(paper, entries[..n + 1], n, authors, links, prev);
    } else {
      LinksHere(paper, entries, n, authors, links, prev);
    }
  }

  /** The author at position `n` is linked, and the loop goes on. */
  lemma LinksHere(paper: nat, entries: seq<AuthorData>, n: nat, authors: seq<AuthorKey>, links: seq<Link>, prev: Written)
    requires n < |entries| && prev.r.Ok? && AuthorsOk(entries[..n])
    requires (forall k :: k in prev.authors ==> Fits(k)) && Linked(paper, entries[..n], authors, links, prev.authors, prev.links)
    requires entries[n].keyname.Some? && (KeyOf(entries[n]) in prev.authors || Fits(KeyOf(entries[n])))
    ensures LoopRules(paper, entries[..n + 1], authors, links, AuthorNext(paper, prev, n, entries[n]))
  {
    var w := AuthorNext(paper, prev, n, entries[n]);
    LinkedStep(paper, entries, n, authors, links, prev.authors, prev.links, w.authors, w.links);
    AuthorsOkSnoc(entries, n);
  }

  /** An author after the one that raised changes nothing. */
  lemma RaisedBefore(paper: nat, all: seq<AuthorData>, n: nat, authors: seq<AuthorKey>, links: seq<Link>, prev: Written)
    requires n < |all| && prev.r.Err? && LoopRules(paper, all[..n], authors, links, prev)
    ensures LoopRules(paper, all, authors, links, prev)
  {
    var i :| 0 <= i < n && !AuthorsOk(all[..n][..i + 1]) && Linked(paper, all[..n][..i], authors, links, prev.authors, prev.links);
    PrefixSlice(all, n, i + 1);
    PrefixSlice(all, n, i);
    assert !AuthorsOk(all) by {
      var x :| x in all[..i + 1] && !(x.keyname.Some? && Fits(KeyOf(x)));
      assert x in all;
    }
  }

  /** The author at position `n` raises, after the authors before it were
      linked. */
  lemma RaisesHere(paper: nat, all: seq<AuthorData>, n: nat, authors: seq<AuthorKey>, links: seq<Link>, prev: Written)
    requires n + 1 == |all| && prev.r.Ok? && LoopRules(paper, all[..n], authors, links, prev)
    requires all[n].keyname.None? || (KeyOf(all[n]) !in prev.authors && !Fits(KeyOf(all[n])))
    ensures LoopRules(paper, all, authors, links, AuthorNext(paper, prev, n, all[n]))
  {
    assert all[..n + 1] == all;
    assert !AuthorsOk(all) by {
      assert all[n] in all;
    }
  }

  lemma PrefixSlice<T>(s: seq<T>, n: nat, i: nat)
    requires i <= n <= |s|
    ensures s[..n][..i] == s[..i]
  {
  }

  /** The loop keeps the author and link tables' schema. */
  lemma {:induction false} AuthorLoopSchema(paper: nat, entries: seq<AuthorData>, authors: seq<AuthorKey>, links: seq<Link>)
    requires Distinct(authors) && forall k :: k in authors ==> Fits(k)
    requires Distinct(links) && forall l :: l in links ==> l.paper < paper && l.author < |authors|
    ensures var w := AuthorLoop(paper, entries, authors, links);
      && Distinct(w.authors) && (forall k :: k in w.authors ==> Fits(k))
      && Distinct(w.links) && (forall l :: l in w.links ==> l.paper <= paper && l.author < |w.authors|)
      && (forall l :: l in w.links ==> l.paper < paper || l.order < |entries|)
  {
    if entries != [] {
      var n := |entries| - 1;
      var init := entries[..n];
      var e := entries[n];
      var prev := AuthorLoop(paper, init, authors, links);
      AuthorLoopSchema(paper, init, authors, links);
      assert AuthorLoop(paper, entries, authors, links) == AuthorNext(paper, prev, n, e);
      if prev.r.Ok? && e.keyname.Some? {
        var k := KeyOf(e);
        if k in prev.authors || Fits(k) {
          var next := if k in prev.authors then prev.authors else prev.authors + [k];
          TablesStep(paper, n, prev.authors, prev.links, k, next, Link(paper, IndexOf(prev.authors, k), n));
        }
      }
    }
  }

  /** `save_paper`'s author loop on the table contents: it leaves exactly
      what `AuthorLoop` says. */
  method LinkAuthors(paper: nat, entries: seq<AuthorData>, authors: seq<AuthorKey>, links: seq<Link>)
    returns (r: Result<(), SaveError>, authors': seq<AuthorKey>, links': seq<Link>)
    requires Distinct(authors) && forall k :: k in authors ==> Fits(k)
    requires Distinct(links) && forall l :: l in links ==> l.paper < paper && l.author < |authors|
    ensures Written(r, authors', links') == AuthorLoop(paper, entries, authors, links)
    ensures Distinct(authors') && forall k :: k in authors' ==> Fits(k)
    ensures Distinct(links') && forall l :: l in links' ==> l.paper <= paper && l.author < |authors'|
    ensures |authors| <= |authors'| && authors'[..|authors|] == authors
    ensures |links| <= |links'| && links'[..|links|] == links
    ensures r.Ok? <==> AuthorsOk(entries)
    ensures r.Err? ==> r.error == KeyError || r.error == ValueTooLong
    ensures r.Ok? ==> Linked(paper, entries, authors, links, authors', links')
    ensures r.Err? ==>
      exists i :: 0 <= i < |entries| && !AuthorsOk(entries[..i + 1]) &&
        Linked(paper, entries[..i], authors, links, authors', links')
  {
    authors', links' := authors, links;
    r := Ok(());
    assert entries[..0] == [];
    var i := 0;
    while i < |entries|
      invariant i <= |entries|
      invariant AuthorLoop(paper, entries[..i], authors, links) == Written(Ok(()), authors', links')
    {
      var e := entries[i];
      AuthorLoopSnoc(paper, entries, i, authors, links);
      if e.keyname.None? {
        r := Err(KeyError);
        break;
      }
      var k := KeyOf(e);
      var idx := IndexOf(authors', k);
      if idx == |authors'| && !Fits(k) {
        r := Err(ValueTooLong);
        break;
      }
      var next := if idx == |authors'| then authors' + [k] else authors';
      assert AuthorNext(paper, Written(Ok(()), authors', links'), i, e) == Written(Ok(()), next, links' + [Link(paper, idx, i)]);
      assert AuthorLoop(paper, entries[..i + 1], authors, links) == Written(Ok(()), next, links' + [Link(paper, idx, i)]);
      authors', links' := next, links' + [Link(paper, idx, i)];
      i := i + 1;
    }
    if r.Err? {
      AuthorLoopStops(paper, entries, authors, links, i + 1);
    } else {
      assert entries[..i] == entries;
    }
    AuthorLoopRules(paper, entries, authors, links);
    AuthorLoopSchema(paper, entries, authors, links);
  }

  /** One author through the loop keeps `Linked`. */
  lemma LinkedStep(paper: nat, entries: seq<AuthorData>, i: nat, authors: seq<AuthorKey>, links: seq<Link>,
                   a: seq<AuthorKey>, l: seq<Link>, a': seq<AuthorKey>, l': seq<Link>)
    requires i < |entries| && entries[i].keyname.Some?
    requires Linked(paper, entries[..i], authors, links, a, l)
    requires a' == if KeyOf(entries[i]) in a then a else a + [KeyOf(entries[i])]
    requires l' == l + [Link(paper, IndexOf(a, KeyOf(entries[i])), i)]
    ensures Linked(paper, entries[..i + 1], authors, links, a', l')
  {
    var k := KeyOf(entries[i]);
    var keys := Keys(entries[..i]);
    KeysSnoc(entries, i);
    MissingDedupSnoc(keys, authors, k);
    assert forall x :: x in keys ==> x in a by {
      forall x | x in keys ensures x in a {
        assert x in Dedup(keys);
      }
    }
    PaperLinksSnoc(paper, keys, k, a, a');
    var m := Missing(Dedup(keys), authors);
    if k in a {
      assert k in authors || k in keys by {
        if k !in authors {
          assert k in m;
        }
      }
      assert Missing(Dedup(keys + [k]), authors) == m;
    } else {
      assert Missing(Dedup(keys + [k]), authors) == m + [k];
      AppendAssoc(authors, m, [k]);
    }
    AppendAssoc(links, PaperLinks(paper, keys, a), [Link(paper, IndexOf(a, k), i)]);
  }

  lemma AppendAssoc<T>(x: seq<T>, y: seq<T>, z: seq<T>)
    ensures x + (y + z) == (x + y) + z
  {
  }

  lemma AuthorsOkSnoc(entries: seq<AuthorData>, i: nat)
    requires i < |entries| && AuthorsOk(entries[..i])
    requires entries[i].keyname.Some? && Fits(KeyOf(entries[i]))
    ensures AuthorsOk(entries[..i + 1])
  {
    assert entries[..i + 1] == entries[..i] + [entries[i]];
  }

  lemma KeysSnoc(entries: seq<AuthorData>, i: nat)
    requires i < |entries| && entries[i].keyname.Some?
    requires forall e :: e in entries[..i] ==> e.keyname.Some?
    ensures forall e :: e in entries[..i + 1] ==> e.keyname.Some?
    ensures Keys(entries[..i + 1]) == Keys(entries[..i]) + [KeyOf(entries[i])]
  {
    assert entries[..i + 1] == entries[..i] + [entries[i]];
  }

  /** Creating an author does not move the ones already stored, so the
      links made so far stay as they were. */
  lemma PaperLinksSnoc(paper: nat, keys: seq<AuthorKey>, k: AuthorKey, a: seq<AuthorKey>, a': seq<AuthorKey>)
    requires forall x :: x in keys ==> x in a
    requires a' == if k in a then a else a + [k]
    ensures PaperLinks(paper, keys + [k], a') == PaperLinks(paper, keys, a) + [Link(paper, IndexOf(a, k), |keys|)]
  {
    var lhs := PaperLinks(paper, keys + [k], a');
    var rhs := PaperLinks(paper, keys, a) + [Link(paper, IndexOf(a, k), |keys|)];
    forall j | 0 <= j < |keys| ensures lhs[j] == rhs[j] {
      assert keys[j] in keys;
      if k !in a {
        IndexOfAppend(a, [k], keys[j]);
      }
    }
    if k !in a {
      assert IndexOf(a', k) == |a|;
    }
  }

  /** One author through the loop keeps the tables' schema. */
  lemma TablesStep(paper: nat, i: nat, a: seq<AuthorKey>, l: seq<Link>, k: AuthorKey, a': seq<AuthorKey>, link: Link)
    requires Distinct(a) && forall x :: x in a ==> Fits(x)
    requires Distinct(l) && forall x :: x in l ==> x.paper <= paper && x.author < |a|
    requires forall x :: x in l ==> x.paper < paper || x.order < i
    requires k in a || Fits(k)
    requires a' == if k in a then a else a + [k]
    requires link == Link(paper, IndexOf(a, k), i)
    ensures Distinct(a') && forall x :: x in a' ==> Fits(x)
    ensures Distinct(l + [link]) && forall x :: x in l + [link] ==> x.paper <= paper && x.author < |a'|
    ensures forall x :: x in l + [link] ==> x.paper < paper || x.order < i + 1
  {
    if k !in a {
      DistinctSnoc(a, k);
    }
    assert link !in l;
    DistinctSnoc(l, link);
  }

  /** What `save_paper` answers, and the tables it leaves. */
  datatype Saved = Saved(r: Result<bool, SaveError>, db: Db)

  /** `save_paper` on the table contents: an already stored id writes
      nothing and returns a false value; an arXiv id or a category too long
      for its column makes the creation raise, writing nothing; otherwise
      the paper is created first, then its authors go through the author
      loop, and a failure there leaves the paper and the authors and links
      written before it in place. */
  function SaveAll(d: Db, data: Record): (s: Saved)
    ensures Grows(d, s.db)
    ensures s.db.papers == AfterSave(d.papers, data)
  {
    if data.id in Ids(d.papers) then Saved(Ok(false), d)
    else if !RowFits(RowOf(data)) then Saved(Err(ValueTooLong), d)
    else
      var papers := d.papers + [RowOf(data)];
      assert papers[..|d.papers|] == d.papers;
      var list := AuthorList(data.authors);
      if list.Err? then Saved(Err(list.error), d.(papers := papers))
      else
        var w := AuthorLoop(|d.papers|, list.value, d.authors, d.links);
        Saved(if w.r.Ok? then Ok(true) else Err(w.r.error), Db(papers, w.authors, w.links))
  }

  /** On tables that keep the schema, `save_paper` keeps it; it returns
      exactly when the id is stored or the row fits and every author links,
      and answers true exactly when it created the paper, whose authors are
      then all linked. When an author raises, the authors before it are
      linked. */
  lemma SaveAllRules(d: Db, data: Record)
    requires d.Valid()
    ensures var s := SaveAll(d, data);
      && s.db.Valid()
      && (s.r.Ok? <==> Saves(d.papers, data))
      && (s.r == Ok(true) <==> Creates(d.papers, data))
      && (s.r == Ok(false) <==> data.id in Ids(d.papers))
      && (s.r.Ok? ==> data.id in Ids(s.db.papers))
      && (s.r.Err? ==> s.r.error == KeyError || s.r.error == UnboundAuthors || s.r.error == ValueTooLong)
      && (data.id in Ids(d.papers) || !RowFits(RowOf(data)) ==> s.db == d)
      && (Creates(d.papers, data) ==>
            Linked(|d.papers|, AuthorList(data.authors).value, d.authors, d.links, s.db.authors, s.db.links))
      && (data.id !in Ids(d.papers) && RowFits(RowOf(data)) && AuthorList(data.authors).Err? ==>
            s.db == d.(papers := d.papers + [RowOf(data)]))
      && (data.id !in Ids(d.papers) && RowFits(RowOf(data)) && AuthorList(data.authors).Ok? && s.r.Err? ==>
            var entries := AuthorList(data.authors).value;
            exists i :: 0 <= i < |entries| && !AuthorsOk(entries[..i + 1]) &&
              Linked(|d.papers|, entries[..i], d.authors, d.links, s.db.authors, s.db.links))
  {
    var s := SaveAll(d, data);
    if data.id !in Ids(d.papers) && RowFits(RowOf(data)) {
      var papers := d.papers + [RowOf(data)];
      IdsSnoc(d.papers, RowOf(data));
      DistinctSnoc(Ids(d.papers), data.id);
      assert data.id in Ids(papers);
      var list := AuthorList(data.authors);
      if list.Ok? {
        AuthorLoopRules(|d.papers|, list.value, d.authors, d.links);
        AuthorLoopSchema(|d.papers|, list.value, d.authors, d.links);
      }
    }
  }

  /** `save_paper` on the table contents, as `SaveAll` says. */
  method Save(d: Db, data: Record) returns (r: Result<bool, SaveError>, d': Db)
    requires d.Valid()
    ensures Saved(r, d') == SaveAll(d, data)
    ensures d'.Valid() && Grows(d, d')
  {
    d' := d;
    if data.id in Ids(d.papers) {
      return Ok(false), d';
    }
    if !RowFits(RowOf(data)) {
      return Err(ValueTooLong), d';
    }
    d' := d'.(papers := d.papers + [RowOf(data)]);
    var list := AuthorList(data.authors);
    if list.Err? {
      r := Err(list.error);
    } else {
      IdsSnoc(d.papers, RowOf(data));
      DistinctSnoc(Ids(d.papers), data.id);
      var res, authors, links := LinkAuthors(|d.papers|, list.value, d.authors, d.links);
      d' := Db(d'.papers, authors, links);
      r := if res.Ok? then Ok(true) else Err(res.error);
    }
    SaveAllRules(d, data);
  }

  /** `save_paper`: `get_or_create` of the paper, then of each author with
      its link. Nothing is wrapped in a transaction: each write stays. */
  method SavePaper(db: Tables, data: Record) returns (r: Result<bool, SaveError>)
    requires db.Valid()
    modifies db
    ensures db.Valid() && Grows(old(db.Contents()), db.Contents())
    ensures Saved(r, db.Contents()) == SaveAll(old(db.Contents()), data)
    ensures data.id in Ids(old(db.papers)) ==> r == Ok(false) && unchanged(db)
    ensures data.id !in Ids(old(db.papers)) && !RowFits(RowOf(data)) ==> r == Err(ValueTooLong) && unchanged(db)
    ensures data.id !in Ids(old(db.papers)) && RowFits(RowOf(data)) ==> db.papers == old(db.papers) + [RowOf(data)]
    ensures data.id !in Ids(old(db.papers)) ==> (r == Ok(true) <==> RowFits(RowOf(data)) && Linkable(data.authors)) && (r.Ok? ==> r.value)
    ensures data.id !in Ids(old(db.papers)) && r.Ok? ==>
      Linked(|old(db.papers)|, AuthorList(data.authors).value, old(db.authors), old(db.links), db.authors, db.links)
    ensures data.id !in Ids(old(db.papers)) && RowFits(RowOf(data)) && AuthorList(data.authors).Err? ==>
      db.authors == old(db.authors) && db.links == old(db.links)
    ensures data.id !in Ids(old(db.papers)) && RowFits(RowOf(data)) && AuthorList(data.authors).Ok? && r.Err? ==>
      var entries := AuthorList(data.authors).value;
      exists i :: 0 <= i < |entries| && !AuthorsOk(entries[..i + 1]) &&
        Linked(|old(db.papers)|, entries[..i], old(db.authors), old(db.links), db.authors, db.links)
    ensures (r.Ok? <==> Saves(old(db.papers), data)) && (r == Ok(true) <==> Creates(old(db.papers), data))
  {
    var d';
    r, d' := Save(db.Contents(), data);
    SaveAllRules(old(db.Contents()), data);
    db.papers, db.authors, db.links := d'.papers, d'.authors, d'.links;
  }

  /** The date the harvester tracks for a record: `updated` when present,
      else `created`. */
  function Stamp(data: Record): int
  {
    if data.updated.Some? then data.updated.value else data.created
  }

  /** `last_date` after the records: the running maximum of their dates. */
  function Latest(last: Option<int>, records: seq<Record>): (r: Option<int>)
    ensures last.Some? || records != [] ==> r.Some?
    ensures r.Some? && last.Some? ==> r.value >= last.value
    ensures r.Some? ==> forall i :: 0 <= i < |records| ==> r.value >= Stamp(records[i])
    ensures r == last || exists i :: 0 <= i < |records| && r == Some(Stamp(records[i]))
  {
    if records == [] then last
    else
      var init := records[..|records| - 1];
      var prev := Latest(last, init);
      var t := Stamp(records[|records| - 1]);
      assert forall i :: 0 <= i < |init| ==> records[i] == init[i];
      if prev.None? || t > prev.value then Some(t) else prev
  }

  /** Whether `save_paper` returns for `data` rather than raising: the id
      is stored already, or its row fits and every author links. */
  predicate Saves(papers: seq<PaperRow>, data: Record)
  {
    data.id in Ids(papers) || (RowFits(RowOf(data)) && Linkable(data.authors))
  }

  /** Whether `save_paper` creates the paper of `data` and answers true. */
  predicate Creates(papers: seq<PaperRow>, data: Record)
  {
    data.id !in Ids(papers) && RowFits(RowOf(data)) && Linkable(data.authors)
  }

  /** The paper table after `save_paper`, whether it returns or raises. */
  function AfterSave(papers: seq<PaperRow>, data: Record): (r: seq<PaperRow>)
    ensures |papers| <= |r| && r[..|papers|] == papers
  {
    if data.id in Ids(papers) || !RowFits(RowOf(data)) then papers else papers + [RowOf(data)]
  }

  /** What the loop over a page leaves: whether every record was saved, the
      tables, the papers counted as created, `last_date`, and how many
      records were saved before the first one that raised. */
  datatype PageOutcome = PageOutcome(ok: bool, db: Db, created: nat, last: Option<int>, done: nat)

  /** The loop over a page: `save_paper` on each record in turn, up to and
      including the first that raises; a record saved takes its date into
      `last_date`. */
  function SavePage(d: Db, last: Option<int>, records: seq<Record>): (out: PageOutcome)
    ensures out.done <= |records| && (out.ok <==> out.done == |records|)
    ensures Grows(d, out.db)
    ensures last.Some? ==> out.last.Some? && last.value <= out.last.value
  {
    if records == [] then PageOutcome(true, d, 0, last, 0)
    else
      var prev := SavePage(d, last, records[..|records| - 1]);
      var out := SaveNext(prev, records[|records| - 1]);
      GrowsTrans(d, prev.db, out.db);
      out
  }

  /** One record of the loop: once a record raised nothing more happens;
      otherwise the record is saved, and when its save returns its date is
      taken into `last_date` and a created paper is counted. */
  function SaveNext(prev: PageOutcome, data: Record): (out: PageOutcome)
    ensures Grows(prev.db, out.db)
    ensures out.done <= prev.done + 1 && (out.ok ==> prev.ok && out.done == prev.done + 1)
    ensures !out.ok ==> out.done == prev.done
    ensures prev.last.Some? ==> out.last.Some? && prev.last.value <= out.last.value
  {
    if !prev.ok then prev
    else
      var s := SaveAll(prev.db, data);
      if s.r.Err? then prev.(ok := false, db := s.db)
      else
        var t := Stamp(data);
        var last' := if prev.last.None? || t > prev.last.value then Some(t) else prev.last;
        PageOutcome(true, s.db, prev.created + if s.r.value then 1 else 0, last', prev.done + 1)
  }

  /** A page with one more record takes one more step. */
  lemma SavePageSnoc(d: Db, last: Option<int>, init: seq<Record>, data: Record)
    ensures SavePage(d, last, init + [data]) == SaveNext(SavePage(d, last, init), data)
  {
    assert (init + [data])[..|init|] == init;
  }

  /** The loop takes record `i` after the records before it. */
  lemma SavePageStep(d: Db, last: Option<int>, records: seq<Record>, i: nat)
    requires i < |records|
    ensures SavePage(d, last, records[..i + 1]) == SaveNext(SavePage(d, last, records[..i]), records[i])
  {
    assert records[..i + 1][..i] == records[..i];
  }

  /** `last_date` after a page is the running maximum over the records
      saved, from the value before the page. */
  lemma {:induction false} SavePageLatest(d: Db, last: Option<int>, records: seq<Record>)
    ensures SavePage(d, last, records).last == Latest(last, records[..SavePage(d, last, records).done])
  {
    if records == [] {
      assert records[..0] == [];
    } else {
      var init := records[..|records| - 1];
      var data := records[|records| - 1];
      var prev := SavePage(d, last, init);
      var out := SavePage(d, last, records);
      SavePageLatest(d, last, init);
      assert init[..prev.done] == records[..prev.done];
      assert out == SaveNext(prev, data);
      if out.ok {
        assert prev.done == |init| && out.done == |records|;
        assert init[..prev.done] == init && records[..out.done] == records;
        LatestSnoc(last, records);
      } else {
        assert out.done == prev.done && out.last == prev.last;
      }
    }
  }

  /** One more record takes its date into the running maximum. */
  lemma LatestSnoc(last: Option<int>, records: seq<Record>)
    requires records != []
    ensures var prev := Latest(last, records[..|records| - 1]);
      var t := Stamp(records[|records| - 1]);
      Latest(last, records) == if prev.None? || t > prev.value then Some(t) else prev
  {
  }

  /** Once a record raised, the rest of the page is not read. */
  lemma {:induction false} SavePageStops(d: Db, last: Option<int>, records: seq<Record>, i: nat)
    requires i <= |records| && !SavePage(d, last, records[..i]).ok
    ensures SavePage(d, last, records) == SavePage(d, last, records[..i])
    decreases |records|
  {
    if i < |records| {
      var init := records[..|records| - 1];
      assert init[..i] == records[..i];
      SavePageStops(d, last, init, i);
    } else {
      assert records[..i] == records;
    }
  }

  /** Every id stored before stays stored. */
  lemma IdsGrow(papers: seq<PaperRow>, papers': seq<PaperRow>)
    requires |papers| <= |papers'| && papers'[..|papers|] == papers
    ensures forall x :: x in Ids(papers) ==> x in Ids(papers')
  {
    forall x | x in Ids(papers) ensures x in Ids(papers') {
      var i :| 0 <= i < |papers| && Ids(papers)[i] == x;
      assert papers'[i] == papers[i];
    }
  }

  /** A record whose save returned is stored afterwards. */
  lemma SavedStored(d: Db, data: Record)
    requires SaveAll(d, data).r.Ok?
    ensures data.id in Ids(SaveAll(d, data).db.papers)
  {
    if data.id !in Ids(d.papers) {
      IdsSnoc(d.papers, RowOf(data));
    }
  }

  /** Every record saved before the first that raised is stored after the
      page. */
  lemma {:induction false} SavePageStores(d: Db, last: Option<int>, records: seq<Record>)
    ensures var out := SavePage(d, last, records);
      forall i :: 0 <= i < out.done ==> records[i].id in Ids(out.db.papers)
  {
    if records != [] {
      var init := records[..|records| - 1];
      var data := records[|records| - 1];
      assert records == init + [data];
      SavePageStores(d, last, init);
      SavePageSnoc(d, last, init, data);
      var prev := SavePage(d, last, init);
      var out := SaveNext(prev, data);
      IdsGrow(prev.db.papers, out.db.papers);
      if out.ok {
        assert out.db == SaveAll(prev.db, data).db && out.done == prev.done + 1 == |records|;
        SavedStored(prev.db, data);
        forall i | 0 <= i < out.done ensures records[i].id in Ids(out.db.papers) {
          if i < prev.done {
            assert records[i] == init[i];
          }
        }
      } else {
        assert forall i :: 0 <= i < prev.done ==> records[i] == init[i];
      }
    }
  }

  /** A page keeps the schema of the tables. */
  lemma {:induction false} SavePageValid(d: Db, last: Option<int>, records: seq<Record>)
    requires d.Valid()
    ensures SavePage(d, last, records).db.Valid()
  {
    if records != [] {
      var prev := SavePage(d, last, records[..|records| - 1]);
      SavePageValid(d, last, records[..|records| - 1]);
      if prev.ok {
        SaveAllRules(prev.db, records[|records| - 1]);
      }
    }
  }

  /** On tables that keep the schema, the record that raised had an id not
      stored before the page, and its row does not fit or one of its authors
      does not link. */
  lemma {:induction false} SavePageFails(d: Db, last: Option<int>, records: seq<Record>)
    requires d.Valid()
    ensures var out := SavePage(d, last, records);
      !out.ok ==> records[out.done].id !in Ids(d.papers) && !(RowFits(RowOf(records[out.done])) && Linkable(records[out.done].authors))
  {
    if records != [] {
      var init := records[..|records| - 1];
      var prev := SavePage(d, last, init);
      SavePageFails(d, last, init);
      if prev.ok {
        SavePageValid(d, last, init);
        SaveAllRules(prev.db, records[|records| - 1]);
        IdsGrow(d.papers, prev.db.papers);
      } else {
        assert records[prev.done] == init[prev.done];
      }
    }
  }

  /** A page that saves every record counts exactly the papers it created;
      one that raised created at most one more, the record that raised. */
  lemma {:induction false} SavePageCreated(d: Db, last: Option<int>, records: seq<Record>)
    ensures var out := SavePage(d, last, records);
      && out.created <= |out.db.papers| - |d.papers| <= out.created + 1
      && (out.ok ==> out.created == |out.db.papers| - |d.papers|)
  {
    if records != [] {
      SavePageCreated(d, last, records[..|records| - 1]);
    }
  }

  /** One more record of a page that has saved every record so far, whose
      save returns `r`: the outcome takes the tables it left, its count and
      its date. */
  lemma SavePageSaves(d: Db, last: Option<int>, records: seq<Record>, i: nat,
                      current: Db, created: nat, last': Option<int>, r: Result<bool, SaveError>, d': Db)
    requires i < |records| && SavePage(d, last, records[..i]) == PageOutcome(true, current, created, last', i)
    requires Saved(r, d') == SaveAll(current, records[i]) && r.Ok?
    ensures var t := Stamp(records[i]);
      SavePage(d, last, records[..i + 1]) ==
        PageOutcome(true, d', created + (if r.value then 1 else 0),
                    if last'.None? || t > last'.value then Some(t) else last', i + 1)
  {
    SavePageStep(d, last, records, i);
    SaveNextOf(PageOutcome(true, current, created, last', i), records[i], r, d');
  }

  /** One more record of a page that has saved every record so far, whose
      save raises: the page ends there, with the tables that save left. */
  lemma SavePageRaises(d: Db, last: Option<int>, records: seq<Record>, i: nat,
                       current: Db, created: nat, last': Option<int>, r: Result<bool, SaveError>, d': Db)
    requires i < |records| && SavePage(d, last, records[..i]) == PageOutcome(true, current, created, last', i)
    requires Saved(r, d') == SaveAll(current, records[i]) && r.Err?
    ensures SavePage(d, last, records) == PageOutcome(false, d', created, last', i)
  {
    SavePageStep(d, last, records, i);
    SaveNextOf(PageOutcome(true, current, created, last', i), records[i], r, d');
    SavePageStops(d, last, records, i + 1);
  }

  /** The step of the loop for a record whose save answers `r` and leaves
      `d'`. */
  lemma SaveNextOf(prev: PageOutcome, data: Record, r: Result<bool, SaveError>, d': Db)
    requires prev.ok && Saved(r, d') == SaveAll(prev.db, data)
    ensures r.Err? ==> SaveNext(prev, data) == prev.(ok := false, db := d')
    ensures r.Ok? ==> var t := Stamp(data);
      SaveNext(prev, data) == PageOutcome(true, d', prev.created + (if r.value then 1 else 0),
                                          if prev.last.None? || t > prev.last.value then Some(t) else prev.last, prev.done + 1)
  {
  }

  /** The loop over one page's records: each is saved and its date taken
      into `last_date`, and every created paper is counted. The first
      record whose save raises ends the page (`failed`). */
  method HarvestPage(db: Tables, records: seq<Record>, last: Option<int>)
    returns (created: nat, last': Option<int>, failed: bool)
    requires db.Valid()
    modifies db
    ensures db.Valid()
    ensures SavePage(old(db.Contents()), last, records) ==
      PageOutcome(!failed, db.Contents(), created, last', SavePage(old(db.Contents()), last, records).done)
  {
    created, last', failed := 0, last, false;
    assert records[..0] == [];
    for i := 0 to |records|
      invariant db.Valid()
      invariant SavePage(old(db.Contents()), last, records[..i]) == PageOutcome(true, db.Contents(), created, last', i)
    {
      ghost var before := db.Contents();
      var res := SavePaper(db, records[i]);
      if res.Err? {
        SavePageRaises(old(db.Contents()), last, records, i, before, created, last', res, db.Contents());
        return created, last', true;
      }
      SavePageSaves(old(db.Contents()), last, records, i, before, created, last', res, db.Contents());
      var t := Stamp(records[i]);
      if last'.None? || t > last'.value {
        last' := Some(t);
      }
      if res.value {
        created := created + 1;
      }
    }
    assert records[..|records|] == records;
  }

  /** The most recent `created` of the stored papers (`Max("created")`). */
  function MaxCreated(papers: seq<PaperRow>): (m: int)
    requires papers != []
    ensures forall i :: 0 <= i < |papers| ==> papers[i].created <= m
    ensures exists i :: 0 <= i < |papers| && papers[i].created == m
  {
    if |papers| == 1 then papers[0].created
    else
      var rest := MaxCreated(papers[1..]);
      assert forall i :: 1 <= i < |papers| ==> papers[i] == papers[1..][i - 1];
      if papers[0].created >= rest then papers[0].created else rest
  }

  /** The resumption token of a page: the element's text, when it has any
      non-blank character. */
  function ResumptionToken(elem: Option<string>): (r: Option<string>)
    ensures r.Some? <==> elem.Some? && HasText(elem.value)
    ensures r.Some? ==> r.value == elem.value
  {
    if elem.Some? && HasText(elem.value) then elem else None
  }

  /** A token is read exactly when the element's `.strip()` is not empty. */
  lemma ResumptionTokenStrip(elem: Option<string>)
    ensures ResumptionToken(elem).Some? <==> elem.Some? && Strip(elem.value) != ""
  {
    if elem.Some? {
      HasTextStrip(elem.value);
    }
  }

  /** Whether the harvester starts again from `last`: only when it is more
      than a week before `now`. */
  predicate Stale(last: Option<int>, now: int)
  {
    last.Some? && last.value < now - Week
  }

  /** The requests the harvester makes: the whole listing, a listing from a
      date, or the continuation named by a resumption token. */
  datatype Request = ListAll | From(date: int) | Resume(token: string)

  /** A response: a page of records with its resumption-token element, or
      anything that raises before the records are read (network error,
      unparsable XML, a listing without records). */
  datatype Response = Failed | Page(records: seq<Record>, tokenElem: Option<string>)

  /** What a run leaves: the created papers it counted, the requests made,
      and the last date seen. */
  datatype Run = Run(total: nat, requests: seq<Request>, lastDate: Option<int>)

  /** Harvesting the recent records needs a stored paper to start from. */
  datatype HarvestError = NoStoredPapers

  /** The rules for a request made after `response` was handled at time
      `now`: never the whole listing again; a continuation carries the token
      of that page; a restart is from a date more than a week before `now`. */
  predicate Follows(url: Request, response: Response, now: int)
  {
    && url != ListAll
    && (url.Resume? ==> response.Page? && ResumptionToken(response.tokenElem) == Some(url.token))
    && (url.From? ==> url.date < now - Week)
  }

  /** The request sequence `q` of a run whose first request is `first`:
      every later request follows the rules for the response before it, and
      restarts never go back in time. */
  ghost predicate Requests(q: seq<Request>, responses: seq<Response>, now: seq<int>, first: Request)
    requires |now| == |responses|
  {
    && |q| <= |responses|
    && (q != [] ==> q[0] == first)
    && (forall k :: 0 < k < |q| ==> Follows(q[k], responses[k - 1], now[k - 1]))
    && (forall j, k :: 0 <= j < k < |q| && q[j].From? && q[k].From? ==> q[j].date <= q[k].date)
  }

  /** The first request of a run. */
  function FirstRequest(recent: bool, papers: seq<PaperRow>): (r: Request)
    requires recent ==> papers != []
    ensures recent ==> r.From? && forall p :: p in papers ==> p.created <= r.date
    ensures !recent ==> r == ListAll
  {
    if recent then From(MaxCreated(papers)) else ListAll
  }

  /** The request after a page: its continuation when it has a resumption
      token; otherwise (the page ended, or it raised) a restart from
      `last_date` when that is stale, else none and the run ends. */
  function NextRequest(token: Option<string>, last: Option<int>, now: int): (r: Option<Request>)
    ensures token.Some? ==> r == Some(Resume(token.value))
    ensures token.None? ==> (r.Some? <==> Stale(last, now))
    ensures token.None? && r.Some? ==> r.value.From? && r.value.date == last.value && r.value.date < now - Week
  {
    if token.Some? then Some(Resume(token.value))
    else if Stale(last, now) then Some(From(last.value))
    else None
  }

  /** What one pass of the `try` block leaves: the tables, the papers
      counted as created, `last_date`, and the resumption token. */
  datatype Turn = Turn(db: Db, created: nat, last: Option<int>, token: Option<string>)

  /** One pass of the `try` block on the tables: a failed request
      changes nothing; a page is saved record by record, `last_date` takes
      in the records saved, and the token is read only when every record
      was saved. */
  function TurnOf(d: Db, last: Option<int>, response: Response): (t: Turn)
    ensures Grows(d, t.db)
    ensures last.Some? ==> t.last.Some? && last.value <= t.last.value
    ensures t.token.Some? ==> response.Page? && ResumptionToken(response.tokenElem) == t.token
  {
    match response
    case Failed => Turn(d, 0, last, None)
    case Page(records, elem) =>
      var out := SavePage(d, last, records);
      Turn(out.db, out.created, out.last, if out.ok then ResumptionToken(elem) else None)
  }

  /** One pass of the `try` block: the page is saved record by record, and
      the token is read only when every record was saved. A failed request,
      or a record whose save raises, gives no token. */
  method Fetch(db: Tables, response: Response, last: Option<int>)
    returns (created: nat, last': Option<int>, token: Option<string>)
    requires db.Valid()
    modifies db
    ensures db.Valid() && Grows(old(db.Contents()), db.Contents())
    ensures created <= |db.papers| - |old(db.papers)|
    ensures last.Some? ==> last'.Some? && last.value <= last'.value
    ensures token.Some? ==> response.Page? && ResumptionToken(response.tokenElem) == token
    ensures Turn(db.Contents(), created, last', token) == TurnOf(old(db.Contents()), last, response)
  {
    match response {
      case Failed =>
        return 0, last, None;
      case Page(records, elem) =>
        var failed;
        SavePageCreated(db.Contents(), last, records);
        created, last', failed := HarvestPage(db, records, last);
        token := if failed then None else ResumptionToken(elem);
    }
  }

  /** What a run leaves: the created papers counted, the requests made,
      `last_date`, and the tables. */
  datatype Outcome = Outcome(total: nat, requests: seq<Request>, lastDate: Option<int>, db: Db)

  /** How one pass of the `try` block handles a response, given the
      tables and `last_date`. */
  type TurnFn = (Db, Option<int>, Response) -> Turn

  /** Every pass only adds rows, and counts at most the papers it
      added. */
  ghost predicate TurnGrows(turn: TurnFn)
  {
    forall d, last, response :: var t := turn(d, last, response);
      Grows(d, t.db) && t.created <= |t.db.papers| - |d.papers|
  }

  /** No pass moves `last_date` back. */
  ghost predicate TurnLast(turn: TurnFn)
  {
    forall d, last, response :: var t := turn(d, last, response);
      last.Some? ==> t.last.Some? && last.value <= t.last.value
  }

  /** A pass only answers the resumption token of the page it read. */
  ghost predicate TurnToken(turn: TurnFn)
  {
    forall d, last, response :: var t := turn(d, last, response);
      t.token.Some? ==> response.Page? && ResumptionToken(response.tokenElem) == t.token
  }

  /** `TurnOf` keeps the rules of a pass. */
  lemma TurnOfRules()
    ensures TurnGrows(TurnOf) && TurnLast(TurnOf) && TurnToken(TurnOf)
  {
    forall d, last, response ensures var t := TurnOf(d, last, response);
      t.created <= |t.db.papers| - |d.papers|
    {
      if response.Page? {
        SavePageCreated(d, last, response.records);
      }
    }
  }

  /** The run from request `url` on, when the `i`-th response answers it
      and each response is handled by `turn`: the pass's tables, count and
      `last_date` carry over, and the next request is `NextRequest` of the
      pass's token and `last_date`; the run ends when there is none or the
      responses run out. */
  function RunFrom(turn: TurnFn, d: Db, total: nat, last: Option<int>, url: Request,
                   responses: seq<Response>, now: seq<int>, i: nat): (out: Outcome)
    requires |now| == |responses| && i <= |responses|
    ensures |out.requests| <= |responses| - i
    ensures i < |responses| ==> out.requests != [] && out.requests[0] == url
    decreases |responses| - i
  {
    if i == |responses| then Outcome(total, [], last, d)
    else
      var t := turn(d, last, responses[i]);
      var next := NextRequest(t.token, t.last, now[i]);
      if next.None? then Outcome(total + t.created, [url], t.last, t.db)
      else
        var rest := RunFrom(turn, t.db, total + t.created, t.last, next.value, responses, now, i + 1);
        rest.(requests := [url] + rest.requests)
  }

  /** One pass of a run: the pass's outcome, then the rest of the run from
      the next request, or the end when there is none. */
  lemma RunFromStep(turn: TurnFn, d: Db, total: nat, last: Option<int>, url: Request,
                    responses: seq<Response>, now: seq<int>, i: nat,
                    d': Db, total': nat, last': Option<int>, url': Request, running': bool)
    requires |now| == |responses| && i < |responses|
    requires var t := turn(d, last, responses[i]);
      && d' == t.db && total' == total + t.created && last' == t.last
      && (running' <==> NextRequest(t.token, t.last, now[i]).Some?)
      && (running' ==> url' == NextRequest(t.token, t.last, now[i]).value)
    ensures running' ==> var rest := RunFrom(turn, d', total', last', url', responses, now, i + 1);
      RunFrom(turn, d, total, last, url, responses, now, i) == rest.(requests := [url] + rest.requests)
    ensures !running' ==> RunFrom(turn, d, total, last, url, responses, now, i) == Outcome(total', [url], last', d')
  {
    if running' {
      var t := turn(d, last, responses[i]);
      var rest := RunFrom(turn, t.db, total + t.created, t.last, url', responses, now, i + 1);
      assert RunFrom(turn, d, total, last, url, responses, now, i) == rest.(requests := [url] + rest.requests);
    }
  }

  /** The whole run of `handle`: from the first request, with `last_date`
      the latest stored date on a recent run and none otherwise. */
  function HarvestRun(d: Db, recent: bool, responses: seq<Response>, now: seq<int>): Outcome
    requires |now| == |responses| && (recent ==> d.papers != [])
  {
    var first := FirstRequest(recent, d.papers);
    RunFrom(TurnOf, d, 0, if recent then Some(first.date) else None, first, responses, now, 0)
  }

  /** Every record a pass saved is still stored when the run `out` ends. */
  lemma RunKeepsTurn(d: Db, total: nat, last: Option<int>, url: Request,
                     responses: seq<Response>, now: seq<int>, i: nat, out: Outcome)
    requires |now| == |responses| && i < |responses| && responses[i].Page?
    requires out == RunFrom(TurnOf, d, total, last, url, responses, now, i)
    ensures var records := responses[i].records;
      forall j :: 0 <= j < SavePage(d, last, records).done ==> records[j].id in Ids(out.db.papers)
  {
    var records := responses[i].records;
    TurnOfRules();
    RunFromRest(TurnOf, d, total, last, url, responses, now, i, out);
    assert TurnOf(d, last, responses[i]).db == SavePage(d, last, records).db;
    SavePageStores(d, last, records);
    IdsGrow(SavePage(d, last, records).db.papers, out.db.papers);
  }

  /** The rest of a run `out` only adds rows to what its first pass left. */
  lemma RunFromRest(turn: TurnFn, d: Db, total: nat, last: Option<int>, url: Request,
                    responses: seq<Response>, now: seq<int>, i: nat, out: Outcome)
    requires TurnGrows(turn)
    requires |now| == |responses| && i < |responses|
    requires out == RunFrom(turn, d, total, last, url, responses, now, i)
    ensures Grows(turn(d, last, responses[i]).db, out.db)
  {
    var t := turn(d, last, responses[i]);
    var next := NextRequest(t.token, t.last, now[i]);
    if next.Some? {
      var rest := RunFrom(turn, t.db, total + t.created, t.last, next.value, responses, now, i + 1);
      RunFromTotal(turn, t.db, total + t.created, t.last, next.value, responses, now, i + 1, rest);
      assert out.db == rest.db;
    } else {
      assert out.db == t.db;
    }
  }

  /** One turn of the `while True` loop: request `url`, handle its
      response, and pick the next request or stop. */
  method HandleStep(db: Tables, total: nat, requests: seq<Request>, responses: seq<Response>, now: seq<int>,
                    url: Request, lastDate: Option<int>)
    returns (total': nat, requests': seq<Request>, url': Request, lastDate': Option<int>, running': bool)
    requires |now| == |responses| && |requests| < |responses|
    requires db.Valid()
    modifies db
    ensures db.Valid()
    ensures requests' == requests + [url]
    ensures var t := TurnOf(old(db.Contents()), lastDate, responses[|requests|]);
      && db.Contents() == t.db && total' == total + t.created && lastDate' == t.last
      && (running' <==> NextRequest(t.token, t.last, now[|requests|]).Some?)
      && (running' ==> url' == NextRequest(t.token, t.last, now[|requests|]).value)
    ensures running' ==> var rest := RunFrom(TurnOf, db.Contents(), total', lastDate', url', responses, now, |requests'|);
      RunFrom(TurnOf, old(db.Contents()), total, lastDate, url, responses, now, |requests|) == rest.(requests := [url] + rest.requests)
    ensures !running' ==>
      RunFrom(TurnOf, old(db.Contents()), total, lastDate, url, responses, now, |requests|) == Outcome(total', [url], lastDate', db.Contents())
  {
    var i := |requests|;
    requests' := requests + [url];
    ghost var before := db.Contents();
    var created, token;
    created, lastDate', token := Fetch(db, responses[i], lastDate);
    total' := total + created;
    var next := NextRequest(token, lastDate', now[i]);
    if next.Some? {
      url', running' := next.value, true;
    } else {
      url', running' := url, false;
    }
    RunFromStep(TurnOf, before, total, lastDate, url, responses, now, i, db.Contents(), total', lastDate', url', running');
  }

  /** `handle`. The server is the sequence `responses`, answered in order,
      and `now[i]` is the clock (`datetime.now()`) when the `i`-th response
      is handled; the loop also ends when the responses run out. */
  method Handle(db: Tables, recent: bool, responses: seq<Response>, now: seq<int>)
    returns (r: Result<Run, HarvestError>)
    requires |now| == |responses|
    requires db.Valid()
    modifies db
    ensures db.Valid()
    ensures r.Err? <==> recent && old(db.papers) == []
    ensures r.Err? ==> unchanged(db)
    ensures r.Ok? ==> var out := HarvestRun(old(db.Contents()), recent, responses, now);
      r.value == Run(out.total, out.requests, out.lastDate) && db.Contents() == out.db
    ensures Grows(old(db.Contents()), db.Contents())
    ensures r.Ok? ==> r.value.total <= |db.papers| - |old(db.papers)|
    ensures r.Ok? ==> Requests(r.value.requests, responses, now, FirstRequest(recent, old(db.papers)))
    ensures r.Ok? ==> (responses != [] ==> r.value.requests != [])
    ensures r.Ok? && |r.value.requests| < |responses| ==>
      r.value.requests != [] && !Stale(r.value.lastDate, now[|r.value.requests| - 1])
  {
    if recent && db.papers == [] {
      return Err(NoStoredPapers);
    }
    ghost var start := db.Contents();
    var run := Loop(db, recent, responses, now);
    HarvestRunRules(start, recent, responses, now);
    HarvestRunGrows(start, recent, responses, now);
    r := Ok(run);
  }

  /** The `while True` loop of `handle`, from the first request: it leaves
      exactly the outcome of the run `HarvestRun`. */
  method Loop(db: Tables, recent: bool, responses: seq<Response>, now: seq<int>) returns (result: Run)
    requires |now| == |responses| && (recent ==> db.papers != [])
    requires db.Valid()
    modifies db
    ensures db.Valid()
    ensures var out := HarvestRun(old(db.Contents()), recent, responses, now);
      result == Run(out.total, out.requests, out.lastDate) && db.Contents() == out.db
  {
    ghost var start := db.Contents();
    var first := FirstRequest(recent, db.papers);
    var lastDate: Option<int> := if recent then Some(first.date) else None;
    var url := first;
    var total: nat := 0;
    var requests: seq<Request> := [];
    var running := true;
    ghost var run := HarvestRun(start, recent, responses, now);
    assert run == RunFrom(TurnOf, db.Contents(), total, lastDate, url, responses, now, |requests|);
    assert requests + run.requests == run.requests;
    while running && |requests| < |responses|
      invariant db.Valid() && |requests| <= |responses|
      invariant running ==> var rest := RunFrom(TurnOf, db.Contents(), total, lastDate, url, responses, now, |requests|);
        run == rest.(requests := requests + rest.requests)
      invariant !running ==> run == Outcome(total, requests, lastDate, db.Contents())
      decreases |responses| - |requests|, running
    {
      ghost var q := requests;
      ghost var u := url;
      total, requests, url, lastDate, running := HandleStep(db, total, requests, responses, now, url, lastDate);
      RestPrefix(run, q, u, RunFrom(TurnOf, db.Contents(), total, lastDate, url, responses, now, |requests|));
    }
    if running {
      RunFromEnd(TurnOf, db.Contents(), total, lastDate, url, responses, now, requests);
    }
    result := Run(total, requests, lastDate);
  }

  /** A run that has used every response makes no more requests. */
  lemma RunFromEnd(turn: TurnFn, d: Db, total: nat, last: Option<int>, url: Request,
                   responses: seq<Response>, now: seq<int>, q: seq<Request>)
    requires |now| == |responses| && |q| == |responses|
    ensures var rest := RunFrom(turn, d, total, last, url, responses, now, |q|);
      rest.(requests := q + rest.requests) == Outcome(total, q, last, d)
  {
    assert q + [] == q;
  }

  /** The requests so far, then the request just made, then the rest of
      the run. */
  lemma RestPrefix(run: Outcome, q: seq<Request>, u: Request, rest: Outcome)
    ensures run == (var o := rest.(requests := [u] + rest.requests); o.(requests := q + o.requests)) ==>
      run == rest.(requests := (q + [u]) + rest.requests)
  {
    assert q + ([u] + rest.requests) == (q + [u]) + rest.requests;
  }

  /** From request `url` on, each request of the run `out` follows the
      rules for the response before it. */
  lemma {:induction false} RunFromFollows(turn: TurnFn, d: Db, total: nat, last: Option<int>, url: Request,
                                          responses: seq<Response>, now: seq<int>, i: nat, out: Outcome)
    requires TurnToken(turn)
    requires |now| == |responses| && i <= |responses|
    requires out == RunFrom(turn, d, total, last, url, responses, now, i)
    ensures forall k :: 0 < k < |out.requests| ==> Follows(out.requests[k], responses[i + k - 1], now[i + k - 1])
    decreases |responses| - i
  {
    if i < |responses| {
      var t := turn(d, last, responses[i]);
      var next := NextRequest(t.token, t.last, now[i]);
      if next.Some? {
        assert t.token.Some? ==> responses[i].Page? && ResumptionToken(responses[i].tokenElem) == t.token;
        NextFollows(responses, i, t.token, t.last, now, next);
        var rest := RunFrom(turn, t.db, total + t.created, t.last, next.value, responses, now, i + 1);
        RunFromFollows(turn, t.db, total + t.created, t.last, next.value, responses, now, i + 1, rest);
        var q := out.requests;
        assert q == [url] + rest.requests;
        forall k | 0 < k < |q| ensures Follows(q[k], responses[i + k - 1], now[i + k - 1]) {
          assert q[k] == rest.requests[k - 1];
          if k > 1 {
            assert Follows(rest.requests[k - 1], responses[(i + 1) + (k - 1) - 1], now[(i + 1) + (k - 1) - 1]);
          }
        }
      }
    }
  }

  /** From request `url` on, the restart dates of the run `out` are at
      least `last_date` and never go back (a first request that is a
      restart is from `last_date`). */
  lemma {:induction false} RunFromRestarts(turn: TurnFn, d: Db, total: nat, last: Option<int>, url: Request,
                                           responses: seq<Response>, now: seq<int>, i: nat, out: Outcome)
    requires TurnLast(turn)
    requires |now| == |responses| && i <= |responses|
    requires url.From? ==> last.Some? && url.date == last.value
    requires out == RunFrom(turn, d, total, last, url, responses, now, i)
    ensures forall k :: 0 <= k < |out.requests| && out.requests[k].From? && last.Some? ==> last.value <= out.requests[k].date
    ensures forall j, k :: 0 <= j < k < |out.requests| && out.requests[j].From? && out.requests[k].From? ==>
      out.requests[j].date <= out.requests[k].date
    decreases |responses| - i
  {
    if i < |responses| {
      var t := turn(d, last, responses[i]);
      var next := NextRequest(t.token, t.last, now[i]);
      if next.Some? {
        assert last.Some? ==> t.last.Some? && last.value <= t.last.value;
        var rest := RunFrom(turn, t.db, total + t.created, t.last, next.value, responses, now, i + 1);
        RunFromRestarts(turn, t.db, total + t.created, t.last, next.value, responses, now, i + 1, rest);
        var q := out.requests;
        assert q == [url] + rest.requests;
        assert forall k :: 0 < k < |q| ==> q[k] == rest.requests[k - 1];
      }
    }
  }

  /** A run `out` that ends before the responses run out ends at a
      response after which `last_date` was not stale. */
  lemma {:induction false} RunFromStops(turn: TurnFn, d: Db, total: nat, last: Option<int>, url: Request,
                                        responses: seq<Response>, now: seq<int>, i: nat, out: Outcome)
    requires |now| == |responses| && i < |responses|
    requires out == RunFrom(turn, d, total, last, url, responses, now, i)
    ensures |out.requests| < |responses| - i ==> !Stale(out.lastDate, now[i + |out.requests| - 1])
    decreases |responses| - i
  {
    var t := turn(d, last, responses[i]);
    var next := NextRequest(t.token, t.last, now[i]);
    if next.Some? && i + 1 < |responses| {
      var rest := RunFrom(turn, t.db, total + t.created, t.last, next.value, responses, now, i + 1);
      RunFromStops(turn, t.db, total + t.created, t.last, next.value, responses, now, i + 1, rest);
      assert out.requests == [url] + rest.requests && out.lastDate == rest.lastDate;
    }
  }

  /** A run `out` only adds rows, and its count is at most the papers it
      added. */
  lemma {:induction false} RunFromTotal(turn: TurnFn, d: Db, total: nat, last: Option<int>, url: Request,
                                        responses: seq<Response>, now: seq<int>, i: nat, out: Outcome)
    requires TurnGrows(turn)
    requires |now| == |responses| && i <= |responses|
    requires out == RunFrom(turn, d, total, last, url, responses, now, i)
    ensures Grows(d, out.db)
    ensures out.total - total <= |out.db.papers| - |d.papers|
    decreases |responses| - i
  {
    if i < |responses| {
      var t := turn(d, last, responses[i]);
      assert Grows(d, t.db) && t.created <= |t.db.papers| - |d.papers|;
      var next := NextRequest(t.token, t.last, now[i]);
      if next.Some? {
        var rest := RunFrom(turn, t.db, total + t.created, t.last, next.value, responses, now, i + 1);
        RunFromTotal(turn, t.db, total + t.created, t.last, next.value, responses, now, i + 1, rest);
        assert out.db == rest.db && out.total == rest.total;
        GrowsTrans(d, t.db, out.db);
      }
    }
  }

  /** The whole run obeys `Requests`, and ends early only when `last_date`
      was not stale. */
  lemma HarvestRunRules(d: Db, recent: bool, responses: seq<Response>, now: seq<int>)
    requires |now| == |responses| && (recent ==> d.papers != [])
    ensures var out := HarvestRun(d, recent, responses, now);
      && Requests(out.requests, responses, now, FirstRequest(recent, d.papers))
      && (|out.requests| < |responses| ==> out.requests != [] && !Stale(out.lastDate, now[|out.requests| - 1]))
  {
    var first := FirstRequest(recent, d.papers);
    var last := if recent then Some(first.date) else None;
    var out := HarvestRun(d, recent, responses, now);
    TurnOfRules();
    RunFromFollows(TurnOf, d, 0, last, first, responses, now, 0, out);
    RunFromRestarts(TurnOf, d, 0, last, first, responses, now, 0, out);
    if responses != [] {
      RunFromStops(TurnOf, d, 0, last, first, responses, now, 0, out);
    }
  }

  /** The whole run only adds rows, and counts at most the papers it
      added. */
  lemma HarvestRunGrows(d: Db, recent: bool, responses: seq<Response>, now: seq<int>)
    requires |now| == |responses| && (recent ==> d.papers != [])
    ensures var out := HarvestRun(d, recent, responses, now);
      Grows(d, out.db) && out.total <= |out.db.papers| - |d.papers|
  {
    var first := FirstRequest(recent, d.papers);
    TurnOfRules();
    RunFromTotal(TurnOf, d, 0, if recent then Some(first.date) else None, first, responses, now, 0,
                 HarvestRun(d, recent, responses, now));
  }

  /** The request after response `i` follows the rules, a restart is from
      `last_date`, and the run ends only when `last_date` is not stale. */
  lemma NextFollows(responses: seq<Response>, i: nat, token: Option<string>, last: Option<int>, now: seq<int>,
                    next: Option<Request>)
    requires i < |responses| && i < |now|
    requires token.Some? ==> responses[i].Page? && ResumptionToken(responses[i].tokenElem) == token
    requires next == NextRequest(token, last, now[i])
    ensures next.Some? ==> Follows(next.value, responses[i], now[i])
    ensures next.Some? && next.value.From? ==> last.Some? && next.value.date == last.value
    ensures next.None? ==> !Stale(last, now[i])
  {
  }

  /** A page never moves `last_date` back. */
  lemma LatestGrows(last: Option<int>, records: seq<Record>, last': Option<int>)
    requires exists k :: 0 <= k <= |records| && last' == Latest(last, records[..k])
    ensures last.Some? ==> last'.Some? && last.value <= last'.value
  {
  }
}

=== FILE: Latex.dfy ===
/** `process_latex_commands`: the ordered chain of substitutions that turns
    LaTeX markup in titles and abstracts into display HTML. Each stage is a
    function; the whole is their composition in source order. The bare-URL
    autolink regex is a parameter, so that its place in the order is kept
    without modelling its lookbehind and lazy matching. */
module Latex {
  import opened Wrappers
  import opened Text

  /** Position of the first `c` in `s`. */
  function IndexOf(s: string, c: char): (r: Option<nat>)
    ensures r.Some? ==> r.value < |s| && s[r.value] == c && c !in s[..r.value]
    ensures r.None? ==> c !in s
  {
    if s == [] then None
    else if s[0] == c then Some(0)
    else match IndexOf(s[1..], c)
      case None => None
      case Some(i) => assert s[..i + 1] == [s[0]] + s[1..][..i]; Some(i + 1)
  }

  /** The regex `([^}]+)\}` at the start of `s`: one or more characters
      other than `}`, then `}`. Gives the group and the text after the brace. */
  function BraceGroup(s: string): (r: Option<(string, string)>)
    ensures r.Some? ==> |r.value.0| > 0 && '}' !in r.value.0 && s == r.value.0 + "}" + r.value.1
    ensures r.None? ==> s == [] || s[0] == '}' || '}' !in s
  {
    match IndexOf(s, '}')
    case None => None
    case Some(j) =>
      if j == 0 then None
      else
        assert s == s[..j] + "}" + s[j + 1..];
        Some((s[..j], s[j + 1..]))
  }

  /** What opens a command with one argument: `\<cmd>{`. */
  function Head(cmd: string): string
  {
    "\\" + cmd + "{"
  }

  /** `re.sub(r"\\<cmd>\{([^}]+)\}", <template>, s)`, the template given as
      a function of the group. Text without `\<cmd>{` is unchanged. */
  function BraceCommand(s: string, cmd: string, render: string -> string): (r: string)
    ensures !Contains(s, Head(cmd)) ==> r == s
    decreases |s|
  {
    var head := Head(cmd);
    if s == [] then []
    else if |s| >= |head| && s[..|head|] == head && BraceGroup(s[|head|..]).Some? then
      var g := BraceGroup(s[|head|..]).value;
      assert OccursAt(s, head, 0);
      render(g.0) + BraceCommand(g.1, cmd, render)
    else
      assert !Contains(s, head) ==> !Contains(s[1..], head) by {
        if Contains(s[1..], head) {
          var i :| 0 <= i <= |s[1..]| - |head| && OccursAt(s[1..], head, i);
          assert s[i + 1..i + 1 + |head|] == s[1..][i..i + |head|];
          assert OccursAt(s, head, i + 1);
        }
      }
      [s[0]] + BraceCommand(s[1..], cmd, render)
  }

  /** Text without a backslash is copied through. */
  lemma {:induction false} BraceCommandPlain(pre: string, t: string, cmd: string, render: string -> string)
    requires '\\' !in pre
    ensures BraceCommand(pre + t, cmd, render) == pre + BraceCommand(t, cmd, render)
    decreases |pre|
  {
    if pre != [] {
      var s := pre + t;
      var rest := BraceCommand(t, cmd, render);
      assert BraceCommand(s, cmd, render) == [pre[0]] + BraceCommand(pre[1..] + t, cmd, render) by {
        assert s[0] == pre[0] && s[1..] == pre[1..] + t;
        BraceCommandSkip(s, cmd, render);
      }
      BraceCommandPlain(pre[1..], t, cmd, render);
      assert [pre[0]] + (pre[1..] + rest) == pre + rest by {
        assert [pre[0]] + (pre[1..] + rest) == ([pre[0]] + pre[1..]) + rest;
        assert [pre[0]] + pre[1..] == pre;
      }
    } else {
      assert pre + t == t;
    }
  }

  /** A first character other than a backslash is copied. */
  lemma BraceCommandSkip(s: string, cmd: string, render: string -> string)
    requires s != [] && s[0] != '\\'
    ensures BraceCommand(s, cmd, render) == [s[0]] + BraceCommand(s[1..], cmd, render)
  {
    var head := Head(cmd);
    assert head[0] == '\\';
    assert !(|s| >= |head| && s[..|head|] == head);
  }

  /** Text without a backslash holds no command. */
  lemma NoCommand(s: string, cmd: string, render: string -> string)
    requires '\\' !in s
    ensures BraceCommand(s, cmd, render) == s
  {
    forall i | 0 <= i <= |s| - |Head(cmd)| ensures !OccursAt(s, Head(cmd), i) {
      assert s[i] != Head(cmd)[0];
    }
  }

  /** A group closed by the first `}` after it. */
  lemma BraceGroupFirst(g: string, rest: string)
    requires |g| > 0 && '}' !in g
    ensures BraceGroup(g + "}" + rest) == Some((g, rest))
  {
    var s := g + "}" + rest;
    var j := IndexOf(s, '}');
    assert s[|g|] == '}';
    assert s[..|g|] == g;
  }

  /** `\<cmd>{g}` at the start renders as `render(g)`, and the rest is
      processed after it. */
  lemma BraceCommandFront(g: string, rest: string, cmd: string, render: string -> string)
    requires |g| > 0 && '}' !in g
    ensures BraceCommand(Head(cmd) + g + "}" + rest, cmd, render) == render(g) + BraceCommand(rest, cmd, render)
  {
    var head := Head(cmd);
    var s := head + g + "}" + rest;
    assert s[..|head|] == head;
    assert s[|head|..] == g + "}" + rest;
    BraceGroupFirst(g, rest);
  }

  /** `\<cmd>{g}` between text without backslashes renders as `render(g)`
      in place, the text around it kept. */
  lemma BraceCommandRenders(pre: string, g: string, post: string, cmd: string, render: string -> string)
    requires '\\' !in pre && '\\' !in post && |g| > 0 && '}' !in g
    ensures BraceCommand(pre + Head(cmd) + g + "}" + post, cmd, render) == pre + render(g) + post
  {
    var s := Head(cmd) + g + "}" + post;
    assert pre + Head(cmd) + g + "}" + post == pre + s;
    BraceCommandPlain(pre, s, cmd, render);
    BraceCommandFront(g, post, cmd, render);
    BraceCommandPlain(post, [], cmd, render);
    assert post + [] == post;
  }

  /** `re.sub(r"\\href\{([^}]+)\}\{([^}]+)\}", r'<a href="\1" target="_blank">\2</a>', s)`. */
  function HrefCommand(s: string): (r: string)
    decreases |s|
  {
    var head := "\\href{";
    var g1 := if |s| >= |head| && s[..|head|] == head then BraceGroup(s[|head|..]) else None;
    var g2 := if g1.Some? && |g1.value.1| > 0 && g1.value.1[0] == '{' then BraceGroup(g1.value.1[1..]) else None;
    if s == [] then []
    else if g2.Some? then
      "<a href=\"" + g1.value.0 + "\" target=\"_blank\">" + g2.value.0 + "</a>" + HrefCommand(g2.value.1)
    else [s[0]] + HrefCommand(s[1..])
  }

  /** `re.sub(r"\\textbackslash(?:\{\})?", r"\\", s)`: one backslash; the
      optional `{}` is consumed whenever it follows. */
  function TextBackslash(s: string): (r: string)
    decreases |s|
  {
    if s == [] then []
    else if |s| >= 16 && s[..16] == "\\textbackslash{}" then "\\" + TextBackslash(s[16..])
    else if |s| >= 14 && s[..14] == "\\textbackslash" then "\\" + TextBackslash(s[14..])
    else [s[0]] + TextBackslash(s[1..])
  }

  /** The replacement templates of the formatting substitutions. */
  function Strong(g: string): string { "<strong>" + g + "</strong>" }
  function Em(g: string): string { "<em>" + g + "</em>" }
  function Code(g: string): string { "<code>" + g + "</code>" }
  function Underline(g: string): string { "<u>" + g + "</u>" }

  /** The "Text formatting commands" substitutions of
      `process_latex_commands`: formatting commands become HTML tags. */
  function Formatting(s: string): string
  {
    var s1 := BraceCommand(s, "textbf", Strong);
    var s2 := BraceCommand(s1, "textit", Em);
    var s3 := BraceCommand(s2, "emph", Em);
    var s4 := BraceCommand(s3, "texttt", Code);
    BraceCommand(s4, "underline", Underline)
  }

  /** A `\textbf{g}` in text with no other backslash comes out bold, and
      the later formatting stages leave the result alone. */
  lemma FormattingBold(pre: string, g: string, post: string)
    requires '\\' !in pre && '\\' !in g && '\\' !in post && |g| > 0 && '}' !in g
    ensures Formatting(pre + "\\textbf{" + g + "}" + post) == pre + Strong(g) + post
  {
    assert Head("textbf") == "\\textbf{";
    var s := pre + Head("textbf") + g + "}" + post;
    var r := pre + Strong(g) + post;
    BraceCommandRenders(pre, g, post, "textbf", Strong);
    assert BraceCommand(s, "textbf", Strong) == r;
    assert '\\' !in r;
    NoCommand(r, "textit", Em);
    NoCommand(r, "emph", Em);
    NoCommand(r, "texttt", Code);
    NoCommand(r, "underline", Underline);
    assert Formatting(s) == r;
    assert pre + "\\textbf{" + g + "}" + post == s;
  }

  /** The first two "URLs and hrefs" substitutions: `\url{u}` and
      `\href{u}{text}` become links. */
  function UrlCommands(s: string): string
  {
    var s1 := BraceCommand(s, "url", g => "<a href=\"" + g + "\" target=\"_blank\">" + g + "</a>");
    HrefCommand(s1)
  }

  /** The "Special characters and escapes" substitutions: escaped special
      characters lose their backslash. */
  function Escapes(s: string): string
  {
    var s1 := ReplaceAll(s, "\\%", "%");
    var s2 := ReplaceAll(s1, "\\&", "&");
    var s3 := ReplaceAll(s2, "\\$", "$");
    var s4 := ReplaceAll(s3, "\\#", "#");
    var s5 := ReplaceAll(s4, "\\_", "_");
    var s6 := ReplaceAll(s5, "\\{", "{");
    var s7 := ReplaceAll(s6, "\\}", "}");
    var s8 := TextBackslash(s7);
    var s9 := ReplaceAll(s8, "\\~", "~");
    ReplaceAll(s9, "\\^", "^")
  }

  /** The replacement text of the third "LaTeX quotes" `re.sub`, the one
      whose pattern is a single backtick: its triple-quoted literal runs on
      to the next line and swallows what looks like a further `re.sub` of
      the apostrophe. */
  const BacktickReplacement: string := ", text)\n    text = re.sub(r\"'\", "

  /** The "LaTeX quotes" substitutions: double quotes of both kinds become
      `"`; then every single backtick becomes `BacktickReplacement`. Lone
      apostrophes are kept. */
  function Quotes(s: string): string
  {
    var s1 := ReplaceAll(s, "``", "\"");
    var s2 := ReplaceAll(s1, "''", "\"");
    ReplaceAll(s2, "`", BacktickReplacement)
  }

  /** The "Common spacing commands" substitutions: thin spaces,
      non-breaking tildes and line breaks. */
  function Spacing(s: string): string
  {
    var s1 := ReplaceAll(s, "\\,", " ");
    var s2 := ReplaceAll(s1, "~", "&nbsp;");
    ReplaceAll(s2, "\\\\", "<br>")
  }

  /** Everything after the autolink step. */
  function AfterLinks(s: string): string
  {
    Spacing(Quotes(Escapes(s)))
  }

  /** `process_latex_commands(text)`. */
  function ProcessLatex(text: string, autolink: string -> string): string
  {
    AfterLinks(autolink(UrlCommands(Formatting(text))))
  }

  /** The autolink step only rewrites text that contains "http". */
  ghost predicate AutolinkIdleWithoutHttp(autolink: string -> string)
  {
    forall t :: !Contains(t, "http") ==> autolink(t) == t
  }

  /** No `~` survives: the tilde step runs after `\~` is unescaped, and the
      line-break step that follows adds none. */
  lemma NoTildeInOutput(text: string, autolink: string -> string)
    ensures '~' !in ProcessLatex(text, autolink)
  {
    var q := Quotes(Escapes(autolink(UrlCommands(Formatting(text)))));
    var s1 := ReplaceAll(q, "\\,", " ");
    ReplaceCharRemovesAll(s1, '~', "&nbsp;");
  }

  /** No backtick survives: the backtick step replaces every one by text
      without backticks, and the spacing steps add none. */
  lemma NoBacktickInOutput(text: string, autolink: string -> string)
    ensures '`' !in ProcessLatex(text, autolink)
  {
    var e := Escapes(autolink(UrlCommands(Formatting(text))));
    NoBacktickInQuotes(e);
    NoBacktickInSpacing(Quotes(e));
  }

  /** The quote steps leave no backtick. */
  lemma NoBacktickInQuotes(e: string)
    ensures '`' !in Quotes(e)
  {
    ReplaceCharRemovesAll(ReplaceAll(ReplaceAll(e, "``", "\""), "''", "\""), '`', BacktickReplacement);
  }

  /** The spacing steps bring in no backtick. */
  lemma NoBacktickInSpacing(q: string)
    requires '`' !in q
    ensures '`' !in Spacing(q)
  {
    var t1 := ReplaceAll(q, "\\,", " ");
    assert '`' !in t1;
    var t2 := ReplaceAll(t1, "~", "&nbsp;");
    assert '`' !in t2;
  }

  /** A pattern that occurs at no position leaves the text unchanged. */
  lemma ReplaceNowhere(s: string, pat: string, rep: string)
    requires pat != []
    requires forall i: nat :: i <= |s| - |pat| ==> !OccursAt(s, pat, i)
    ensures ReplaceAll(s, pat, rep) == s
  {
    ReplaceAbsent(s, pat, rep);
  }

  /** `\\%` (an escaped backslash before a percent sign) comes out as `\%`:
      the percent escape takes the second backslash before the line-break
      step could pair the two. */
  lemma DoubleBackslashPercent()
    ensures AfterLinks("\\\\%") == "\\%"
  {
    var s: string := "\\\\%";
    assert ReplaceAll(s[1..], "\\%", "%") == "%" + ReplaceAll([], "\\%", "%");
    var e1 := ReplaceAll(s, "\\%", "%");
    assert e1 == "\\%";
    ReplaceNowhere(e1, "\\&", "&");
    ReplaceNowhere(e1, "\\$", "$");
    ReplaceNowhere(e1, "\\#", "#");
    ReplaceNowhere(e1, "\\_", "_");
    ReplaceNowhere(e1, "\\{", "{");
    ReplaceNowhere(e1, "\\}", "}");
    assert TextBackslash(e1) == e1;
    ReplaceNowhere(e1, "\\~", "~");
    ReplaceNowhere(e1, "\\^", "^");
    assert Escapes(s) == e1;
    ReplaceNowhere(e1, "``", "\"");
    ReplaceNowhere(e1, "''", "\"");
    ReplaceNowhere(e1, "`", BacktickReplacement);
    assert Quotes(e1) == e1;
    ReplaceNowhere(e1, "\\,", " ");
    ReplaceNowhere(e1, "~", "&nbsp;");
    ReplaceNowhere(e1, "\\\\", "<br>");
  }

  /** `\%` comes out as `%`. */
  lemma BackslashPercent()
    ensures AfterLinks("\\%") == "%"
  {
    var s: string := "\\%";
    var e1 := ReplaceAll(s, "\\%", "%");
    assert e1 == "%";
    ReplaceNowhere(e1, "\\&", "&");
    ReplaceNowhere(e1, "\\$", "$");
    ReplaceNowhere(e1, "\\#", "#");
    ReplaceNowhere(e1, "\\_", "_");
    ReplaceNowhere(e1, "\\{", "{");
    ReplaceNowhere(e1, "\\}", "}");
    assert TextBackslash(e1) == e1;
    ReplaceNowhere(e1, "\\~", "~");
    ReplaceNowhere(e1, "\\^", "^");
    assert Escapes(s) == e1;
    ReplaceNowhere(e1, "``", "\"");
    ReplaceNowhere(e1, "''", "\"");
    ReplaceNowhere(e1, "`", BacktickReplacement);
    assert Quotes(e1) == e1;
    ReplaceNowhere(e1, "\\,", " ");
    ReplaceNowhere(e1, "~", "&nbsp;");
    ReplaceNowhere(e1, "\\\\", "<br>");
  }

  /** The steps after the autolink are not idempotent: a second pass over
      the output of `\\%` changes it again. */
  lemma NotIdempotent()
    ensures AfterLinks(AfterLinks("\\\\%")) != AfterLinks("\\\\%")
  {
    DoubleBackslashPercent();
    BackslashPercent();
  }
}

=== FILE: LegacyViews.dfy ===
/** The first version's views: a title search, and the papers nearest to
    one paper by the L2 distance between their `gemini-embedding-001`
    abstract embeddings, each with a similarity score `1 / (1 + distance)`. */
module LegacyViews {
  import opened Wrappers
  import opened Text
  import opened Ranking
  import opened Chunking
  import opened Corpus
  import opened Retrieval

  /** The slice `[:100]` of the title search and `[:60]` of the neighbours. */
  const SearchLimit: nat := 100
  const SimilarLimit: nat := 60

  /** The embedding model and type the neighbour search reads. */
  const GeminiModel: string := "gemini-embedding-001"
  const AbstractKind: string := "abstract"

  /** An `Embedding` row's key, unique by `unique_together`. */
  datatype EmbeddingKey = EmbeddingKey(paper: PaperId, model: string, kind: string)

  /** The embedding table: one vector per key. */
  type EmbeddingTable = map<EmbeddingKey, seq<real>>

  /** An entry of the neighbour list. */
  datatype Neighbour = Neighbour(paper: PaperId, distance: real, similarity: real)

  predicate TitleMatch(store: Store, query: string, id: PaperId)
  {
    id in store && ContainsIgnoreCase(store[id].title, query)
  }

  function TitleKeep(store: Store, query: string): PaperId -> bool
  {
    (id: PaperId) => TitleMatch(store, query, id)
  }

  /** The title search: matching papers newest first, 100 at most. */
  function TitleSearch(store: Store, query: string): (r: seq<PaperId>)
    ensures |r| <= SearchLimit
    ensures forall x :: x in r ==> x in store
  {
    QueryFromTable(SortedKeys(store.Keys), TitleKeep(store, query), CreatedKey(store), SearchLimit);
    Query(SortedKeys(store.Keys), TitleKeep(store, query), CreatedKey(store), SearchLimit)
  }

  /** `search_papers`: the `q` parameter, `""` when absent; no list for an
      empty query, else the title search. */
  function SearchPapers(store: Store, q: Option<string>): (r: Option<seq<PaperId>>)
    ensures r.None? <==> q.None? || q.value == ""
    ensures r.Some? ==> r.value == TitleSearch(store, q.value)
  {
    var query := if q.Some? then q.value else "";
    if query == "" then None else Some(TitleSearch(store, query))
  }

  /** Every result is a distinct paper whose title holds the query. */
  lemma TitleSearchMatches(store: Store, query: string)
    ensures Distinct(TitleSearch(store, query))
    ensures forall x :: x in TitleSearch(store, query) ==> TitleMatch(store, query, x)
  {
    QueryFiltered(SortedKeys(store.Keys), TitleKeep(store, query), CreatedKey(store), SearchLimit);
  }

  /** Results come newest first. */
  lemma TitleSearchNewestFirst(store: Store, query: string)
    ensures forall i, j :: 0 <= i < j < |TitleSearch(store, query)| ==>
      store[TitleSearch(store, query)[i]].created >= store[TitleSearch(store, query)[j]].created
  {
    var r := TitleSearch(store, query);
    var key := CreatedKey(store);
    QueryOrdered(SortedKeys(store.Keys), TitleKeep(store, query), key, SearchLimit);
    forall i, j | 0 <= i < j < |r| ensures store[r[i]].created >= store[r[j]].created {
      assert r[i] in store && r[j] in store;
      assert KeyLe(key(r[i]), key(r[j]));
      NewestFirstOrder(store[r[i]], store[r[j]]);
    }
  }

  /** No matching paper left out is newer than one returned, and when fewer
      than 100 come back every match is there. */
  lemma TitleSearchTop(store: Store, query: string)
    ensures forall x, y ::
      (x in TitleSearch(store, query) && TitleMatch(store, query, y) && y !in TitleSearch(store, query))
      ==> store[x].created >= store[y].created
    ensures |TitleSearch(store, query)| < SearchLimit ==>
      forall y :: TitleMatch(store, query, y) ==> y in TitleSearch(store, query)
  {
    var ids := SortedKeys(store.Keys);
    var r := TitleSearch(store, query);
    TitleSearchMatches(store, query);
    QueryTop(ids, TitleKeep(store, query), CreatedKey(store), SearchLimit);
    QueryComplete(ids, TitleKeep(store, query), CreatedKey(store), SearchLimit);
    forall x, y | x in r && TitleMatch(store, query, y) && y !in r ensures store[x].created >= store[y].created {
      assert y in ids;
      NewestFirstOrder(store[x], store[y]);
    }
  }

  /** `1 / (1 + distance)`. */
  function Similarity(d: real): (s: real)
    requires d >= 0.0
    ensures 0.0 < s <= 1.0
    ensures s == 1.0 <==> d == 0.0
  {
    1.0 / (1.0 + d)
  }

  /** A larger distance gives a strictly smaller similarity. */
  lemma SimilarityDecreasing(d: real, e: real)
    requires 0.0 <= d < e
    ensures Similarity(e) < Similarity(d)
  {
    var a, b := 1.0 + d, 1.0 + e;
    assert Similarity(e) == Similarity(d) * a / b by {
      assert Similarity(d) * a == 1.0;
    }
    assert a / b < 1.0;
  }

  /** The abstract vectors of `gemini-embedding-001`, by paper. */
  function GeminiVectors(emb: EmbeddingTable): (m: map<PaperId, seq<real>>)
    ensures forall p :: p in m <==> EmbeddingKey(p, GeminiModel, AbstractKind) in emb
    ensures forall p :: p in m ==> m[p] == emb[EmbeddingKey(p, GeminiModel, AbstractKind)]
  {
    map k | k in emb && k.model == GeminiModel && k.kind == AbstractKind :: k.paper := emb[k]
  }

  /** The neighbour search's row filter: any other paper. */
  function Other(source: PaperId): PaperId -> bool
  {
    (p: PaperId) => p != source
  }

  /** Each paper's L2 distance from the vector `v`: the `distance`
      annotation. */
  function Distances(vs: map<PaperId, seq<real>>, v: seq<real>, l2: (seq<real>, seq<real>) -> real): (m: map<PaperId, real>)
    ensures m.Keys == vs.Keys
    ensures forall p :: p in m ==> m[p] == l2(vs[p], v)
  {
    map p | p in vs :: l2(vs[p], v)
  }

  /** The neighbour search's sort key: the distance, nearest first. */
  function DistanceKey(dist: map<PaperId, real>): PaperId -> Key
  {
    (p: PaperId) => if p in dist then [dist[p]] else []
  }

  /** Sort keys of one distance order as the distances do. */
  lemma DistanceOrder(a: real, b: real)
    ensures KeyLe([a], [b]) <==> a <= b
  {
    assert [a][1..] == [] && [b][1..] == [];
  }

  /** The 60 papers nearest by `dist`, the source excluded. */
  function Nearest60(dist: map<PaperId, real>, source: PaperId): (r: seq<PaperId>)
    ensures |r| <= SimilarLimit
    ensures forall p :: p in r ==> p != source && p in dist
  {
    QueryFromTable(SortedKeys(dist.Keys), Other(source), DistanceKey(dist), SimilarLimit);
    Query(SortedKeys(dist.Keys), Other(source), DistanceKey(dist), SimilarLimit)
  }

  /** Neighbours are distinct, and come in non-decreasing distance. */
  lemma NearestOrdered(dist: map<PaperId, real>, source: PaperId)
    ensures Distinct(Nearest60(dist, source))
    ensures forall i, j :: 0 <= i < j < |Nearest60(dist, source)| ==>
      dist[Nearest60(dist, source)[i]] <= dist[Nearest60(dist, source)[j]]
  {
    var key := DistanceKey(dist);
    var r := Nearest60(dist, source);
    QueryFiltered(SortedKeys(dist.Keys), Other(source), key, SimilarLimit);
    QueryOrdered(SortedKeys(dist.Keys), Other(source), key, SimilarLimit);
    forall i, j | 0 <= i < j < |r| ensures dist[r[i]] <= dist[r[j]] {
      assert r[i] in dist && r[j] in dist;
      assert KeyLe(key(r[i]), key(r[j]));
      DistanceOrder(dist[r[i]], dist[r[j]]);
    }
  }

  /** No other paper left out is nearer than one returned. */
  lemma NearestTop(dist: map<PaperId, real>, source: PaperId)
    ensures forall x, y ::
      (x in Nearest60(dist, source) && y in dist && y != source && y !in Nearest60(dist, source))
      ==> dist[x] <= dist[y]
  {
    var ids := SortedKeys(dist.Keys);
    var key := DistanceKey(dist);
    var r := Nearest60(dist, source);
    QueryTop(ids, Other(source), key, SimilarLimit);
    forall x, y | x in r && y in dist && y != source && y !in r ensures dist[x] <= dist[y] {
      assert x in dist && y in ids && Other(source)(y);
      assert KeyLe(key(x), key(y));
      DistanceOrder(dist[x], dist[y]);
    }
  }

  /** When fewer than 60 come back, every other paper is there. */
  lemma NearestComplete(dist: map<PaperId, real>, source: PaperId)
    ensures |Nearest60(dist, source)| < SimilarLimit ==>
      forall y :: y in dist && y != source ==> y in Nearest60(dist, source)
  {
    var ids := SortedKeys(dist.Keys);
    QueryComplete(ids, Other(source), DistanceKey(dist), SimilarLimit);
    forall y | y in dist && y != source ensures y in ids && Other(source)(y) {
    }
  }

  /** `entries` scores the first `n` of `near` one by one: each with its
      distance and the similarity of that distance. */
  ghost predicate Scored(dist: map<PaperId, real>, near: seq<PaperId>, n: nat, entries: seq<Neighbour>)
  {
    && |entries| == n <= |near|
    && forall k :: 0 <= k < n ==>
      && near[k] in dist
      && entries[k].paper == near[k]
      && entries[k].distance == dist[near[k]]
      && entries[k].distance >= 0.0
      && entries[k].similarity == Similarity(entries[k].distance)
  }

  lemma ScoredStep(dist: map<PaperId, real>, near: seq<PaperId>, n: nat, entries: seq<Neighbour>)
    requires Scored(dist, near, n, entries) && n < |near|
    requires near[n] in dist && dist[near[n]] >= 0.0
    ensures Scored(dist, near, n + 1, entries + [Neighbour(near[n], dist[near[n]], Similarity(dist[near[n]]))])
  {
  }

  /** The response for a paper with a vector: its 60 neighbours, scored. */
  ghost predicate Listed(vs: map<PaperId, seq<real>>, source: PaperId, l2: (seq<real>, seq<real>) -> real,
                         entries: seq<Neighbour>)
  {
    && source in vs
    && var dist := Distances(vs, vs[source], l2);
       Scored(dist, Nearest60(dist, source), |Nearest60(dist, source)|, entries)
  }

  /** Scoring a list in non-decreasing distance gives non-increasing
      similarity. */
  lemma ScoredMostSimilarFirst(dist: map<PaperId, real>, near: seq<PaperId>, entries: seq<Neighbour>)
    requires Scored(dist, near, |near|, entries)
    requires forall i, j :: 0 <= i < j < |near| ==> dist[near[i]] <= dist[near[j]]
    ensures forall i, j :: 0 <= i < j < |entries| ==> entries[i].similarity >= entries[j].similarity
  {
    forall i, j | 0 <= i < j < |entries| ensures entries[i].similarity >= entries[j].similarity {
      if entries[i].distance < entries[j].distance {
        SimilarityDecreasing(entries[i].distance, entries[j].distance);
      }
    }
  }

  /** The listed neighbours are distinct and come most similar first. */
  lemma ListedMostSimilarFirst(vs: map<PaperId, seq<real>>, source: PaperId, l2: (seq<real>, seq<real>) -> real,
                               entries: seq<Neighbour>)
    requires Listed(vs, source, l2, entries)
    ensures forall i, j :: 0 <= i < j < |entries| ==>
      entries[i].paper != entries[j].paper && entries[i].similarity >= entries[j].similarity
  {
    var dist := Distances(vs, vs[source], l2);
    NearestOrdered(dist, source);
    ScoredMostSimilarFirst(dist, Nearest60(dist, source), entries);
  }

  /** `similar_papers`: 404 for an unknown paper or one without an abstract
      embedding; else one entry per neighbour, in order, with its distance
      and similarity. L2 distances are never negative. */
  method SimilarPapers(store: Store, emb: EmbeddingTable, source: PaperId, l2: (seq<real>, seq<real>) -> real)
    returns (r: Result<seq<Neighbour>, HttpError>)
    requires forall u, v :: l2(u, v) >= 0.0
    ensures r.Err? <==> source !in store || source !in GeminiVectors(emb)
    ensures r.Err? ==> r.error == NotFound
    ensures r.Ok? ==> Listed(GeminiVectors(emb), source, l2, r.value)
  {
    if source !in store {
      return Err(NotFound);
    }
    var vs := GeminiVectors(emb);
    if source !in vs {
      return Err(NotFound);
    }
    var dist := Distances(vs, vs[source], l2);
    var near := Nearest60(dist, source);
    var entries: seq<Neighbour> := [];
    for i := 0 to |near|
      invariant Scored(dist, near, i, entries)
    {
      var d := dist[near[i]];
      ScoredStep(dist, near, i, entries);
      entries := entries + [Neighbour(near[i], d, Similarity(d))];
    }
    return Ok(entries);
  }
}

=== FILE: Ranking.dfy ===
/** The ordering primitives behind the datastore's `ORDER BY ... LIMIT n`
    and its primary-key table order. A sort key is a sequence of reals
    compared lexicographically, which covers every ordering the modelled
    queries use: descending timestamps (negated), ascending distances,
    titles (code points) and nullable timestamps (a leading tag). */
module Ranking {

  type Key = seq<real>

  /** Lexicographic order on keys; a proper prefix sorts first. */
  predicate KeyLe(a: Key, b: Key)
    decreases |a|
  {
    a == [] || (b != [] && (a[0] < b[0] || (a[0] == b[0] && KeyLe(a[1..], b[1..]))))
  }

  lemma {:induction false} KeyLeTotal(a: Key, b: Key)
    ensures KeyLe(a, b) || KeyLe(b, a)
    decreases |a|
  {
    if a != [] && b != [] && a[0] == b[0] {
      KeyLeTotal(a[1..], b[1..]);
    }
  }

  lemma {:induction false} KeyLeTrans(a: Key, b: Key, c: Key)
    requires KeyLe(a, b) && KeyLe(b, c)
    ensures KeyLe(a, c)
    decreases |a|
  {
    if a != [] && b != [] && c != [] && a[0] == b[0] && b[0] == c[0] {
      KeyLeTrans(a[1..], b[1..], c[1..]);
    }
  }

  /** A string as a key: its code points, so that keys compare the way
      strings do. */
  function TextKey(t: string): (k: Key)
    ensures |k| == |t| && forall i :: 0 <= i < |t| ==> k[i] == t[i] as int as real
  {
    seq(|t|, i requires 0 <= i < |t| => t[i] as int as real)
  }

  /** A row of a query result together with the value it is ordered by. */
  datatype Ranked<T> = Ranked(item: T, key: Key)

  predicate Sorted<T>(s: seq<Ranked<T>>)
  {
    forall i, j :: 0 <= i < j < |s| ==> KeyLe(s[i].key, s[j].key)
  }

  predicate Distinct<T(==)>(s: seq<T>)
  {
    forall i, j :: 0 <= i < j < |s| ==> s[i] != s[j]
  }

  /** A sequence has no repeated element exactly when no element has
      multiplicity above one. */
  lemma {:induction false} DistinctIffSingleCounts<T>(s: seq<T>)
    ensures Distinct(s) <==> forall x :: multiset(s)[x] <= 1
  {
    if s != [] {
      DistinctIffSingleCounts(s[1..]);
      assert s == [s[0]] + s[1..];
      assert multiset(s) == multiset{s[0]} + multiset(s[1..]);
      if Distinct(s) {
        assert s[0] !in s[1..];
        assert Distinct(s[1..]);
      } else {
        var i, j :| 0 <= i < j < |s| && s[i] == s[j];
        if i == 0 {
          assert s[j] in multiset(s[1..]);
          assert multiset(s)[s[0]] >= 2;
        } else {
          assert s[1..][i - 1] == s[1..][j - 1];
          assert !Distinct(s[1..]);
          var x :| multiset(s[1..])[x] > 1;
          assert multiset(s)[x] > 1;
        }
      }
    }
  }

  /** Taking part of a multiset of distinct elements keeps them distinct. */
  lemma DistinctSub<T>(a: seq<T>, b: seq<T>)
    requires multiset(a) <= multiset(b) && Distinct(b)
    ensures Distinct(a)
  {
    DistinctIffSingleCounts(a);
    DistinctIffSingleCounts(b);
    forall x ensures multiset(a)[x] <= 1 {
      assert multiset(a)[x] <= multiset(b)[x];
    }
  }

  /** Inserts `x` before the first element it does not sort after (so rows
      with equal keys keep their earlier order). */
  function Insert<T(==)>(x: Ranked<T>, s: seq<Ranked<T>>): (r: seq<Ranked<T>>)
    requires Sorted(s)
    ensures Sorted(r)
    ensures multiset(r) == multiset(s) + multiset{x}
  {
    if s == [] then [x]
    else if KeyLe(x.key, s[0].key) then
      InsertFront(x, s);
      [x] + s
    else
      var rest := Insert(x, s[1..]);
      InsertBehind(x, s, rest);
      [s[0]] + rest
  }

  /** A row that sorts no later than the head of a sorted sequence goes in
      front of it. */
  lemma InsertFront<T>(x: Ranked<T>, s: seq<Ranked<T>>)
    requires Sorted(s) && s != [] && KeyLe(x.key, s[0].key)
    ensures Sorted([x] + s)
  {
    forall j | 0 < j < |s| ensures KeyLe(x.key, s[j].key) {
      KeyLeTrans(x.key, s[0].key, s[j].key);
    }
  }

  /** A row that sorts after the head goes into the tail, and the head stays
      in front. */
  lemma InsertBehind<T>(x: Ranked<T>, s: seq<Ranked<T>>, rest: seq<Ranked<T>>)
    requires Sorted(s) && s != [] && !KeyLe(x.key, s[0].key)
    requires Sorted(rest) && multiset(rest) == multiset(s[1..]) + multiset{x}
    ensures Sorted([s[0]] + rest)
    ensures multiset([s[0]] + rest) == multiset(s) + multiset{x}
  {
    assert s == [s[0]] + s[1..];
    forall y | y in rest ensures KeyLe(s[0].key, y.key) {
      assert y in multiset(rest);
      if y == x {
        KeyLeTotal(x.key, s[0].key);
      } else {
        assert y in multiset(s[1..]);
        var k :| 0 <= k < |s[1..]| && s[1..][k] == y;
        assert s[k + 1] == y;
      }
    }
  }

  /** A stable insertion sort by key: the result is ordered and a
      permutation of the input. */
  function Sort<T(==)>(s: seq<Ranked<T>>): (r: seq<Ranked<T>>)
    ensures Sorted(r)
    ensures multiset(r) == multiset(s)
  {
    if s == [] then []
    else
      assert s == [s[0]] + s[1..];
      Insert(s[0], Sort(s[1..]))
  }

  /** The first `m` rows of a sorted permutation of `s` are rows of `s`, and
      every row of `s` left out sorts no earlier than any row kept. */
  lemma SortedPrefix<T>(s: seq<Ranked<T>>, t: seq<Ranked<T>>, m: nat)
    requires Sorted(t) && multiset(t) == multiset(s) && m <= |t|
    ensures multiset(t[..m]) <= multiset(s)
    ensures forall y, x :: y in t[..m] && x in multiset(s) - multiset(t[..m]) ==> KeyLe(y.key, x.key)
    ensures Distinct(s) ==> Distinct(t[..m])
  {
    assert t == t[..m] + t[m..];
    assert multiset(t) == multiset(t[..m]) + multiset(t[m..]);
    forall y, x | y in t[..m] && x in multiset(s) - multiset(t[..m])
      ensures KeyLe(y.key, x.key)
    {
      var i :| 0 <= i < m && t[i] == y;
      assert x in multiset(t[m..]);
      var j :| 0 <= j < |t[m..]| && t[m..][j] == x;
      assert t[m + j] == x;
    }
    if Distinct(s) {
      DistinctSub(t[..m], s);
    }
  }

  /** `ORDER BY key LIMIT k`: the first `k` rows of the sorted input. Every
      row left out sorts no earlier than every row kept. */
  function TopK<T(==)>(s: seq<Ranked<T>>, k: nat): (r: seq<Ranked<T>>)
    ensures Sorted(r)
    ensures |r| == if k < |s| then k else |s|
    ensures multiset(r) <= multiset(s)
    ensures forall y, x :: y in r && x in multiset(s) - multiset(r) ==> KeyLe(y.key, x.key)
    ensures Distinct(s) ==> Distinct(r)
  {
    var t := Sort(s);
    assert |t| == |multiset(t)| == |multiset(s)| == |s|;
    var m := if k < |t| then k else |t|;
    SortedPrefix(s, t, m);
    t[..m]
  }

  /** A set of naturals holding `x` has a least element: descend from `x`
      while something smaller is in the set. */
  lemma {:induction false} MinExists(ks: set<nat>, x: nat)
    requires x in ks
    ensures exists m :: m in ks && forall y :: y in ks ==> m <= y
    decreases x
  {
    if !forall y :: y in ks ==> x <= y {
      var y :| y in ks && y < x;
      MinExists(ks, y);
    }
  }

  /** The least element of a non-empty finite set of naturals. */
  function Min(ks: set<nat>): (m: nat)
    requires ks != {}
    ensures m in ks && forall y :: y in ks ==> m <= y
  {
    var x :| x in ks;
    MinExists(ks, x);
    var m :| m in ks && forall y :: y in ks ==> m <= y;
    m
  }

  /** The keys of a table in primary-key order. */
  function SortedKeys(ks: set<nat>): (r: seq<nat>)
    ensures |r| == |ks|
    ensures forall x :: x in r <==> x in ks
    ensures forall i, j :: 0 <= i < j < |r| ==> r[i] < r[j]
    decreases ks
  {
    if ks == {} then []
    else
      var m := Min(ks);
      var rest := SortedKeys(ks - {m});
      assert forall x :: x in rest ==> m < x;
      [m] + rest
  }

  /** The rows of a query result, without their sort keys. */
  function Items<T>(s: seq<Ranked<T>>): (r: seq<T>)
    ensures |r| == |s| && forall i :: 0 <= i < |s| ==> r[i] == s[i].item
  {
    if s == [] then [] else [s[0].item] + Items(s[1..])
  }

  /** The rows of a table, listed in table order, that pass `keep`, each with
      its sort key. */
  function Rank<T(==)>(ids: seq<T>, keep: T -> bool, key: T -> Key): (r: seq<Ranked<T>>)
    ensures forall x :: x in r ==> x.item in ids && keep(x.item) && x.key == key(x.item)
    ensures forall y :: y in ids && keep(y) ==> Ranked(y, key(y)) in r
    ensures Distinct(ids) ==> Distinct(r)
    ensures |r| <= |ids|
    ensures (forall y :: y in ids ==> keep(y)) ==> |r| == |ids|
  {
    if ids == [] then []
    else
      var rest := Rank(ids[1..], keep, key);
      assert Distinct(ids) ==> Distinct(ids[1..]) && forall x :: x in rest ==> x.item != ids[0] by {
        if Distinct(ids) {
          forall x | x in rest ensures x.item != ids[0] {
            var j :| 0 <= j < |ids[1..]| && ids[1..][j] == x.item;
            assert ids[j + 1] == x.item;
          }
        }
      }
      (if keep(ids[0]) then [Ranked(ids[0], key(ids[0]))] else []) + rest
  }

  /** `table.filter(keep).order_by(key)[:n]`. */
  function Query<T(==)>(ids: seq<T>, keep: T -> bool, key: T -> Key, n: nat): (r: seq<T>)
    ensures |r| <= n
  {
    Items(TopK(Rank(ids, keep, key), n))
  }

  /** Each row of the capped result is a ranked row of the table. */
  lemma QueryRows<T>(ids: seq<T>, keep: T -> bool, key: T -> Key, n: nat)
    ensures forall i :: 0 <= i < |TopK(Rank(ids, keep, key), n)| ==>
      TopK(Rank(ids, keep, key), n)[i] in Rank(ids, keep, key)
  {
    var s := Rank(ids, keep, key);
    var t := TopK(s, n);
    forall i | 0 <= i < |t| ensures t[i] in s {
      assert t[i] in multiset(t);
    }
  }

  lemma QueryFromTable<T>(ids: seq<T>, keep: T -> bool, key: T -> Key, n: nat)
    ensures forall x :: x in Query(ids, keep, key, n) ==> x in ids && keep(x)
  {
    var t := TopK(Rank(ids, keep, key), n);
    QueryRows(ids, keep, key, n);
    forall x | x in Query(ids, keep, key, n) ensures x in ids && keep(x) {
      var i :| 0 <= i < |t| && Items(t)[i] == x;
    }
  }

  lemma QueryFiltered<T>(ids: seq<T>, keep: T -> bool, key: T -> Key, n: nat)
    requires Distinct(ids)
    ensures Distinct(Query(ids, keep, key, n))
    ensures forall x :: x in Query(ids, keep, key, n) ==> x in ids && keep(x)
  {
    var t := TopK(Rank(ids, keep, key), n);
    var r := Items(t);
    QueryRows(ids, keep, key, n);
    forall i, j | 0 <= i < j < |r| ensures r[i] != r[j] {
      assert t[i] != t[j];
    }
  }

  lemma QueryOrdered<T>(ids: seq<T>, keep: T -> bool, key: T -> Key, n: nat)
    ensures forall i, j :: 0 <= i < j < |Query(ids, keep, key, n)| ==>
      KeyLe(key(Query(ids, keep, key, n)[i]), key(Query(ids, keep, key, n)[j]))
  {
    var t := TopK(Rank(ids, keep, key), n);
    QueryRows(ids, keep, key, n);
    assert forall i :: 0 <= i < |t| ==> t[i].key == key(t[i].item);
  }

  lemma QueryTop<T>(ids: seq<T>, keep: T -> bool, key: T -> Key, n: nat)
    ensures forall x, y :: x in Query(ids, keep, key, n) && y in ids && keep(y) && y !in Query(ids, keep, key, n) ==>
      KeyLe(key(x), key(y))
  {
    var s := Rank(ids, keep, key);
    var t := TopK(s, n);
    var r := Items(t);
    QueryRows(ids, keep, key, n);
    forall x, y | x in r && y in ids && keep(y) && y !in r ensures KeyLe(key(x), key(y)) {
      var i :| 0 <= i < |r| && r[i] == x;
      var yr := Ranked(y, key(y));
      assert yr in s;
      assert yr !in multiset(t);
      assert yr in multiset(s) - multiset(t);
      assert t[i] in t;
    }
  }

  lemma QueryComplete<T>(ids: seq<T>, keep: T -> bool, key: T -> Key, n: nat)
    ensures |Query(ids, keep, key, n)| < n ==> forall y :: y in ids && keep(y) ==> y in Query(ids, keep, key, n)
  {
    var s := Rank(ids, keep, key);
    var t := TopK(s, n);
    var r := Items(t);
    if |r| < n {
      TopKWhole(s, n);
      forall y | y in ids && keep(y) ensures y in r {
        var yr := Ranked(y, key(y));
        assert yr in multiset(t);
        var k :| 0 <= k < |t| && t[k] == yr;
        assert r[k] == y;
      }
    }
  }

  /** A cap the input does not reach keeps every row. */
  lemma TopKWhole<T>(s: seq<Ranked<T>>, k: nat)
    requires |TopK(s, k)| < k
    ensures multiset(TopK(s, k)) == multiset(s)
  {
    var t := TopK(s, k);
    var d := multiset(s) - multiset(t);
    assert multiset(s) == multiset(t) + d;
    assert |d| == 0;
  }
}

=== FILE: Records.dfy ===
/** The record loader (`add_records`): it reads batches of harvested
    records and inserts, in one transaction per batch, the papers not yet
    stored, the authors not yet stored and the ordered paper-author links. */
module Records {
  import opened Wrappers
  import opened Ranking
  import opened Chunking
  import opened Catalog

  /** A record's `categories`: a list, or a single value. */
  datatype Categories = Listed(codes: seq<string>) | Single(code: string)

  /** A loaded record. Dates are seconds since the epoch. */
  datatype Item = Item(
    id: string,
    title: string,
    summary: string,
    created: int,
    updated: Option<int>,
    categories: Categories,
    authors: seq<AuthorKey>)

  /** How loading stops: the database refuses an author column longer than
      the table allows, and the batch's transaction is rolled back; or
      `range()` refuses a zero batch size with `ValueError`. */
  datatype BatchError = ValueTooLong | ZeroStep

  /** The arXiv ids of the stored papers (`existing_paper_ids`). */
  function Stored(papers: seq<PaperRow>): (r: set<string>)
    ensures forall x :: x in r <==> x in Ids(papers)
  {
    set x | x in Ids(papers)
  }

  /** The items of the batch whose id is not stored, in batch order. */
  function NewItems(batch: seq<Item>, stored: set<string>): (r: seq<Item>)
    ensures |r| <= |batch|
    ensures forall x :: x in r <==> x in batch && x.id !in stored
  {
    if batch == [] then []
    else
      var init := batch[..|batch| - 1];
      var last := batch[|batch| - 1];
      assert batch == init + [last];
      var prev := NewItems(init, stored);
      if last.id in stored then prev else prev + [last]
  }

  /** Every author of the items, item by item, in list order. */
  function AuthorKeys(items: seq<Item>): seq<AuthorKey>
  {
    if items == [] then [] else AuthorKeys(items[..|items| - 1]) + items[|items| - 1].authors
  }

  lemma {:induction false} AuthorKeysMembers(items: seq<Item>, k: AuthorKey)
    ensures k in AuthorKeys(items) <==> exists i :: 0 <= i < |items| && k in items[i].authors
  {
    if items != [] {
      var init := items[..|items| - 1];
      AuthorKeysMembers(init, k);
      if k in items[|items| - 1].authors {
        assert 0 <= |items| - 1 < |items|;
      }
      if exists i :: 0 <= i < |items| && k in items[i].authors {
        var i :| 0 <= i < |items| && k in items[i].authors;
        if i < |items| - 1 {
          assert init[i] == items[i];
        }
      }
    }
  }

  /** Python's `s[:200]`. */
  function Trunc(s: string): (r: string)
    ensures |r| <= NameLimit
    ensures |s| <= NameLimit ==> r == s
  {
    if |s| <= NameLimit then s else s[..NameLimit]
  }

  /** The key the author lookup is made with: both columns cut to the
      column length. */
  function Cut(k: AuthorKey): (r: AuthorKey)
    ensures Fits(r)
    ensures Fits(k) ==> r == k
  {
    AuthorKey(Trunc(k.keyname), if k.forenames.Some? then Some(Trunc(k.forenames.value)) else None)
  }

  /** A record's categories as stored: a single value becomes a one-element
      list. */
  function CategoryList(c: Categories): (r: seq<string>)
    ensures c.Single? ==> r == [c.code]
    ensures c.Listed? ==> r == c.codes
  {
    match c
    case Listed(codes) => codes
    case Single(code) => [code]
  }

  /** The paper row built for a new item. */
  function RowOf(item: Item): PaperRow
  {
    PaperRow(item.id, item.title, item.summary, item.created, item.updated, CategoryList(item.categories))
  }

  /** `bulk_create(..., ignore_conflicts=True)` on the paper table: a row
      whose arXiv id is already present (stored, or earlier in `rows`) is
      dropped. */
  function InsertPapers(papers: seq<PaperRow>, rows: seq<PaperRow>): (r: seq<PaperRow>)
    ensures |papers| <= |r| && r[..|papers|] == papers
    ensures forall i :: |papers| <= i < |r| ==> r[i] in rows
    ensures forall x :: x in Ids(r) <==> x in Ids(papers) || x in Ids(rows)
  {
    if rows == [] then papers
    else
      var init := rows[..|rows| - 1];
      var last := rows[|rows| - 1];
      var prev := InsertPapers(papers, init);
      IdsSnoc(init, last);
      assert rows == init + [last];
      if last.arxivId in Ids(prev) then prev
      else
        IdsSnoc(prev, last);
        prev + [last]
  }

  /** The arXiv ids stay unique through the insert. */
  lemma {:induction false} InsertPapersDistinct(papers: seq<PaperRow>, rows: seq<PaperRow>)
    requires Distinct(Ids(papers))
    ensures Distinct(Ids(InsertPapers(papers, rows)))
  {
    if rows != [] {
      var init := rows[..|rows| - 1];
      var last := rows[|rows| - 1];
      var prev := InsertPapers(papers, init);
      InsertPapersDistinct(papers, init);
      if last.arxivId !in Ids(prev) {
        IdsSnoc(prev, last);
        DistinctSnoc(Ids(prev), last.arxivId);
      }
    }
  }

  /** `bulk_create(..., ignore_conflicts=True)` on the link table: a link
      already present is dropped. */
  function InsertLinks(links: seq<Link>, added: seq<Link>): (r: seq<Link>)
    ensures |links| <= |r| && r[..|links|] == links
    ensures forall i :: |links| <= i < |r| ==> r[i] in added
    ensures forall l :: l in r <==> l in links || l in added
  {
    if added == [] then links
    else
      var init := added[..|added| - 1];
      var last := added[|added| - 1];
      assert added == init + [last];
      var prev := InsertLinks(links, init);
      if last in prev then prev else prev + [last]
  }

  /** The links stay unique through the insert. */
  lemma {:induction false} InsertLinksDistinct(links: seq<Link>, added: seq<Link>)
    requires Distinct(links)
    ensures Distinct(InsertLinks(links, added))
  {
    if added != [] {
      var init := added[..|added| - 1];
      var last := added[|added| - 1];
      InsertLinksDistinct(links, init);
      if last !in InsertLinks(links, init) {
        DistinctSnoc(InsertLinks(links, init), last);
      }
    }
  }

  /** The links of one paper: one per listed author, with the author's
      position as `order`. */
  function ItemLinks(paper: nat, keys: seq<AuthorKey>, authors: seq<AuthorKey>): (r: seq<Link>)
    ensures |r| == |keys|
    ensures forall j :: 0 <= j < |keys| ==> r[j] == Link(paper, IndexOf(authors, Cut(keys[j])), j)
  {
    seq(|keys|, j requires 0 <= j < |keys| => Link(paper, IndexOf(authors, Cut(keys[j])), j))
  }

  /** The links of all the items, item by item. */
  function LinksFor(items: seq<Item>, papers: seq<PaperRow>, authors: seq<AuthorKey>): seq<Link>
  {
    if items == [] then []
    else
      var last := items[|items| - 1];
      LinksFor(items[..|items| - 1], papers, authors) + ItemLinks(IndexOf(Ids(papers), last.id), last.authors, authors)
  }

  /** Each item's paper gets one link per listed author, carrying the
      author's position in the list. */
  lemma {:induction false} LinksForCover(items: seq<Item>, papers: seq<PaperRow>, authors: seq<AuthorKey>, i: nat, j: nat)
    requires i < |items| && j < |items[i].authors|
    ensures Link(IndexOf(Ids(papers), items[i].id), IndexOf(authors, Cut(items[i].authors[j])), j)
      in LinksFor(items, papers, authors)
  {
    var init := items[..|items| - 1];
    var tail := ItemLinks(IndexOf(Ids(papers), items[|items| - 1].id), items[|items| - 1].authors, authors);
    if i == |items| - 1 {
      assert tail[j] in tail;
    } else {
      assert init[i] == items[i];
      LinksForCover(init, papers, authors, i, j);
    }
  }

  /** Every link is one of an item's, at a position of its author list. */
  lemma {:induction false} LinksForOnly(items: seq<Item>, papers: seq<PaperRow>, authors: seq<AuthorKey>, l: Link)
    requires l in LinksFor(items, papers, authors)
    ensures exists i, j :: 0 <= i < |items| && 0 <= j < |items[i].authors|
                         && l == Link(IndexOf(Ids(papers), items[i].id), IndexOf(authors, Cut(items[i].authors[j])), j)
  {
    var init := items[..|items| - 1];
    var last := items[|items| - 1];
    var tail := ItemLinks(IndexOf(Ids(papers), last.id), last.authors, authors);
    if l in LinksFor(init, papers, authors) {
      LinksForOnly(init, papers, authors, l);
      var i, j :| 0 <= i < |init| && 0 <= j < |init[i].authors|
        && l == Link(IndexOf(Ids(papers), init[i].id), IndexOf(authors, Cut(init[i].authors[j])), j);
      assert items[i] == init[i];
    } else {
      assert l in tail;
      var j :| 0 <= j < |tail| && tail[j] == l;
      assert 0 <= |items| - 1 < |items|;
    }
  }

  /** Links of stored papers and stored authors point inside the tables. */
  lemma LinksForBounded(items: seq<Item>, papers: seq<PaperRow>, authors: seq<AuthorKey>)
    requires forall x :: x in items ==> x.id in Ids(papers)
    requires forall k :: k in AuthorKeys(items) ==> k in authors && Fits(k)
    ensures forall l :: l in LinksFor(items, papers, authors) ==> l.paper < |papers| && l.author < |authors|
  {
    forall l | l in LinksFor(items, papers, authors) ensures l.paper < |papers| && l.author < |authors| {
      LinksForOnly(items, papers, authors, l);
      var i, j :| 0 <= i < |items| && 0 <= j < |items[i].authors|
        && l == Link(IndexOf(Ids(papers), items[i].id), IndexOf(authors, Cut(items[i].authors[j])), j);
      assert items[i] in items;
      AuthorKeysMembers(items, items[i].authors[j]);
    }
  }

  /** The keynames of the keys (`keyname__in=[key[0] for key in ...]`). */
  function Keynames(keys: seq<AuthorKey>): set<string>
  {
    set k | k in keys :: k.keyname
  }

  /** `author_lookup`: the stored authors whose keyname is one of `names`,
      by key. */
  function Lookup(authors: seq<AuthorKey>, names: set<string>): (m: map<AuthorKey, nat>)
    requires Distinct(authors)
    ensures forall k :: k in m <==> k in authors && k.keyname in names
    ensures forall k :: k in m ==> m[k] == IndexOf(authors, k)
  {
    map k | k in authors && k.keyname in names :: IndexOf(authors, k)
  }

  /** The author-collecting loop: each author key of the new items once, in
      order of first appearance. */
  method CollectAuthorKeys(items: seq<Item>) returns (keys: seq<AuthorKey>)
    ensures keys == Dedup(AuthorKeys(items))
  {
    keys := [];
    for i := 0 to |items|
      invariant keys == Dedup(AuthorKeys(items[..i]))
    {
      keys := AbsorbKeys(keys, AuthorKeys(items[..i]), items[i].authors);
      assert items[..i + 1][..i] == items[..i];
    }
    assert items[..|items|] == items;
  }

  /** The inner loop over one item's authors: each key not seen yet is
      appended. */
  method AbsorbKeys(keys: seq<AuthorKey>, ghost seen: seq<AuthorKey>, authors: seq<AuthorKey>)
    returns (keys': seq<AuthorKey>)
    requires keys == Dedup(seen)
    ensures keys' == Dedup(seen + authors)
  {
    keys' := keys;
    assert seen + authors[..0] == seen;
    for j := 0 to |authors|
      invariant keys' == Dedup(seen + authors[..j])
    {
      DedupSnoc(seen + authors[..j], authors[j]);
      assert seen + authors[..j + 1] == (seen + authors[..j]) + [authors[j]];
      if authors[j] !in keys' {
        keys' := keys' + [authors[j]];
      }
    }
    assert authors[..|authors|] == authors;
  }

  /** The loop that lists the authors to create: the keys not stored. */
  method MissingAuthors(keys: seq<AuthorKey>, table: seq<AuthorKey>) returns (added: seq<AuthorKey>)
    ensures added == Missing(keys, table)
  {
    added := [];
    for i := 0 to |keys|
      invariant added == Missing(keys[..i], table)
    {
      assert keys[..i + 1][..i] == keys[..i];
      if keys[i] !in table {
        added := added + [keys[i]];
      }
    }
    assert keys[..|keys|] == keys;
  }

  /** The link-building loop: for each new item its paper, found by arXiv
      id, and for each listed author the author found through the lookup
      by the cut key. */
  method BuildLinks(items: seq<Item>, papers: seq<PaperRow>, authors: seq<AuthorKey>, lookup: map<AuthorKey, nat>)
    returns (links: seq<Link>)
    requires forall x :: x in items ==> x.id in Ids(papers)
    requires forall k :: k in AuthorKeys(items) ==> Cut(k) in lookup && lookup[Cut(k)] == IndexOf(authors, Cut(k))
    ensures links == LinksFor(items, papers, authors)
  {
    links := [];
    for i := 0 to |items|
      invariant links == LinksFor(items[..i], papers, authors)
    {
      var item := items[i];
      forall k | k in item.authors ensures Cut(k) in lookup && lookup[Cut(k)] == IndexOf(authors, Cut(k)) {
        assert item in items;
        AuthorKeysMembers(items, k);
      }
      var paper := IndexOf(Ids(papers), item.id);
      var more := AuthorLinks(paper, item.authors, authors, lookup);
      links := links + more;
      assert items[..i + 1][..i] == items[..i];
    }
    assert items[..|items|] == items;
  }

  /** The inner loop over one paper's authors (`enumerate(item["authors"])`). */
  method AuthorLinks(paper: nat, keys: seq<AuthorKey>, ghost authors: seq<AuthorKey>, lookup: map<AuthorKey, nat>)
    returns (links: seq<Link>)
    requires forall k :: k in keys ==> Cut(k) in lookup && lookup[Cut(k)] == IndexOf(authors, Cut(k))
    ensures links == ItemLinks(paper, keys, authors)
  {
    links := [];
    for j := 0 to |keys|
      invariant links == ItemLinks(paper, keys[..j], authors)
    {
      assert keys[j] in keys;
      var author := lookup[Cut(keys[j])];
      links := links + [Link(paper, author, j)];
    }
    assert keys[..|keys|] == keys;
  }

  /** Whether the database accepts every one of the keys. */
  predicate AllFit(keys: seq<AuthorKey>)
  {
    forall k :: k in keys ==> Fits(k)
  }

  /** Whether every author of every item fits the table. */
  predicate ItemsFit(items: seq<Item>)
  {
    forall x :: x in items ==> AllFit(x.authors)
  }

  /** Whether an item whose id is not stored has an author the table
      refuses. */
  ghost predicate Unfit(items: seq<Item>, papers: seq<PaperRow>)
  {
    exists x :: x in items && x.id !in Ids(papers) && !AllFit(x.authors)
  }

  /** The authors of a batch's new items all fit exactly when no unstored
      item has an author that does not fit. */
  lemma BatchFits(batch: seq<Item>, papers: seq<PaperRow>)
    ensures AllFit(AuthorKeys(NewItems(batch, Stored(papers)))) <==> !Unfit(batch, papers)
  {
    var added := NewItems(batch, Stored(papers));
    if !AllFit(AuthorKeys(added)) {
      var k :| k in AuthorKeys(added) && !Fits(k);
      AuthorKeysMembers(added, k);
      var i :| 0 <= i < |added| && k in added[i].authors;
      assert added[i] in added;
    }
    if Unfit(batch, papers) {
      var x :| x in batch && x.id !in Ids(papers) && !AllFit(x.authors);
      var k :| k in x.authors && !Fits(k);
      assert x in added;
      var i :| 0 <= i < |added| && added[i] == x;
      AuthorKeysMembers(added, k);
    }
  }

  /** The tables after the inserts of the new items: the missing authors
      appended, the papers inserted, then their links. */
  function Insert(d: Db, added: seq<Item>): Db
  {
    var authors := d.authors + Missing(Dedup(AuthorKeys(added)), d.authors);
    var papers := InsertPapers(d.papers, MapRows(added));
    Db(papers, authors, InsertLinks(d.links, LinksFor(added, papers, authors)))
  }

  /** The tables after a batch that commits: a batch without new items
      writes nothing. */
  function Commit(d: Db, batch: seq<Item>): Db
  {
    var added := NewItems(batch, Stored(d.papers));
    if added == [] then d else Insert(d, added)
  }

  /** A commit only adds rows, and the links it adds belong to the papers
      it adds. */
  lemma CommitGrows(d: Db, batch: seq<Item>)
    ensures Grows(d, Commit(d, batch))
  {
    var added := NewItems(batch, Stored(d.papers));
    if added != [] {
      InsertGrows(d, added);
    }
  }

  /** The inserts only add rows, and every link they add belongs to a paper
      that was not stored. */
  lemma InsertGrows(d: Db, added: seq<Item>)
    requires forall x :: x in added ==> x.id !in Ids(d.papers)
    ensures Grows(d, Insert(d, added))
  {
    var d' := Insert(d, added);
    forall j | |d.links| <= j < |d'.links| ensures d'.links[j].paper >= |d.papers| {
      var l := d'.links[j];
      LinksForOnly(added, d'.papers, d'.authors, l);
      var i, k :| 0 <= i < |added| && 0 <= k < |added[i].authors|
        && l == Link(IndexOf(Ids(d'.papers), added[i].id), IndexOf(d'.authors, Cut(added[i].authors[k])), k);
      assert added[i] in added;
      FreshIndex(d.papers, d'.papers, added[i].id);
    }
  }

  /** An id not among the first rows is found after them. */
  lemma FreshIndex(papers: seq<PaperRow>, papers': seq<PaperRow>, id: string)
    requires |papers| <= |papers'| && papers'[..|papers|] == papers
    requires id !in Ids(papers)
    ensures IndexOf(Ids(papers'), id) >= |papers|
  {
  }

  /** `process_batch`: in one transaction, the batch's unknown papers, their
      unknown authors and their ordered author links are inserted; the
      result counts the new items and the skipped ones. An author column
      too long for the table aborts the transaction, and a batch without
      new items returns before writing. */
  method ProcessBatch(db: Tables, batch: seq<Item>) returns (r: Result<(nat, nat), BatchError>)
    requires db.Valid()
    modifies db
    ensures db.Valid()
    ensures var added := NewItems(batch, Stored(old(db.papers)));
      r.Ok? ==> r.value == (|added|, |batch| - |added|)
    ensures r.Err? <==> !AllFit(AuthorKeys(NewItems(batch, Stored(old(db.papers)))))
    ensures r.Err? ==> r.error == ValueTooLong
    ensures r.Err? || NewItems(batch, Stored(old(db.papers))) == [] ==> unchanged(db)
    ensures r.Ok? ==> db.Contents() == Commit(old(db.Contents()), batch)
    ensures forall x :: x in Ids(old(db.papers)) ==> x in Ids(db.papers)
    ensures r.Ok? ==> forall x :: x in batch ==> x.id in Ids(db.papers)
    ensures r.Ok? ==> NewItems(batch, Stored(db.papers)) == []
  {
    var papers, authors, links;
    r, papers, authors, links := Transact(db.papers, db.authors, db.links, batch);
    if r.Ok? {
      db.papers, db.authors, db.links := papers, authors, links;
    }
  }

  /** What the transaction answers and keeps, with `added` the batch's
      items whose ids are not stored: the schema holds; the reply counts the
      added and the skipped items; it fails exactly when an author of an
      added item does not fit; a failure or a batch without new items writes
      nothing; no stored id is lost, and after a success every id of the
      batch is stored, so the batch has no new item any more. */
  ghost predicate Reply(papers: seq<PaperRow>, authors: seq<AuthorKey>, links: seq<Link>, batch: seq<Item>,
                        r: Result<(nat, nat), BatchError>,
                        papers': seq<PaperRow>, authors': seq<AuthorKey>, links': seq<Link>)
  {
    var added := NewItems(batch, Stored(papers));
    && Schema(papers', authors', links')
    && (r.Ok? ==> r.value == (|added|, |batch| - |added|))
    && (r.Err? <==> !AllFit(AuthorKeys(added)))
    && (r.Err? ==> r.error == ValueTooLong)
    && (r.Err? || added == [] ==> papers' == papers && authors' == authors && links' == links)
    && (forall x :: x in Ids(papers) ==> x in Ids(papers'))
    && (r.Ok? ==> forall x :: x in batch ==> x.id in Ids(papers'))
    && (r.Ok? ==> NewItems(batch, Stored(papers')) == [])
  }

  /** The body of the transaction on the table contents: the outcome and the
      tables to commit. */
  method Transact(papers: seq<PaperRow>, authors: seq<AuthorKey>, links: seq<Link>, batch: seq<Item>)
    returns (r: Result<(nat, nat), BatchError>, papers': seq<PaperRow>, authors': seq<AuthorKey>, links': seq<Link>)
    requires Schema(papers, authors, links)
    ensures Reply(papers, authors, links, batch, r, papers', authors', links')
    ensures r.Ok? ==> Db(papers', authors', links') == Commit(Db(papers, authors, links), batch)
  {
    papers', authors', links' := papers, authors, links;
    var stored := Stored(papers);
    var added := NewItems(batch, stored);
    var skipped := |batch| - |added|;
    if added == [] {
      r := Ok((0, skipped));
      NothingNew(papers, authors, links, batch);
      return;
    }
    var keys := CollectAuthorKeys(added);
    var missing := MissingAuthors(keys, authors);
    if !AllFit(missing) {
      var k :| k in missing && !Fits(k);
      assert k in AuthorKeys(added);
      r := Err(ValueTooLong);
      return;
    }
    KeysFit(added, authors);
    papers', authors', links' := Stage(papers, authors, links, added, keys, missing);
    r := Ok((|added|, skipped));
    BatchStored(batch, papers, papers');
  }

  /** A batch whose items are all stored is answered with every item
      skipped and nothing written. */
  lemma NothingNew(papers: seq<PaperRow>, authors: seq<AuthorKey>, links: seq<Link>, batch: seq<Item>)
    requires Schema(papers, authors, links)
    requires NewItems(batch, Stored(papers)) == []
    ensures AllFit(AuthorKeys(NewItems(batch, Stored(papers))))
    ensures forall x :: x in batch ==> x.id in Ids(papers)
  {
    assert AuthorKeys(NewItems(batch, Stored(papers))) == [];
    AllStored(batch, papers);
  }

  lemma AllStored(batch: seq<Item>, papers: seq<PaperRow>)
    requires NewItems(batch, Stored(papers)) == []
    ensures forall x :: x in batch ==> x.id in Ids(papers)
  {
    forall x | x in batch ensures x.id in Ids(papers) {
      assert x !in NewItems(batch, Stored(papers));
    }
  }

  /** After the insert every id of the batch is stored, so loading the same
      batch again adds nothing; no stored id is lost. */
  lemma BatchStored(batch: seq<Item>, papers: seq<PaperRow>, papers': seq<PaperRow>)
    requires papers' == InsertPapers(papers, MapRows(NewItems(batch, Stored(papers))))
    ensures forall x :: x in Ids(papers) ==> x in Ids(papers')
    ensures forall x :: x in batch ==> x.id in Ids(papers')
    ensures NewItems(batch, Stored(papers')) == []
  {
    var added := NewItems(batch, Stored(papers));
    forall x | x in batch ensures x.id in Ids(papers') {
      if x.id !in Ids(papers) {
        assert x in added;
        var i :| 0 <= i < |added| && added[i] == x;
        assert MapRows(added)[i].arxivId == x.id;
        assert x.id in Ids(MapRows(added));
      }
    }
    Reloaded(batch, papers');
  }

  /** A batch whose ids are all stored has no new item. */
  lemma Reloaded(batch: seq<Item>, papers: seq<PaperRow>)
    requires forall x :: x in batch ==> x.id in Ids(papers)
    ensures NewItems(batch, Stored(papers)) == []
  {
    var r := NewItems(batch, Stored(papers));
    assert forall x :: x !in r;
  }

  /** When the stored authors and the missing ones fit, every author of the
      new items fits. */
  lemma KeysFit(added: seq<Item>, authors0: seq<AuthorKey>)
    requires forall k :: k in authors0 ==> Fits(k)
    requires AllFit(Missing(Dedup(AuthorKeys(added)), authors0))
    ensures AllFit(AuthorKeys(added))
  {
    forall k | k in AuthorKeys(added) ensures Fits(k) {
      if k !in authors0 {
        assert k in Dedup(AuthorKeys(added));
        assert k in Missing(Dedup(AuthorKeys(added)), authors0);
      }
    }
  }

  /** The inserts of one batch whose new authors all fit, computed before
      they are committed together: the missing authors, the papers, the
      links looked up through `Lookup`. */
  method Stage(papers: seq<PaperRow>, authors: seq<AuthorKey>, links: seq<Link>,
               added: seq<Item>, keys: seq<AuthorKey>, missing: seq<AuthorKey>)
    returns (papers': seq<PaperRow>, authors': seq<AuthorKey>, links': seq<Link>)
    requires Schema(papers, authors, links)
    requires keys == Dedup(AuthorKeys(added)) && missing == Missing(keys, authors)
    requires AllFit(missing)
    ensures Db(papers', authors', links') == Insert(Db(papers, authors, links), added)
    ensures Schema(papers', authors', links')
  {
    BatchKeysFit(authors, AuthorKeys(added), missing);
    authors' := authors + missing;
    var lookup := Lookup(authors', Keynames(keys));
    var rows := MapSeq(added, RowOf);
    papers' := InsertPapers(papers, rows);
    forall x | x in added ensures x.id in Ids(papers') {
      var i :| 0 <= i < |added| && added[i] == x;
      assert rows[i].arxivId == x.id;
      assert x.id in Ids(rows);
    }
    forall k | k in AuthorKeys(added) ensures Cut(k) in lookup && lookup[Cut(k)] == IndexOf(authors', Cut(k)) {
      assert k in keys;
      assert k.keyname in Keynames(keys);
    }
    var built := BuildLinks(added, papers', authors', lookup);
    LinksForBounded(added, papers', authors');
    assert rows == MapRows(added);
    links' := InsertLinks(links, built);
    InsertPapersDistinct(papers, rows);
    InsertLinksDistinct(links, built);
  }

  function MapRows(items: seq<Item>): (r: seq<PaperRow>)
    ensures |r| == |items| && forall i :: 0 <= i < |items| ==> r[i] == RowOf(items[i])
  {
    seq(|items|, i requires 0 <= i < |items| => RowOf(items[i]))
  }

  /** When the batch's ids are unique and none is stored, every row is
      inserted: the count `process_batch` reports is then the number of
      papers it added. */
  lemma {:induction false} InsertPapersCount(papers: seq<PaperRow>, rows: seq<PaperRow>)
    requires Distinct(Ids(rows))
    requires forall x :: x in Ids(rows) ==> x !in Ids(papers)
    ensures |InsertPapers(papers, rows)| == |papers| + |rows|
  {
    if rows != [] {
      var init := rows[..|rows| - 1];
      var last := rows[|rows| - 1];
      IdsSnoc(init, last);
      assert rows == init + [last];
      assert Distinct(Ids(init)) && last.arxivId !in Ids(init) by {
        forall i, j | 0 <= i < j <= |init| ensures Ids(rows)[i] != Ids(rows)[j] {
        }
        forall i | 0 <= i < |init| ensures Ids(init)[i] != last.arxivId {
          assert Ids(init)[i] == Ids(rows)[i] && last.arxivId == Ids(rows)[|init|];
        }
        forall i, j | 0 <= i < j < |init| ensures Ids(init)[i] != Ids(init)[j] {
          assert Ids(init)[i] == Ids(rows)[i] && Ids(init)[j] == Ids(rows)[j];
        }
      }
      InsertPapersCount(papers, init);
      assert last.arxivId !in Ids(InsertPapers(papers, init));
    }
  }

  /** The number of files `handle` leaves out at the front of the sorted
      listing. */
  const SkippedFiles: nat := 44

  predicate IsRecordFile(name: string)
  {
    |name| >= 8 && name[|name| - 8..] == ".msgpack"
  }

  /** The files `handle` loads: the names ending in `.msgpack`, sorted,
      without the first 44. */
  function RecordFiles(names: seq<string>): seq<string>
  {
    var sorted := Query(names, IsRecordFile, TextKey, |names|);
    if |sorted| <= SkippedFiles then [] else sorted[SkippedFiles..]
  }

  /** The sorted listing: exactly the `.msgpack` files of the directory,
      each once, in name order. */
  lemma SortedListing(names: seq<string>)
    requires Distinct(names)
    ensures var sorted := Query(names, IsRecordFile, TextKey, |names|);
      && (forall f :: f in sorted <==> f in names && IsRecordFile(f))
      && Distinct(sorted)
      && forall i, j :: 0 <= i < j < |sorted| ==> KeyLe(TextKey(sorted[i]), TextKey(sorted[j]))
  {
    QueryFiltered(names, IsRecordFile, TextKey, |names| + 1);
    QueryComplete(names, IsRecordFile, TextKey, |names| + 1);
    QueryOrdered(names, IsRecordFile, TextKey, |names|);
    assert Query(names, IsRecordFile, TextKey, |names| + 1) == Query(names, IsRecordFile, TextKey, |names|);
  }

  /** The files loaded are the sorted listing from its 45th name on: each is
      a `.msgpack` file of the directory, each once, in name order. */
  lemma RecordFilesSpec(names: seq<string>)
    requires Distinct(names)
    ensures forall f :: f in RecordFiles(names) ==> f in names && IsRecordFile(f)
    ensures Distinct(RecordFiles(names))
    ensures forall i, j :: 0 <= i < j < |RecordFiles(names)| ==>
      KeyLe(TextKey(RecordFiles(names)[i]), TextKey(RecordFiles(names)[j]))
  {
    var sorted := Query(names, IsRecordFile, TextKey, |names|);
    SortedListing(names);
    if |sorted| > SkippedFiles {
      DropKeeps(sorted, SkippedFiles);
    }
  }

  /** What a listing without its first names keeps of it. */
  lemma DropKeeps(sorted: seq<string>, k: nat)
    requires k < |sorted|
    requires Distinct(sorted)
    requires forall i, j :: 0 <= i < j < |sorted| ==> KeyLe(TextKey(sorted[i]), TextKey(sorted[j]))
    ensures forall f :: f in sorted[k..] ==> f in sorted
    ensures Distinct(sorted[k..])
    ensures forall i, j :: 0 <= i < j < |sorted[k..]| ==> KeyLe(TextKey(sorted[k..][i]), TextKey(sorted[k..][j]))
  {
    var r := sorted[k..];
    forall i, j | 0 <= i < j < |r| ensures r[i] != r[j] && KeyLe(TextKey(r[i]), TextKey(r[j])) {
      assert r[i] == sorted[i + k] && r[j] == sorted[j + k];
    }
  }

  /** The records of the files, file after file. */
  function AllRecords(files: seq<string>, read: string -> seq<Item>): seq<Item>
  {
    if files == [] then [] else AllRecords(files[..|files| - 1], read) + read(files[|files| - 1])
  }

  lemma AllRecordsStep(files: seq<string>, read: string -> seq<Item>, f: nat)
    requires f < |files|
    ensures AllRecords(files[..f + 1], read) == AllRecords(files[..f], read) + read(files[f])
  {
    assert files[..f + 1][..f] == files[..f];
  }

  /** A record of one of the files is a record of them all. */
  lemma {:induction false} AllRecordsHas(files: seq<string>, read: string -> seq<Item>, f: nat, x: Item)
    requires f < |files| && x in read(files[f])
    ensures x in AllRecords(files, read)
  {
    if f < |files| - 1 {
      AllRecordsHas(files[..|files| - 1], read, f, x);
    }
  }

  /** The papers hold every id of `ids0` and the id of every item of
      `items`. */
  ghost predicate Covers(papers: seq<PaperRow>, ids0: seq<string>, items: seq<Item>)
  {
    && (forall x :: x in ids0 ==> x in Ids(papers))
    && (forall x :: x in items ==> x.id in Ids(papers))
  }

  /** Storing the ids of one more run of items, and losing no stored id,
      extends what the papers cover. */
  lemma CoversStep(papers: seq<PaperRow>, papers': seq<PaperRow>, ids0: seq<string>, items: seq<Item>, more: seq<Item>)
    requires Covers(papers, ids0, items)
    requires forall x :: x in Ids(papers) ==> x in Ids(papers')
    requires forall x :: x in more ==> x.id in Ids(papers')
    ensures Covers(papers', ids0, items + more)
  {
  }

  /** What a run of batches did: the papers it created and the tables it
      left. */
  datatype Load = Load(created: nat, db: Db)

  /** Batches committed one after another: each creates the papers of its
      items whose ids the tables before it do not store. */
  function LoadAll(d: Db, batches: seq<seq<Item>>): Load
  {
    if batches == [] then Load(0, d)
    else
      var prev := LoadAll(d, batches[..|batches| - 1]);
      var batch := batches[|batches| - 1];
      Load(prev.created + |NewItems(batch, Stored(prev.db.papers))|, Commit(prev.db, batch))
  }

  /** A run of batches only adds rows. */
  lemma {:induction false} LoadAllGrows(d: Db, batches: seq<seq<Item>>)
    ensures Grows(d, LoadAll(d, batches).db)
  {
    if batches != [] {
      var prev := LoadAll(d, batches[..|batches| - 1]);
      LoadAllGrows(d, batches[..|batches| - 1]);
      CommitGrows(prev.db, batches[|batches| - 1]);
      GrowsTrans(d, prev.db, LoadAll(d, batches).db);
    }
  }

  lemma LoadAllStep(d: Db, batches: seq<seq<Item>>, b: nat)
    requires b < |batches|
    ensures var prev := LoadAll(d, batches[..b]);
      LoadAll(d, batches[..b + 1]) ==
        Load(prev.created + |NewItems(batches[b], Stored(prev.db.papers))|, Commit(prev.db, batches[b]))
  {
    assert batches[..b + 1][..b] == batches[..b];
  }

  /** A run that stops at batch `k`: the batches before it committed, and
      it has an item not stored by them with an author the table
      refuses. */
  ghost predicate StopsIn(d: Db, batches: seq<seq<Item>>, d': Db)
  {
    exists k :: 0 <= k < |batches| && d' == LoadAll(d, batches[..k]).db && Unfit(batches[k], d'.papers)
  }

  /** The files loaded one after another, each cut into slices of `size`
      records. */
  function LoadFilesAll(d: Db, files: seq<string>, read: string -> seq<Item>, size: nat): Load
    requires size > 0
  {
    if files == [] then Load(0, d)
    else
      var prev := LoadFilesAll(d, files[..|files| - 1], read, size);
      var next := LoadAll(prev.db, Chunks(read(files[|files| - 1]), size));
      Load(prev.created + next.created, next.db)
  }

  /** A run of files only adds rows. */
  lemma {:induction false} LoadFilesAllGrows(d: Db, files: seq<string>, read: string -> seq<Item>, size: nat)
    requires size > 0
    ensures Grows(d, LoadFilesAll(d, files, read, size).db)
  {
    if files != [] {
      var prev := LoadFilesAll(d, files[..|files| - 1], read, size);
      LoadFilesAllGrows(d, files[..|files| - 1], read, size);
      LoadAllGrows(prev.db, Chunks(read(files[|files| - 1]), size));
      GrowsTrans(d, prev.db, LoadFilesAll(d, files, read, size).db);
    }
  }

  lemma LoadFilesAllStep(d: Db, files: seq<string>, read: string -> seq<Item>, size: nat, f: nat)
    requires size > 0 && f < |files|
    ensures var prev := LoadFilesAll(d, files[..f], read, size);
      var next := LoadAll(prev.db, Chunks(read(files[f]), size));
      LoadFilesAll(d, files[..f + 1], read, size) == Load(prev.created + next.created, next.db)
  {
    assert files[..f + 1][..f] == files[..f];
  }

  /** A run of files that stops in file `f`: the files before it loaded,
      and its slices stop as `StopsIn` says. */
  ghost predicate FilesStopIn(d: Db, files: seq<string>, read: string -> seq<Item>, size: nat, d': Db)
    requires size > 0
  {
    exists f :: 0 <= f < |files| && StopsIn(LoadFilesAll(d, files[..f], read, size).db, Chunks(read(files[f]), size), d')
  }

  /** A file whose slices stop the run stops the run of the files. */
  lemma FilesStop(d: Db, files: seq<string>, read: string -> seq<Item>, size: nat, f: nat, d': Db)
    requires size > 0 && f < |files|
    requires StopsIn(LoadFilesAll(d, files[..f], read, size).db, Chunks(read(files[f]), size), d')
    requires Grows(LoadFilesAll(d, files[..f], read, size).db, d')
    ensures Grows(d, d')
    ensures FilesStopIn(d, files, read, size, d')
  {
    LoadFilesAllGrows(d, files[..f], read, size);
    GrowsTrans(d, LoadFilesAll(d, files[..f], read, size).db, d');
  }

  /** A file with an unstored record whose author the table refuses
      stops the run of the files there. */
  lemma FilesRaise(d: Db, files: seq<string>, read: string -> seq<Item>, size: nat, f: nat,
                   papers: seq<PaperRow>, d': Db)
    requires size > 0 && f < |files|
    requires forall x :: x in Ids(d.papers) ==> x in Ids(papers)
    requires Unfit(read(files[f]), papers)
    requires StopsIn(LoadFilesAll(d, files[..f], read, size).db, Chunks(read(files[f]), size), d')
    requires Grows(LoadFilesAll(d, files[..f], read, size).db, d')
    ensures Unfit(AllRecords(files, read), d.papers)
    ensures Grows(d, d')
    ensures FilesStopIn(d, files, read, size, d')
  {
    var x: Item :| x in read(files[f]) && x.id !in Ids(papers) && !AllFit(x.authors);
    AllRecordsHas(files, read, f, x);
    FilesStop(d, files, read, size, f, d');
  }

  /** `handle`: the selected files are read one by one and cut into batches
      of `batchSize` records, each processed in its own transaction. The
      first batch that fails ends the command; the batches before it stay
      committed. A zero batch size raises at the first file; a negative one
      gives every file an empty range, so nothing is loaded. Reading a file
      is the parameter `read`. */
  method Handle(db: Tables, names: seq<string>, read: string -> seq<Item>, batchSize: int)
    returns (r: Result<(nat, nat), BatchError>)
    requires db.Valid()
    modifies db
    ensures db.Valid()
    ensures forall x :: x in Ids(old(db.papers)) ==> x in Ids(db.papers)
    ensures batchSize == 0 ==> unchanged(db) && r == (if RecordFiles(names) == [] then Ok((0, 0)) else Err(ZeroStep))
    ensures batchSize < 0 ==> unchanged(db) && r == Ok((0, 0))
    ensures batchSize > 0 ==> r != Err(ZeroStep)
    ensures batchSize > 0 && r.Ok? ==> r.value.0 + r.value.1 == |AllRecords(RecordFiles(names), read)|
    ensures batchSize > 0 && r.Ok? ==> forall x :: x in AllRecords(RecordFiles(names), read) ==> x.id in Ids(db.papers)
    ensures batchSize > 0 && ItemsFit(AllRecords(RecordFiles(names), read)) ==> r.Ok?
    ensures batchSize > 0 && r.Err? ==> Unfit(AllRecords(RecordFiles(names), read), old(db.papers))
    ensures Grows(old(db.Contents()), db.Contents())
    ensures batchSize > 0 && r.Ok? ==>
              LoadFilesAll(old(db.Contents()), RecordFiles(names), read, batchSize) == Load(r.value.0, db.Contents())
    ensures batchSize > 0 && r.Err? ==> FilesStopIn(old(db.Contents()), RecordFiles(names), read, batchSize, db.Contents())
  {
    var files := RecordFiles(names);
    if batchSize <= 0 {
      // Every file's range is empty, or the first one raises.
      if files == [] {
        return Ok((0, 0));
      }
      var res := LoadFile(db, read(files[0]), batchSize);
      return if batchSize == 0 then res else Ok((0, 0));
    }
    r := LoadFiles(db, files, read, batchSize);
  }

  /** The loop over the files with a positive batch size. */
  method LoadFiles(db: Tables, files: seq<string>, read: string -> seq<Item>, batchSize: int)
    returns (r: Result<(nat, nat), BatchError>)
    requires db.Valid() && batchSize > 0
    modifies db
    ensures db.Valid()
    ensures forall x :: x in Ids(old(db.papers)) ==> x in Ids(db.papers)
    ensures r != Err(ZeroStep)
    ensures r.Ok? ==> r.value.0 + r.value.1 == |AllRecords(files, read)|
    ensures r.Ok? ==> forall x :: x in AllRecords(files, read) ==> x.id in Ids(db.papers)
    ensures ItemsFit(AllRecords(files, read)) ==> r.Ok?
    ensures r.Err? ==> Unfit(AllRecords(files, read), old(db.papers))
    ensures Grows(old(db.Contents()), db.Contents())
    ensures r.Ok? ==> LoadFilesAll(old(db.Contents()), files, read, batchSize) == Load(r.value.0, db.Contents())
    ensures r.Err? ==> FilesStopIn(old(db.Contents()), files, read, batchSize, db.Contents())
  {
    ghost var ids0 := Ids(db.papers);
    ghost var d0 := db.Contents();
    var created, skipped := 0, 0;
    for f := 0 to |files|
      invariant db.Valid()
      invariant Covers(db.papers, ids0, AllRecords(files[..f], read))
      invariant created + skipped == |AllRecords(files[..f], read)|
      invariant LoadFilesAll(d0, files[..f], read, batchSize) == Load(created, db.Contents())
    {
      LoadFilesAllStep(d0, files, read, batchSize, f);
      ghost var before := db.papers;
      ghost var pre := db.Contents();
      var res := LoadSlices(db, read(files[f]), batchSize);
      if res.Err? {
        FilesRaise(d0, files, read, batchSize, f, before, db.Contents());
        return Err(res.error);
      }
      created, skipped := created + res.value.0, skipped + res.value.1;
      CoversStep(before, db.papers, ids0, AllRecords(files[..f], read), read(files[f]));
      AllRecordsStep(files, read, f);
    }
    assert files[..|files|] == files;
    LoadFilesAllGrows(d0, files, read, batchSize);
    r := Ok((created, skipped));
  }

  /** One batch of the loop: on success the papers also cover the batch,
      and the counts add up to its size. */
  method LoadBatch(db: Tables, batch: seq<Item>, ghost ids0: seq<string>, ghost items: seq<Item>)
    returns (r: Result<(nat, nat), BatchError>)
    requires db.Valid() && Covers(db.papers, ids0, items)
    modifies db
    ensures db.Valid() && Covers(db.papers, ids0, items)
    ensures r.Ok? ==> Covers(db.papers, ids0, items + batch) && r.value.0 + r.value.1 == |batch|
    ensures r.Err? ==> r.error == ValueTooLong && unchanged(db)
    ensures r.Err? <==> Unfit(batch, old(db.papers))
    ensures Grows(old(db.Contents()), db.Contents())
    ensures var added := NewItems(batch, Stored(old(db.papers)));
      r.Ok? ==> r.value == (|added|, |batch| - |added|) && db.Contents() == Commit(old(db.Contents()), batch)
  {
    ghost var before := db.papers;
    ghost var d0 := db.Contents();
    BatchFits(batch, db.papers);
    r := ProcessBatch(db, batch);
    CoversStep(before, db.papers, ids0, items, if r.Ok? then batch else []);
    if r.Ok? {
      CommitGrows(d0, batch);
    }
  }

  /** One file's batches (`range(0, len(data), batch_size)`): the counts of
      the processed batches, or the first batch's error. A zero step raises
      before any batch; a negative one gives no batches. */
  method LoadFile(db: Tables, data: seq<Item>, batchSize: int) returns (r: Result<(nat, nat), BatchError>)
    requires db.Valid()
    modifies db
    ensures db.Valid()
    ensures forall x :: x in Ids(old(db.papers)) ==> x in Ids(db.papers)
    ensures batchSize == 0 ==> r == Err(ZeroStep) && unchanged(db)
    ensures batchSize < 0 ==> r == Ok((0, 0)) && unchanged(db)
    ensures batchSize > 0 ==> r != Err(ZeroStep)
    ensures batchSize > 0 && r.Ok? ==> r.value.0 + r.value.1 == |data|
    ensures batchSize > 0 && r.Ok? ==> forall x :: x in data ==> x.id in Ids(db.papers)
    ensures batchSize > 0 && ItemsFit(data) ==> r.Ok?
    ensures batchSize > 0 && r.Err? ==> Unfit(data, old(db.papers))
    ensures Grows(old(db.Contents()), db.Contents())
    ensures batchSize > 0 && r.Ok? ==> LoadAll(old(db.Contents()), Chunks(data, batchSize)) == Load(r.value.0, db.Contents())
    ensures batchSize > 0 && r.Err? ==> StopsIn(old(db.Contents()), Chunks(data, batchSize), db.Contents())
  {
    if batchSize == 0 {
      return Err(ZeroStep);
    }
    if batchSize < 0 {
      return Ok((0, 0));
    }
    r := LoadSlices(db, data, batchSize);
  }

  /** The loop over the slices of one file, with a positive size. */
  method LoadSlices(db: Tables, data: seq<Item>, size: nat) returns (r: Result<(nat, nat), BatchError>)
    requires db.Valid() && size > 0
    modifies db
    ensures db.Valid()
    ensures forall x :: x in Ids(old(db.papers)) ==> x in Ids(db.papers)
    ensures r != Err(ZeroStep)
    ensures r.Ok? ==> r.value.0 + r.value.1 == |data|
    ensures r.Ok? ==> forall x :: x in data ==> x.id in Ids(db.papers)
    ensures ItemsFit(data) ==> r.Ok?
    ensures r.Err? ==> Unfit(data, old(db.papers))
    ensures Grows(old(db.Contents()), db.Contents())
    ensures r.Ok? ==> LoadAll(old(db.Contents()), Chunks(data, size)) == Load(r.value.0, db.Contents())
    ensures r.Err? ==> StopsIn(old(db.Contents()), Chunks(data, size), db.Contents())
  {
    ghost var ids0 := Ids(db.papers);
    ghost var d0 := db.Contents();
    var batches := Chunks(data, size);
    FlattenChunks(data, size);
    var created, skipped := 0, 0;
    for b := 0 to |batches|
      invariant db.Valid()
      invariant Covers(db.papers, ids0, Flatten(batches[..b]))
      invariant created + skipped == |Flatten(batches[..b])|
      invariant LoadAll(d0, batches[..b]) == Load(created, db.Contents())
    {
      LoadAllStep(d0, batches, b);
      forall x | x in batches[b] ensures x in data {
        FlattenHas(batches, b, x);
      }
      ghost var before := db.papers;
      ghost var pre := db.Contents();
      var res := LoadBatch(db, batches[b], ids0, Flatten(batches[..b]));
      if res.Err? {
        ghost var x: Item :| x in batches[b] && x.id !in Ids(before) && !AllFit(x.authors);
        assert x.id !in ids0;
        assert db.Contents() == pre == LoadAll(d0, batches[..b]).db && Unfit(batches[b], db.papers);
        assert StopsIn(d0, batches, db.Contents());
        LoadAllGrows(d0, batches[..b]);
        return Err(res.error);
      }
      assert db.Contents() == Commit(pre, batches[b]);
      created, skipped := created + res.value.0, skipped + res.value.1;
      FlattenPrefix(batches, b);
    }
    assert batches[..|batches|] == batches;
    LoadAllGrows(d0, batches);
    r := Ok((created, skipped));
  }
}

=== FILE: Retrieval.dfy ===
/** The three retrievers of the search view: the keyword search over titles,
    the nearest-neighbour search over the configured bit embeddings, and the
    multi-source search that runs one neighbour search per paper of a tag
    and deals the results out round-robin. */
module Retrieval {
  import opened Wrappers
  import opened Text
  import opened Ranking
  import opened Chunking
  import opened Corpus
  import opened Filters

  /** `RESULTS_PER_PAGE` and `MAX_RESULTS`. */
  const ResultsPerPage: nat := 20
  const MaxResults: nat := 400

  /** Sort key for `order_by("-created")`. */
  function NewestFirst(p: Paper): Key
  {
    [-(p.created as real)]
  }

  lemma NewestFirstOrder(p: Paper, q: Paper)
    ensures KeyLe(NewestFirst(p), NewestFirst(q)) <==> p.created >= q.created
  {
  }

  /** Sort key for `order_by("distance")` with a whole-number distance. */
  function Nearest(d: nat): Key
  {
    [d as real]
  }

  lemma NearestOrder(d: nat, e: nat)
    ensures KeyLe(Nearest(d), Nearest(e)) <==> d <= e
  {
  }

  /** Whether `keyword_search` can return paper `id`: it passes the filter
      and its title contains the query, ignoring case. */
  predicate KeywordMatch(store: Store, f: Filter, query: string, id: PaperId)
  {
    id in store && Admits(f, id, store[id]) && ContainsIgnoreCase(store[id].title, query)
  }

  function KeywordKeep(store: Store, f: Filter, query: string): PaperId -> bool
  {
    (id: PaperId) => KeywordMatch(store, f, query, id)
  }

  function CreatedKey(store: Store): PaperId -> Key
  {
    (id: PaperId) => if id in store then NewestFirst(store[id]) else []
  }

  /** `keyword_search`: matching papers, newest first, one page at most. */
  function KeywordSearch(store: Store, f: Filter, query: string): (r: seq<PaperId>)
    ensures |r| <= ResultsPerPage
    ensures forall x :: x in r ==> x in store
  {
    QueryFromTable(SortedKeys(store.Keys), KeywordKeep(store, f, query), CreatedKey(store), ResultsPerPage);
    Query(SortedKeys(store.Keys), KeywordKeep(store, f, query), CreatedKey(store), ResultsPerPage)
  }

  /** Every keyword result is a distinct matching paper. */
  lemma KeywordSearchMatches(store: Store, f: Filter, query: string)
    ensures Distinct(KeywordSearch(store, f, query))
    ensures forall x :: x in KeywordSearch(store, f, query) ==> KeywordMatch(store, f, query, x)
  {
    QueryFiltered(SortedKeys(store.Keys), KeywordKeep(store, f, query), CreatedKey(store), ResultsPerPage);
  }

  /** Keyword results come newest first. */
  lemma KeywordSearchNewestFirst(store: Store, f: Filter, query: string)
    ensures forall i, j :: 0 <= i < j < |KeywordSearch(store, f, query)| ==>
      store[KeywordSearch(store, f, query)[i]].created >= store[KeywordSearch(store, f, query)[j]].created
  {
    var r := KeywordSearch(store, f, query);
    var key := CreatedKey(store);
    QueryOrdered(SortedKeys(store.Keys), KeywordKeep(store, f, query), key, ResultsPerPage);
    forall i, j | 0 <= i < j < |r| ensures store[r[i]].created >= store[r[j]].created {
      assert r[i] in store && r[j] in store;
      assert KeyLe(key(r[i]), key(r[j]));
      NewestFirstOrder(store[r[i]], store[r[j]]);
    }
  }

  /** No matching paper left out is newer than one returned; and when fewer
      than a page come back, every match is there. */
  lemma KeywordSearchTop(store: Store, f: Filter, query: string)
    ensures forall x, y ::
      (x in KeywordSearch(store, f, query) && KeywordMatch(store, f, query, y) && y !in KeywordSearch(store, f, query))
      ==> store[x].created >= store[y].created
    ensures |KeywordSearch(store, f, query)| < ResultsPerPage ==>
      forall y :: KeywordMatch(store, f, query, y) ==> y in KeywordSearch(store, f, query)
  {
    var ids := SortedKeys(store.Keys);
    var r := KeywordSearch(store, f, query);
    KeywordSearchMatches(store, f, query);
    QueryTop(ids, KeywordKeep(store, f, query), CreatedKey(store), ResultsPerPage);
    QueryComplete(ids, KeywordKeep(store, f, query), CreatedKey(store), ResultsPerPage);
    forall x, y | x in r && KeywordMatch(store, f, query, y) && y !in r ensures store[x].created >= store[y].created {
      assert y in ids;
      NewestFirstOrder(store[x], store[y]);
    }
  }

  /** Whether a neighbour search may return paper `id`: it passes the filter
      and has an embedding. */
  predicate Embedded(store: Store, emb: BitTable, f: Filter, id: PaperId)
  {
    id in store && id in emb && Admits(f, id, store[id])
  }

  function EmbeddedKeep(store: Store, emb: BitTable, f: Filter): PaperId -> bool
  {
    (id: PaperId) => Embedded(store, emb, f, id)
  }

  function DistanceKey(emb: BitTable, v: seq<bool>): PaperId -> Key
  {
    (id: PaperId) => if id in emb then Nearest(Hamming(emb[id], v)) else []
  }

  /** `get_similar_embeddings(paper, valid, n)`: nothing when the paper has
      no embedding; otherwise the `n` embedded valid papers nearest to it in
      Hamming distance. */
  function SimilarEmbeddings(store: Store, emb: BitTable, f: Filter, source: PaperId, n: nat): (r: seq<PaperId>)
    ensures source !in emb ==> r == []
    ensures |r| <= n
    ensures forall x :: x in r ==> x in emb
  {
    if source !in emb then []
    else
      QueryFromTable(SortedKeys(emb.Keys), EmbeddedKeep(store, emb, f), DistanceKey(emb, emb[source]), n);
      Query(SortedKeys(emb.Keys), EmbeddedKeep(store, emb, f), DistanceKey(emb, emb[source]), n)
  }

  /** Every neighbour is a distinct embedded valid paper. */
  lemma SimilarEmbeddingsValid(store: Store, emb: BitTable, f: Filter, source: PaperId, n: nat)
    ensures Distinct(SimilarEmbeddings(store, emb, f, source, n))
    ensures forall x :: x in SimilarEmbeddings(store, emb, f, source, n) ==> Embedded(store, emb, f, x)
  {
    if source in emb {
      QueryFiltered(SortedKeys(emb.Keys), EmbeddedKeep(store, emb, f), DistanceKey(emb, emb[source]), n);
    }
  }

  /** Neighbours come in non-decreasing distance from the source. */
  lemma SimilarEmbeddingsNearestFirst(store: Store, emb: BitTable, f: Filter, source: PaperId, n: nat)
    requires source in emb
    ensures forall i, j :: 0 <= i < j < |SimilarEmbeddings(store, emb, f, source, n)| ==>
      Hamming(emb[SimilarEmbeddings(store, emb, f, source, n)[i]], emb[source])
        <= Hamming(emb[SimilarEmbeddings(store, emb, f, source, n)[j]], emb[source])
  {
    var r := SimilarEmbeddings(store, emb, f, source, n);
    var key := DistanceKey(emb, emb[source]);
    QueryOrdered(SortedKeys(emb.Keys), EmbeddedKeep(store, emb, f), key, n);
    forall i, j | 0 <= i < j < |r| ensures Hamming(emb[r[i]], emb[source]) <= Hamming(emb[r[j]], emb[source]) {
      assert r[i] in emb && r[j] in emb;
      assert KeyLe(key(r[i]), key(r[j]));
      NearestOrder(Hamming(emb[r[i]], emb[source]), Hamming(emb[r[j]], emb[source]));
    }
  }

  /** No embedded valid paper left out is nearer than one returned, and a
      list shorter than `n` holds every embedded valid paper. */
  lemma SimilarEmbeddingsTop(store: Store, emb: BitTable, f: Filter, source: PaperId, n: nat)
    requires source in emb
    ensures forall x, y ::
      (x in SimilarEmbeddings(store, emb, f, source, n) && Embedded(store, emb, f, y) && y !in SimilarEmbeddings(store, emb, f, source, n))
      ==> Hamming(emb[x], emb[source]) <= Hamming(emb[y], emb[source])
    ensures |SimilarEmbeddings(store, emb, f, source, n)| < n ==>
      forall y :: Embedded(store, emb, f, y) ==> y in SimilarEmbeddings(store, emb, f, source, n)
  {
    var ids := SortedKeys(emb.Keys);
    var r := SimilarEmbeddings(store, emb, f, source, n);
    var key := DistanceKey(emb, emb[source]);
    QueryTop(ids, EmbeddedKeep(store, emb, f), key, n);
    QueryComplete(ids, EmbeddedKeep(store, emb, f), key, n);
    forall y | Embedded(store, emb, f, y) ensures y in ids {
      assert y in emb.Keys;
    }
    forall x, y | x in r && Embedded(store, emb, f, y) && y !in r
      ensures Hamming(emb[x], emb[source]) <= Hamming(emb[y], emb[source])
    {
      assert y in ids;
      assert KeyLe(key(x), key(y));
      NearestOrder(Hamming(emb[x], emb[source]), Hamming(emb[y], emb[source]));
    }
  }

  /** Neighbours requested per source paper:
      `max(1, RESULTS_PER_PAGE // max(1, n)) + 1`. */
  function Depth(n: nat): (k: nat)
    ensures k >= 2
  {
    var per := ResultsPerPage / (if n > 1 then n else 1);
    (if per > 1 then per else 1) + 1
  }

  /** With at least one source, full groups from every source would more
      than fill a page. */
  lemma DepthCoversPage(n: nat)
    requires n >= 1
    ensures n * Depth(n) > ResultsPerPage
  {
    var per := ResultsPerPage / n;
    assert n * per + ResultsPerPage % n == ResultsPerPage;
    if per > 1 {
      assert n * Depth(n) == n * per + n;
    } else {
      assert n * Depth(n) == 2 * n;
    }
  }

  /** The papers of a list, as a set. */
  function Elems(s: seq<PaperId>): (r: set<PaperId>)
    ensures forall x :: x in r <==> x in s
  {
    set x | x in s
  }

  /** The elements of `s` not in `seen`, first occurrences only, in order:
      what the inner loop of `tag_search` keeps from one neighbour list. */
  function Fresh(s: seq<PaperId>, seen: set<PaperId>): seq<PaperId>
  {
    if s == [] then []
    else if s[0] in seen then Fresh(s[1..], seen)
    else [s[0]] + Fresh(s[1..], seen + {s[0]})
  }

  /** The fresh part holds each unseen element of the list once, and
      nothing else. */
  lemma {:induction false} FreshUnseen(s: seq<PaperId>, seen: set<PaperId>)
    ensures forall x :: x in Fresh(s, seen) <==> x in s && x !in seen
    ensures Distinct(Fresh(s, seen))
    ensures |Fresh(s, seen)| <= |s|
  {
    if s != [] {
      if s[0] in seen {
        FreshUnseen(s[1..], seen);
      } else {
        var rest := Fresh(s[1..], seen + {s[0]});
        FreshUnseen(s[1..], seen + {s[0]});
        assert s[0] !in rest;
        forall i, j | 0 <= i < j < |[s[0]] + rest| ensures ([s[0]] + rest)[i] != ([s[0]] + rest)[j] {
          if i > 0 {
            assert ([s[0]] + rest)[i] == rest[i - 1] && ([s[0]] + rest)[j] == rest[j - 1];
          } else {
            assert ([s[0]] + rest)[j] in rest;
          }
        }
        assert forall x :: x in s <==> x == s[0] || x in s[1..];
      }
    }
  }

  /** The group lists `tag_search` builds from the first `n` sources, in
      order: each source contributes the fresh part of its neighbour list,
      and only when that part is non-empty. */
  function Groups(store: Store, emb: BitTable, f: Filter, srcs: seq<PaperId>, n: nat, k: nat): (gs: seq<seq<PaperId>>)
    requires n <= |srcs|
  {
    if n == 0 then []
    else
      var prev := Groups(store, emb, f, srcs, n - 1, k);
      var g := Fresh(SimilarEmbeddings(store, emb, f, srcs[n - 1], k), Elems(Flatten(prev)));
      if g == [] then prev else prev + [g]
  }

  lemma DistinctConcat(a: seq<PaperId>, b: seq<PaperId>)
    requires Distinct(a) && Distinct(b)
    requires forall x :: x in b ==> x !in a
    ensures Distinct(a + b)
  {
    forall i, j | 0 <= i < j < |a + b| ensures (a + b)[i] != (a + b)[j] {
      if j < |a| {
        assert (a + b)[i] == a[i] && (a + b)[j] == a[j];
      } else if i >= |a| {
        assert (a + b)[i] == b[i - |a|] && (a + b)[j] == b[j - |a|];
      } else {
        assert (a + b)[i] == a[i] && (a + b)[j] == b[j - |a|];
        assert b[j - |a|] in b;
      }
    }
  }

  /** Appending a group of unseen papers keeps the collected papers
      distinct and valid, and the seen set in step with them. */
  lemma AppendGroup(store: Store, emb: BitTable, f: Filter, groups: seq<seq<PaperId>>, g: seq<PaperId>)
    requires Distinct(Flatten(groups)) && Distinct(g)
    requires forall x :: x in g ==> x !in Flatten(groups) && Embedded(store, emb, f, x)
    requires forall x :: x in Flatten(groups) ==> Embedded(store, emb, f, x)
    ensures Flatten(groups + [g]) == Flatten(groups) + g
    ensures Distinct(Flatten(groups + [g]))
    ensures Elems(Flatten(groups + [g])) == Elems(Flatten(groups)) + Elems(g)
    ensures forall x :: x in Flatten(groups + [g]) ==> Embedded(store, emb, f, x)
  {
    FlattenAppend(groups, g);
    DistinctConcat(Flatten(groups), g);
  }

  /** The collected groups: their papers distinct and admitted, and at
      most `k` a group. */
  ghost predicate GroupsOk(store: Store, emb: BitTable, f: Filter, k: nat, groups: seq<seq<PaperId>>)
  {
    && Distinct(Flatten(groups))
    && (forall g :: g in groups ==> |g| <= k)
    && (forall x :: x in Flatten(groups) ==> Embedded(store, emb, f, x))
  }

  /** What one pass of the source loop keeps true: the groups follow
      `Groups`, their papers stay distinct, valid and at most `k` a group. */
  lemma CollectStep(store: Store, emb: BitTable, f: Filter, sources: seq<PaperId>, used: nat, k: nat,
                    groups: seq<seq<PaperId>>, newOnes: seq<PaperId>)
    requires used < |sources|
    requires groups == Groups(store, emb, f, sources, used, k)
    requires GroupsOk(store, emb, f, k, groups)
    requires newOnes == Fresh(SimilarEmbeddings(store, emb, f, sources[used], k), Elems(Flatten(groups)))
    ensures var next := if newOnes == [] then groups else groups + [newOnes];
      && next == Groups(store, emb, f, sources, used + 1, k)
      && |Flatten(next)| == |Flatten(groups)| + |newOnes|
      && Elems(Flatten(next)) == Elems(Flatten(groups)) + Elems(newOnes)
      && GroupsOk(store, emb, f, k, next)
      && |newOnes| <= k
  {
    assert Groups(store, emb, f, sources, used + 1, k) == if newOnes == [] then groups else groups + [newOnes];
    SimilarEmbeddingsValid(store, emb, f, sources[used], k);
    FreshUnseen(SimilarEmbeddings(store, emb, f, sources[used], k), Elems(Flatten(groups)));
    if newOnes != [] {
      AppendFresh(store, emb, f, k, groups, newOnes);
    } else {
      assert Elems(newOnes) == {};
    }
  }

  /** A group of at most `k` admitted papers, none collected before, keeps
      the collected groups well formed. */
  lemma AppendFresh(store: Store, emb: BitTable, f: Filter, k: nat, groups: seq<seq<PaperId>>, g: seq<PaperId>)
    requires GroupsOk(store, emb, f, k, groups)
    requires Distinct(g) && |g| <= k
    requires forall x :: x in g ==> x !in Flatten(groups) && Embedded(store, emb, f, x)
    ensures |Flatten(groups + [g])| == |Flatten(groups)| + |g|
    ensures Elems(Flatten(groups + [g])) == Elems(Flatten(groups)) + Elems(g)
    ensures GroupsOk(store, emb, f, k, groups + [g])
  {
    AppendGroup(store, emb, f, groups, g);
    assert forall h :: h in groups + [g] ==> h in groups || h == g;
  }

  /** The inner loop of `tag_search`, `for similar in similars`: keeps the
      papers of one neighbour list not seen before, marking each as seen. */
  method KeepUnseen(similars: seq<PaperId>, seen: set<PaperId>) returns (newOnes: seq<PaperId>, seen': set<PaperId>)
    ensures newOnes == Fresh(similars, seen)
    ensures seen' == seen + Elems(newOnes)
  {
    newOnes := [];
    seen' := seen;
    var j := 0;
    while j < |similars|
      invariant j <= |similars|
      invariant newOnes + Fresh(similars[j..], seen') == Fresh(similars, seen)
      invariant seen' == seen + Elems(newOnes)
      decreases |similars| - j
    {
      var s := similars[j];
      FreshStep(similars, j, seen');
      if s !in seen' {
        assert (newOnes + [s]) + Fresh(similars[j + 1..], seen' + {s}) == Fresh(similars, seen) by {
          var rest := Fresh(similars[j + 1..], seen' + {s});
          assert (newOnes + [s]) + rest == newOnes + ([s] + rest);
        }
        ElemsSnoc(newOnes, s);
        newOnes := newOnes + [s];
        seen' := seen' + {s};
      }
      j := j + 1;
    }
    assert similars[j..] == [];
  }

  /** The fresh part of a list, one element at a time. */
  lemma FreshStep(s: seq<PaperId>, j: nat, seen: set<PaperId>)
    requires j < |s|
    ensures Fresh(s[j..], seen) ==
      if s[j] in seen then Fresh(s[j + 1..], seen) else [s[j]] + Fresh(s[j + 1..], seen + {s[j]})
  {
    assert s[j..][1..] == s[j + 1..];
  }

  lemma ElemsSnoc(s: seq<PaperId>, x: PaperId)
    ensures Elems(s + [x]) == Elems(s) + {x}
  {
  }

  /** The source loop of `tag_search`, `for paper in tagged_papers`: one
      neighbour search per source, keeping only papers not yet seen, until
      the sources run out, a page's worth of new papers is collected, or the
      time budget is spent. `overBudget(i)` is the clock check after the
      `i`-th source. */
  method CollectGroups(store: Store, emb: BitTable, f: Filter, sources: seq<PaperId>, k: nat, overBudget: nat -> bool)
    returns (groups: seq<seq<PaperId>>, used: nat)
    ensures used <= |sources|
    ensures groups == Groups(store, emb, f, sources, used, k)
    ensures used < |sources| ==> used > 0 && (|Flatten(groups)| >= ResultsPerPage || overBudget(used - 1))
    ensures used == 0 || InBudget(overBudget, used - 1)
    ensures |Flatten(groups)| < ResultsPerPage + k
    ensures used > 0 ==> |Flatten(Groups(store, emb, f, sources, used - 1, k))| < ResultsPerPage
    ensures GroupsOk(store, emb, f, k, groups)
  {
    ghost var last;
    groups, used, last := CollectLoop(store, emb, f, sources, k, overBudget);
  }

  /** The loop of `CollectGroups`, with `last` the index of the last source
      searched. */
  method CollectLoop(store: Store, emb: BitTable, f: Filter, sources: seq<PaperId>, k: nat, overBudget: nat -> bool)
    returns (groups: seq<seq<PaperId>>, used: nat, ghost last: nat)
    ensures used <= |sources|
    ensures groups == Groups(store, emb, f, sources, used, k)
    ensures used > 0 ==> used == last + 1
    ensures used < |sources| ==> used > 0 && (|Flatten(groups)| >= ResultsPerPage || overBudget(last))
    ensures used == 0 || InBudget(overBudget, last)
    ensures |Flatten(groups)| < ResultsPerPage + k
    ensures used > 0 ==> |Flatten(Groups(store, emb, f, sources, last, k))| < ResultsPerPage
    ensures GroupsOk(store, emb, f, k, groups)
  {
    groups := [];
    used := 0;
    last := 0;
    var seen: set<PaperId> := {};
    var count := 0;
    while used < |sources|
      invariant used <= |sources|
      invariant groups == Groups(store, emb, f, sources, used, k)
      invariant seen == Elems(Flatten(groups)) && count == |Flatten(groups)|
      invariant GroupsOk(store, emb, f, k, groups)
      invariant count < ResultsPerPage
      invariant InBudget(overBudget, used)
      invariant used > 0 ==> used == last + 1 && |Flatten(Groups(store, emb, f, sources, last, k))| < ResultsPerPage
      decreases |sources| - used
    {
      var spent := overBudget(used);
      last := used;
      groups, seen, count, used := CollectSource(store, emb, f, sources, k, used, groups, seen, count);
      if count >= ResultsPerPage || spent {
        break;
      }
      assert InBudget(overBudget, used) by {
        assert InBudget(overBudget, last) && !overBudget(last);
      }
    }
  }

  /** One pass of the source loop: the source's neighbours, the unseen
      ones kept as a new group when there are any, and the seen set and
      the count brought up to date. */
  method CollectSource(store: Store, emb: BitTable, f: Filter, sources: seq<PaperId>, k: nat, used: nat,
                       groups: seq<seq<PaperId>>, seen: set<PaperId>, count: nat)
    returns (groups': seq<seq<PaperId>>, seen': set<PaperId>, count': nat, used': nat)
    requires used < |sources|
    requires groups == Groups(store, emb, f, sources, used, k)
    requires seen == Elems(Flatten(groups)) && count == |Flatten(groups)|
    requires GroupsOk(store, emb, f, k, groups)
    ensures used' == used + 1
    ensures groups' == Groups(store, emb, f, sources, used', k)
    ensures seen' == Elems(Flatten(groups')) && count' == |Flatten(groups')|
    ensures GroupsOk(store, emb, f, k, groups')
    ensures count <= count' <= count + k
  {
    var similars := SimilarEmbeddings(store, emb, f, sources[used], k);
    var newOnes;
    newOnes, seen' := KeepUnseen(similars, seen);
    CollectStep(store, emb, f, sources, used, k, groups, newOnes);
    if newOnes == [] {
      groups' := groups;
    } else {
      groups' := groups + [newOnes];
    }
    count' := count + |newOnes|;
    used' := used + 1;
  }

  /** Whether the budget was not spent after any of the first `n` sources
      (`InBudgetAll`). */
  ghost predicate InBudget(overBudget: nat -> bool, n: nat)
  {
    n == 0 || (InBudget(overBudget, n - 1) && !overBudget(n - 1))
  }

  lemma {:induction false} InBudgetAll(overBudget: nat -> bool, n: nat)
    requires InBudget(overBudget, n)
    ensures forall i :: 0 <= i < n ==> !overBudget(i)
  {
    if n > 0 {
      InBudgetAll(overBudget, n - 1);
    }
  }

  /** One round of the dealing loop: the `i`-th paper of each group long
      enough to have one, in group order. */
  function Round(groups: seq<seq<PaperId>>, i: nat): (r: seq<PaperId>)
    ensures |r| <= |groups|
  {
    if groups == [] then []
    else
      var last := groups[|groups| - 1];
      Round(groups[..|groups| - 1], i) + (if |last| > i then [last[i]] else [])
  }

  /** The first `n` rounds. */
  function Interleave(groups: seq<seq<PaperId>>, n: nat): (r: seq<PaperId>)
  {
    if n == 0 then [] else Interleave(groups, n - 1) + Round(groups, n - 1)
  }

  /** The dealing loop of `tag_search`: `for i in range(res_per_source)`
      over `for result_group in results`. */
  method RoundRobin(groups: seq<seq<PaperId>>, k: nat) returns (papers: seq<PaperId>)
    ensures papers == Interleave(groups, k)
  {
    papers := [];
    for i := 0 to k
      invariant papers == Interleave(groups, i)
    {
      var round := DealRound(groups, i);
      papers := papers + round;
    }
  }

  /** The inner loop: the `i`-th paper of each group that has one. */
  method DealRound(groups: seq<seq<PaperId>>, i: nat) returns (round: seq<PaperId>)
    ensures round == Round(groups, i)
  {
    round := [];
    for g := 0 to |groups|
      invariant round == Round(groups[..g], i)
    {
      assert groups[..g + 1][..g] == groups[..g];
      if |groups[g]| > i {
        round := round + [groups[g][i]];
      }
    }
    assert groups[..|groups|] == groups;
  }

  /** The first `n` elements of `g`, or all of it. */
  function Take(g: seq<PaperId>, n: nat): (r: seq<PaperId>)
    ensures r <= g && |r| == if n < |g| then n else |g|
  {
    if n < |g| then g[..n] else g
  }

  /** The papers the first `n` rounds can deal: the first `n` of each group. */
  ghost function Heads(groups: seq<seq<PaperId>>, n: nat): multiset<PaperId>
  {
    if groups == [] then multiset{}
    else Heads(groups[..|groups| - 1], n) + multiset(Take(groups[|groups| - 1], n))
  }

  /** Round `n` deals exactly the `n`-th paper of each group that has one. */
  lemma {:induction false} RoundHeads(groups: seq<seq<PaperId>>, n: nat)
    requires n > 0
    ensures Heads(groups, n - 1) + multiset(Round(groups, n - 1)) == Heads(groups, n)
  {
    if groups != [] {
      var g := groups[|groups| - 1];
      RoundHeads(groups[..|groups| - 1], n);
      if |g| > n - 1 {
        assert Take(g, n) == Take(g, n - 1) + [g[n - 1]];
      } else {
        assert Take(g, n) == Take(g, n - 1);
      }
    }
  }

  lemma {:induction false} HeadsZero(groups: seq<seq<PaperId>>)
    ensures Heads(groups, 0) == multiset{}
  {
    if groups != [] {
      HeadsZero(groups[..|groups| - 1]);
    }
  }

  /** `n` rounds deal the first `n` papers of every group, each once. */
  lemma {:induction false} InterleaveHeads(groups: seq<seq<PaperId>>, n: nat)
    ensures multiset(Interleave(groups, n)) == Heads(groups, n)
  {
    if n == 0 {
      HeadsZero(groups);
    } else {
      InterleaveHeads(groups, n - 1);
      InterleaveHeadsStep(groups, n);
    }
  }

  /** Round `n - 1` deals what the `n`-th heads add to the first `n - 1`. */
  lemma InterleaveHeadsStep(groups: seq<seq<PaperId>>, n: nat)
    requires n > 0
    requires multiset(Interleave(groups, n - 1)) == Heads(groups, n - 1)
    ensures multiset(Interleave(groups, n)) == Heads(groups, n)
  {
    RoundHeads(groups, n);
  }

  /** When no group is longer than `n`, the heads are all the papers. */
  lemma {:induction false} HeadsAll(groups: seq<seq<PaperId>>, n: nat)
    requires forall g :: g in groups ==> |g| <= n
    ensures Heads(groups, n) == multiset(Flatten(groups))
  {
    if groups != [] {
      var init := groups[..|groups| - 1];
      var last := groups[|groups| - 1];
      assert groups == init + [last];
      HeadsAll(init, n);
      FlattenAppend(init, last);
    }
  }

  /** With enough rounds, dealing hands out every paper of every group
      exactly once. */
  lemma InterleaveDealsAll(groups: seq<seq<PaperId>>, n: nat)
    requires forall g :: g in groups ==> |g| <= n
    ensures multiset(Interleave(groups, n)) == multiset(Flatten(groups))
  {
    InterleaveHeads(groups, n);
    HeadsAll(groups, n);
  }

  /** Earlier rounds are a prefix of later ones. */
  lemma {:induction false} InterleavePrefix(groups: seq<seq<PaperId>>, m: nat, n: nat)
    requires m <= n
    ensures Interleave(groups, m) <= Interleave(groups, n)
    decreases n
  {
    if m < n {
      InterleavePrefix(groups, m, n - 1);
    }
  }

  /** A round over the first groups is a prefix of the round over all. */
  lemma {:induction false} RoundPrefix(groups: seq<seq<PaperId>>, a: nat, i: nat)
    requires a <= |groups|
    ensures Round(groups[..a], i) <= Round(groups, i)
    decreases |groups|
  {
    if a < |groups| {
      var init := groups[..|groups| - 1];
      assert init[..a] == groups[..a];
      RoundPrefix(init, a, i);
    } else {
      assert groups[..a] == groups;
    }
  }

  /** Where the `j`-th paper of group `g` is dealt: after the first `j`
      rounds and after the `j`-th papers of the groups before `g`. */
  function Pos(groups: seq<seq<PaperId>>, g: nat, j: nat): nat
    requires g <= |groups|
  {
    |Interleave(groups, j)| + |Round(groups[..g], j)|
  }

  lemma DealtAt(groups: seq<seq<PaperId>>, g: nat, j: nat, n: nat)
    requires g < |groups| && j < |groups[g]| && j < n
    ensures Pos(groups, g, j) < |Interleave(groups, n)|
    ensures Interleave(groups, n)[Pos(groups, g, j)] == groups[g][j]
  {
    var pre := groups[..g + 1];
    assert pre[..g] == groups[..g];
    assert Round(pre, j) == Round(groups[..g], j) + [groups[g][j]];
    RoundPrefix(groups, g + 1, j);
    InterleavePrefix(groups, j + 1, n);
    assert Interleave(groups, j + 1) == Interleave(groups, j) + Round(groups, j);
  }

  /** Round-robin order: the `j`-th paper of any group is dealt before the
      `(j+1)`-th paper of any group. */
  lemma RoundRobinOrder(groups: seq<seq<PaperId>>, g1: nat, g2: nat, j: nat)
    requires g1 < |groups| && g2 < |groups|
    requires j < |groups[g1]| && j + 1 < |groups[g2]|
    ensures Pos(groups, g1, j) < Pos(groups, g2, j + 1)
  {
    var pre := groups[..g1 + 1];
    assert pre[..g1] == groups[..g1];
    assert |Round(pre, j)| == |Round(groups[..g1], j)| + 1;
    RoundPrefix(groups, g1 + 1, j);
    assert Interleave(groups, j + 1) == Interleave(groups, j) + Round(groups, j);
  }

  /** `tag_search` after its tag has been checked to be non-empty: the
      sources (already shuffled) are searched, then the groups are dealt
      round-robin. The result holds no paper twice, every paper of every
      group, only embedded valid papers, and fewer than a page plus one
      group's worth. The sources themselves are not excluded. */
  method TagSearchCore(store: Store, emb: BitTable, f: Filter, sources: seq<PaperId>, overBudget: nat -> bool)
    returns (papers: seq<PaperId>, ghost groups: seq<seq<PaperId>>, ghost used: nat)
    ensures used <= |sources|
    ensures groups == Groups(store, emb, f, sources, used, Depth(|sources|))
    ensures used < |sources| ==> used > 0 && (|Flatten(groups)| >= ResultsPerPage || overBudget(used - 1))
    ensures papers == Interleave(groups, Depth(|sources|))
    ensures multiset(papers) == multiset(Flatten(groups))
    ensures Distinct(papers)
    ensures forall x :: x in papers ==> Embedded(store, emb, f, x)
    ensures |papers| < ResultsPerPage + Depth(|sources|)
  {
    var k := Depth(|sources|);
    var gs, u := CollectGroups(store, emb, f, sources, k, overBudget);
    groups, used := gs, u;
    papers := RoundRobin(gs, k);
    InterleaveDealsAll(gs, k);
    DistinctIffSingleCounts(papers);
    DistinctIffSingleCounts(Flatten(gs));
    forall x | x in papers ensures Embedded(store, emb, f, x) {
      assert x in multiset(Flatten(gs));
    }
    assert |papers| == |multiset(papers)| == |multiset(Flatten(gs))| == |Flatten(gs)|;
  }
}

=== FILE: SearchQuery.dfy ===
/** The front of the unified search view: the `tag: X` / `paper: X` query
    syntax, the choice among the three searches, the resolution of the paper
    reference a paper search starts from, and the `has_more` rule. */
module SearchQuery {
  import opened Wrappers
  import opened Text
  import opened Corpus
  import opened Ranking
  import opened Tags
  import Retrieval

  /** `re.match(r"^<prefix>\s(.+)$", q)` succeeds with group `g`: the prefix,
      one whitespace character, then a non-empty rest without line breaks,
      which `$` lets be followed by one final newline. */
  predicate Matches(q: string, prefix: string, g: string)
  {
    && |q| > |prefix|
    && q[..|prefix|] == prefix
    && IsSpace(q[|prefix|])
    && g != [] && '\n' !in g
    && (q[|prefix| + 1..] == g || q[|prefix| + 1..] == g + "\n")
  }

  /** At most one group can match. */
  lemma MatchesUnique(q: string, prefix: string, g1: string, g2: string)
    requires Matches(q, prefix, g1) && Matches(q, prefix, g2)
    ensures g1 == g2
  {
    var rest := q[|prefix| + 1..];
    assert |rest| > 0;
    if rest[|rest| - 1] == '\n' {
      assert '\n' in rest;
      assert g1 == rest[..|rest| - 1] == g2;
    }
  }

  /** The regex match itself: the group if there is one. */
  function MatchPrefix(q: string, prefix: string): (r: Option<string>)
    ensures r.Some? ==> Matches(q, prefix, r.value)
    ensures r.None? ==> forall g :: !Matches(q, prefix, g)
  {
    if |q| <= |prefix| || q[..|prefix|] != prefix || !IsSpace(q[|prefix|]) then None
    else
      var rest := q[|prefix| + 1..];
      var body := if rest != [] && rest[|rest| - 1] == '\n' then rest[..|rest| - 1] else rest;
      assert rest != [] && rest[|rest| - 1] == '\n' ==> rest == body + "\n";
      if body != [] && '\n' !in body then Some(body) else None
  }

  /** The messages a malformed query reports instead of searching. */
  datatype QueryError = LoginRequired | TagNotFound(name: string) | PaperNotFound(arxivId: string)

  /** What the query parsing hands on to the dispatch. */
  datatype Parsed = Parsed(
    singlePaper: Option<string>,
    searchAllTag: Option<string>,
    tagForSearch: Option<TagId>,
    actualQuery: string,
    error: Option<QueryError>)

  /** `Paper.objects.get(arxiv_id=a)`; the arXiv id is unique in the table. */
  function FindArxiv(store: Store, a: string): (r: Option<PaperId>)
    ensures r.Some? ==> r.value in store && store[r.value].arxivId == a
    ensures r.None? ==> forall id :: id in store ==> store[id].arxivId != a
  {
    var ids := set id | id in store && store[id].arxivId == a;
    if ids == {} then
      assert forall id :: id in store && store[id].arxivId == a ==> id in ids;
      None
    else Some(Min(ids))
  }

  /** The query parsing of the search view, on the stripped query `raw`. The
      `tag:` form is tried first; it needs a logged-in `user` and one of that
      user's tags by exact name. The `paper:` form looks the stripped rest up
      by arXiv id and passes the internal id on as text. */
  function Classify(raw: string, user: Option<UserId>, tags: map<TagId, Tag>, store: Store): (p: Parsed)
    ensures p.error.Some? ==> p.singlePaper.None? && p.tagForSearch.None? && p.actualQuery == raw
    ensures p.singlePaper.Some? ==> p.tagForSearch.None? && p.actualQuery == ""
    ensures p.tagForSearch.Some? <==> p.searchAllTag.Some?
    ensures p.tagForSearch.Some? ==>
      user.Some? && p.tagForSearch.value in tags && tags[p.tagForSearch.value].user == user.value
      && p.searchAllTag == Some("1") && p.actualQuery == ""
    ensures p.singlePaper.Some? ==> exists id :: id in store && p.singlePaper == Some(NatToString(id))
  {
    if raw == "" then Parsed(None, None, None, raw, None)
    else match MatchPrefix(raw, "tag:")
      case Some(name) =>
        if user.None? then Parsed(None, None, None, raw, Some(LoginRequired))
        else (match FindTag(tags, user.value, name)
          case None => Parsed(None, None, None, raw, Some(TagNotFound(name)))
          case Some(t) => Parsed(None, Some("1"), Some(t), "", None))
      case None =>
        match MatchPrefix(raw, "paper:")
        case Some(g) =>
          (match FindArxiv(store, Strip(g))
            case None => Parsed(None, None, None, raw, Some(PaperNotFound(Strip(g))))
            case Some(id) => Parsed(Some(NatToString(id)), None, None, "", None))
        case None => Parsed(None, None, None, raw, None)
  }

  /** A query of the `tag:` form is never read as a paper reference; it
      fails for an anonymous user, fails for a name the user has no tag by,
      and otherwise selects that very tag for a tag search. */
  lemma ClassifyTag(raw: string, user: Option<UserId>, tags: map<TagId, Tag>, store: Store, name: string)
    requires Matches(raw, "tag:", name)
    ensures var p := Classify(raw, user, tags, store);
      && p.singlePaper.None?
      && (user.None? ==> p.error == Some(LoginRequired))
      && (user.Some? && (forall t :: t in tags ==> tags[t] != Tag(user.value, name)) ==>
            p.error == Some(TagNotFound(name)))
      && (user.Some? && (exists t :: t in tags && tags[t] == Tag(user.value, name)) ==>
            p.error.None? && p.tagForSearch.Some? && tags[p.tagForSearch.value] == Tag(user.value, name))
  {
    var m := MatchPrefix(raw, "tag:");
    if m.Some? {
      MatchesUnique(raw, "tag:", m.value, name);
    }
  }

  /** A query of the `paper:` form (and not of the `tag:` form) is looked up
      by its stripped arXiv id: a miss reports that id, a hit passes the
      paper's internal id on. */
  lemma ClassifyPaper(raw: string, user: Option<UserId>, tags: map<TagId, Tag>, store: Store, g: string)
    requires Matches(raw, "paper:", g)
    requires forall name :: !Matches(raw, "tag:", name)
    ensures var p := Classify(raw, user, tags, store);
      && p.tagForSearch.None?
      && ((forall id :: id in store ==> store[id].arxivId != Strip(g)) ==>
            p.error == Some(PaperNotFound(Strip(g))))
      && (forall id :: id in store && store[id].arxivId == Strip(g) ==>
            p.error.None? && p.singlePaper.Some? && ParseInt(p.singlePaper.value).Some?
            && ParseInt(p.singlePaper.value).value in store
            && store[ParseInt(p.singlePaper.value).value].arxivId == Strip(g))
  {
    var m := MatchPrefix(raw, "paper:");
    MatchesUnique(raw, "paper:", m.value, g);
    assert MatchPrefix(raw, "tag:").None?;
    var f := FindArxiv(store, Strip(g));
    var p := Classify(raw, user, tags, store);
    if f.Some? {
      ParseIntToString(f.value);
      assert p == Parsed(Some(NatToString(f.value)), None, None, "", None);
    } else {
      assert p == Parsed(None, None, None, raw, Some(PaperNotFound(Strip(g))));
    }
  }

  /** Any other query is a plain keyword query. */
  lemma ClassifyPlain(raw: string, user: Option<UserId>, tags: map<TagId, Tag>, store: Store)
    requires forall g :: !Matches(raw, "tag:", g) && !Matches(raw, "paper:", g)
    ensures Classify(raw, user, tags, store) == Parsed(None, None, None, raw, None)
  {
  }

  /** The three searches (the `type` of the view's search context) and the
      empty outcome. A keyword search runs on the whole stripped query. */
  datatype Strategy = NoSearch | SinglePaper(ref: string) | TagAll(tag: TagId) | Keyword(query: string)

  /** Python truthiness of an optional string parameter. */
  predicate Truthy(v: Option<string>)
  {
    v.Some? && v.value != ""
  }

  /** Python's `a or b` on optional strings. */
  function Or(a: Option<string>, b: Option<string>): (r: Option<string>)
    ensures Truthy(r) <==> Truthy(a) || Truthy(b)
    ensures Truthy(a) ==> r == a
  {
    if Truthy(a) then a else b
  }

  /** The dispatch of the search view. The parsed paper reference, else the
      `single_paper` parameter, is the paper search's source; the parsed tag
      together with a truthy `search_all` (parsed, else the parameter)
      selects a tag search; any query left over selects a keyword search. */
  function ChooseStrategy(p: Parsed, raw: string, singleParam: Option<string>, searchAllParam: Option<string>): (s: Strategy)
    ensures p.error.Some? ==> s == NoSearch
    ensures s.SinglePaper? ==> p.error.None? && s.ref != "" && (Some(s.ref) == p.singlePaper || (!Truthy(p.singlePaper) && Some(s.ref) == singleParam))
    ensures s.TagAll? ==> p.error.None? && p.tagForSearch == Some(s.tag) && !Truthy(Or(p.singlePaper, singleParam))
    ensures s.Keyword? ==>
      (s.query == raw && p.actualQuery != ""
       && (p.tagForSearch.None? || !Truthy(Or(p.searchAllTag, searchAllParam))) && !Truthy(Or(p.singlePaper, singleParam)))
    ensures s == NoSearch ==>
      (p.error.Some? || (!Truthy(Or(p.singlePaper, singleParam))
       && (p.tagForSearch.None? || !Truthy(Or(p.searchAllTag, searchAllParam))) && p.actualQuery == ""))
  {
    var single := Or(p.singlePaper, singleParam);
    var searchAll := Or(p.searchAllTag, searchAllParam);
    if p.error.Some? then NoSearch
    else if Truthy(single) then SinglePaper(single.value)
    else if Truthy(searchAll) && p.tagForSearch.Some? then TagAll(p.tagForSearch.value)
    else if p.actualQuery != "" then Keyword(raw)
    else NoSearch
  }

  /** `paper_search`'s lookup of its source: as an internal id if the text is
      a number naming a paper, else as an arXiv id; a number that names
      nothing is a 404 and any other text reaches the id lookup and raises. */
  function ResolvePaper(store: Store, ref: string): (r: Result<PaperId, HttpError>)
    ensures r.Ok? ==> r.value in store && (ParseInt(ref) == Some(r.value) || store[r.value].arxivId == ref)
    ensures ParseInt(ref).Some? && ParseInt(ref).value in store ==> r == Ok(ParseInt(ref).value)
    ensures r.Err? ==> forall id :: id in store ==> store[id].arxivId != ref && ParseInt(ref) != Some(id)
    ensures r.Err? ==> r.error == if ParseInt(ref).Some? then NotFound else ServerError
  {
    var n := ParseInt(ref);
    if n.Some? && n.value in store then Ok(n.value)
    else match FindArxiv(store, ref)
      case Some(id) => Ok(id)
      case None => if n.Some? then Err(NotFound) else Err(ServerError)
  }

  /** End to end: the id a successful `paper:` query passes on resolves to
      the paper the query named. */
  lemma PaperQueryResolves(raw: string, user: Option<UserId>, tags: map<TagId, Tag>, store: Store,
                           singleParam: Option<string>, searchAllParam: Option<string>)
    requires Classify(raw, user, tags, store).singlePaper.Some?
    ensures var p := Classify(raw, user, tags, store);
      var s := ChooseStrategy(p, raw, singleParam, searchAllParam);
      && s.SinglePaper?
      && ResolvePaper(store, s.ref).Ok?
      && Some(ResolvePaper(store, s.ref).value) == ParseInt(p.singlePaper.value)
  {
    var p := Classify(raw, user, tags, store);
    var id :| id in store && p.singlePaper == Some(NatToString(id));
    ParseIntToString(id);
  }

  /** `has_more`: some results, and a further page would stay below the cap
      (`excluded` counts the exclusion set after the search added to it). */
  function HasMore(results: nat, excluded: nat): bool
  {
    results > 0 && excluded + Retrieval.ResultsPerPage < Retrieval.MaxResults
  }

  /** "Load more" ends. Each request is searched with `excluded[i]`, its
      page `pages[i]` holds papers outside that set, and the client sends
      back at least the ids it has already seen. If every page in a row
      offers more, the row has at most `MaxResults - ResultsPerPage` pages
      beyond the ids excluded at its start. */
  lemma PagingEnds(excluded: seq<set<nat>>, pages: seq<seq<nat>>)
    requires |excluded| == |pages| > 0
    requires forall i :: 0 <= i < |pages| ==> forall p :: p in pages[i] ==> p !in excluded[i]
    requires forall i :: 0 <= i < |pages| - 1 ==> excluded[i] + (set p | p in pages[i]) <= excluded[i + 1]
    requires forall i :: 0 <= i < |pages| ==> HasMore(|pages[i]|, |excluded[i]|)
    ensures |excluded[0]| + |pages| <= Retrieval.MaxResults - Retrieval.ResultsPerPage
  {
    ExclusionsGrow(excluded, pages, |pages| - 1);
  }

  /** The exclusion set gains at least one id per page that offers more. */
  lemma {:induction false} ExclusionsGrow(excluded: seq<set<nat>>, pages: seq<seq<nat>>, i: nat)
    requires |excluded| == |pages| && i < |pages|
    requires forall i :: 0 <= i < |pages| ==> forall p :: p in pages[i] ==> p !in excluded[i]
    requires forall i :: 0 <= i < |pages| - 1 ==> excluded[i] + (set p | p in pages[i]) <= excluded[i + 1]
    requires forall i :: 0 <= i < |pages| ==> HasMore(|pages[i]|, |excluded[i]|)
    ensures |excluded[i]| >= |excluded[0]| + i
  {
    if i > 0 {
      var j := i - 1;
      ExclusionsGrow(excluded, pages, j);
      var shown := set p | p in pages[j];
      assert pages[j][0] in shown;
      assert |shown| >= 1 by { assert {pages[j][0]} <= shown; SubsetCard({pages[j][0]}, shown); }
      assert excluded[j] * shown == {};
      SubsetCard(excluded[j] + shown, excluded[i]);
    }
  }

  /** A subset is no larger. */
  lemma SubsetCard(a: set<nat>, b: set<nat>)
    requires a <= b
    ensures |a| <= |b|
  {
    assert b == a + (b - a);
  }
}

=== FILE: SearchView.dfy ===
/** The unified search view: it reads the request, parses the query, opens
    the drawer of the tag named in the URL, runs the chosen search against a
    shared request context, and assembles the page: the results with their
    processed text and the user's tag names, the categories present among
    them, and whether another page can follow. */
module SearchView {
  import opened Wrappers
  import opened Text
  import opened Ranking
  import opened Chunking
  import opened Corpus
  import opened Latex
  import opened Filters
  import opened Retrieval
  import opened Tags
  import opened SearchQuery

  /** A request as the view reads it: the AJAX header, the method, the
      logged-in user, the URL parameters and, for an AJAX POST, the JSON
      body's `query_params` and `exclude_ids`. */
  datatype Request = Request(
    ajax: bool,
    post: bool,
    user: Option<UserId>,
    get: map<string, string>,
    body: map<string, string>,
    bodyExclude: set<PaperId>)

  function Param(m: map<string, string>, k: string): Option<string>
  {
    if k in m then Some(m[k]) else None
  }

  function ParamOr(m: map<string, string>, k: string, default: string): string
  {
    if k in m then m[k] else default
  }

  /** Only an AJAX POST reads its parameters and exclusions from the body. */
  function QueryParams(req: Request): map<string, string>
  {
    if req.ajax && req.post then req.body else req.get
  }

  function InitialExclude(req: Request): set<PaperId>
  {
    if req.ajax && req.post then req.bodyExclude else {}
  }

  /** The sources of a tag search: the papers of the tag's memberships. */
  function PapersOf(rows: seq<TaggedRow>): (r: seq<PaperId>)
    ensures |r| == |rows| && forall i :: 0 <= i < |rows| ==> r[i] == rows[i].paper
  {
    seq(|rows|, i requires 0 <= i < |rows| => rows[i].paper)
  }

  /** `random.shuffle` may produce any rearrangement. */
  ghost predicate IsShuffle(shuffle: seq<PaperId> -> seq<PaperId>)
  {
    forall s: seq<PaperId> :: multiset(shuffle(s)) == multiset(s)
  }

  /** The request's parameters, as the view reads them. */
  function RawQuery(req: Request): string
  {
    Strip(ParamOr(QueryParams(req), "q", ""))
  }

  function ParsedOf(req: Request, st: TagState, store: Store): Parsed
  {
    Classify(RawQuery(req), req.user, st.tags, store)
  }

  function StrategyOf(req: Request, st: TagState, store: Store): Strategy
  {
    var params := QueryParams(req);
    ChooseStrategy(ParsedOf(req, st, store), RawQuery(req), Param(params, "single_paper"), Param(params, "search_all"))
  }

  function DateFilterOf(req: Request): string
  {
    EffectiveDateFilter(ParamOr(QueryParams(req), "date_filter", ""))
  }

  /** The drawer's tag lookup, made only for a logged-in user who names a
      tag. */
  function DrawerLookup(req: Request, st: TagState): Option<Result<TagId, HttpError>>
  {
    if req.user.Some? && "tag" in QueryParams(req)
    then Some(LookupTag(st.tags, req.user.value, Param(QueryParams(req), "tag")))
    else None
  }

  function OpenTag(req: Request, st: TagState): Option<TagId>
  {
    var l := DrawerLookup(req, st);
    if l.Some? && l.value.Ok? then Some(l.value.value) else None
  }

  /** The filter a search ends with: the request's exclusions, the open
      drawer's members and the current paper, if any, the date cutoff and
      the category. */
  function RequestFilter(req: Request, rows: seq<TaggedRow>, currentTag: Option<TagId>, now: int,
                         current: Option<PaperId>): Filter
  {
    Filter(InitialExclude(req)
             + (if currentTag.Some? then Members(rows, currentTag.value) else {})
             + (if current.Some? then {current.value} else {}),
           DateCutoff(DateFilterOf(req), now), ParamOr(QueryParams(req), "category", ""))
  }

  /** The papers a search finds and whether another page can follow. */
  datatype Found = Found(papers: seq<PaperId>, hasMore: bool)

  /** The request context of `search`, fresh, and the `get_valid_papers`
      call a search makes on it: the context's exclusion set grows in place
      and the filter returned is the request's. */
  method ValidPapers(req: Request, rows: seq<TaggedRow>, currentTag: Option<TagId>, now: int,
                     current: Option<PaperId>) returns (f: Filter)
    ensures f == RequestFilter(req, rows, currentTag, now, current)
  {
    var ctx := new SearchContext(InitialExclude(req), DateFilterOf(req), ParamOr(QueryParams(req), "category", ""), currentTag, now);
    f := ctx.GetValidPapers(rows, current);
  }

  /** What `paper_search` followed by `has_more` gives: an unknown source
      is an error; otherwise the source's nearest neighbours under the
      request's filter, which also excludes the source. */
  function PaperSearchOutcome(req: Request, ref: string, store: Store, emb: BitTable, rows: seq<TaggedRow>,
                              currentTag: Option<TagId>, now: int): Result<Found, HttpError>
  {
    match ResolvePaper(store, ref)
    case Err(e) => Err(e)
    case Ok(src) =>
      var f := RequestFilter(req, rows, currentTag, now, Some(src));
      var papers := SimilarEmbeddings(store, emb, f, src, ResultsPerPage);
      Ok(Found(papers, HasMore(|papers|, |f.excluded|)))
  }

  /** `paper_search` followed by `has_more`: a source that cannot be found
      fails before the context is touched; otherwise the source joins the
      exclusions and its nearest neighbours are returned. */
  method PaperSearchRun(req: Request, ref: string, store: Store, emb: BitTable, rows: seq<TaggedRow>,
                        currentTag: Option<TagId>, now: int)
    returns (r: Result<Found, HttpError>)
    ensures r == PaperSearchOutcome(req, ref, store, emb, rows, currentTag, now)
    ensures r.Ok? ==> Distinct(r.value.papers) && forall x :: x in r.value.papers ==> x in store
  {
    var src := ResolvePaper(store, ref);
    if src.Err? {
      return Err(src.error);
    }
    var f := ValidPapers(req, rows, currentTag, now, Some(src.value));
    var papers := SimilarEmbeddings(store, emb, f, src.value, ResultsPerPage);
    r := Ok(Found(papers, HasMore(|papers|, |f.excluded|)));
    PaperSearchValid(req, ref, store, emb, rows, currentTag, now);
  }

  /** A paper search lists distinct stored papers. */
  lemma PaperSearchValid(req: Request, ref: string, store: Store, emb: BitTable, rows: seq<TaggedRow>,
                         currentTag: Option<TagId>, now: int)
    ensures var r := PaperSearchOutcome(req, ref, store, emb, rows, currentTag, now);
      r.Ok? ==> Distinct(r.value.papers) && forall x :: x in r.value.papers ==> x in store
  {
    var src := ResolvePaper(store, ref);
    if src.Ok? {
      var f := RequestFilter(req, rows, currentTag, now, Some(src.value));
      SimilarEmbeddingsValid(store, emb, f, src.value, ResultsPerPage);
      EmbeddedStored(store, emb, f, SimilarEmbeddings(store, emb, f, src.value, ResultsPerPage));
    }
  }

  lemma EmbeddedStored(store: Store, emb: BitTable, f: Filter, papers: seq<PaperId>)
    requires forall x :: x in papers ==> Embedded(store, emb, f, x)
    ensures forall x :: x in papers ==> x in store
  {
  }

  /** What `keyword_search` followed by `has_more` gives. */
  function KeywordOutcome(req: Request, query: string, store: Store, rows: seq<TaggedRow>,
                          currentTag: Option<TagId>, now: int): Found
  {
    var f := RequestFilter(req, rows, currentTag, now, None);
    var papers := KeywordSearch(store, f, query);
    Found(papers, HasMore(|papers|, |f.excluded|))
  }

  /** `keyword_search` on the whole stripped query, followed by
      `has_more`. */
  method KeywordRun(req: Request, query: string, store: Store, rows: seq<TaggedRow>,
                    currentTag: Option<TagId>, now: int)
    returns (found: Found)
    ensures found == KeywordOutcome(req, query, store, rows, currentTag, now)
    ensures Distinct(found.papers) && forall x :: x in found.papers ==> x in store
  {
    var f := ValidPapers(req, rows, currentTag, now, None);
    var papers := KeywordSearch(store, f, query);
    KeywordSearchMatches(store, f, query);
    found := Found(papers, HasMore(|papers|, |f.excluded|));
  }

  /** What `tag_search` followed by `has_more` may give: nothing for a
      tag without memberships; otherwise the dealt neighbours of some prefix
      of the shuffled sources (the prefix the time budget allowed), all
      admitted by the request's filter. */
  ghost predicate TagOutcome(req: Request, t: TagId, store: Store, emb: BitTable, rows: seq<TaggedRow>,
                             currentTag: Option<TagId>, now: int, shuffle: seq<PaperId> -> seq<PaperId>, found: Found)
  {
    if RowsOf(rows, t) == [] then found == Found([], false)
    else
      var sources := shuffle(PapersOf(RowsOf(rows, t)));
      var k := Depth(|sources|);
      var f := RequestFilter(req, rows, currentTag, now, None);
      && (exists used: nat :: used <= |sources|
            && found.papers == Interleave(Groups(store, emb, f, sources, used, k), k))
      && |found.papers| < ResultsPerPage + k
      && (forall x :: x in found.papers ==> Embedded(store, emb, f, x))
      && found.hasMore == HasMore(|found.papers|, |f.excluded|)
  }

  /** `tag_search` followed by `has_more`: no memberships give no results
      before the context is touched; otherwise the shuffled sources are
      searched and dealt. */
  method TagRun(req: Request, t: TagId, store: Store, emb: BitTable, rows: seq<TaggedRow>,
                currentTag: Option<TagId>, now: int,
                shuffle: seq<PaperId> -> seq<PaperId>, overBudget: nat -> bool)
    returns (found: Found)
    requires IsShuffle(shuffle)
    ensures TagOutcome(req, t, store, emb, rows, currentTag, now, shuffle, found)
    ensures Distinct(found.papers) && forall x :: x in found.papers ==> x in store
  {
    var sources := PapersOf(RowsOf(rows, t));
    if sources == [] {
      return Found([], false);
    }
    var shuffled := shuffle(sources);
    assert |shuffled| == |multiset(shuffled)| == |multiset(sources)| == |sources|;
    var f := ValidPapers(req, rows, currentTag, now, None);
    var papers: seq<PaperId>;
    ghost var groups, used;
    papers, groups, used := TagSearchCore(store, emb, f, shuffled, overBudget);
    found := Found(papers, HasMore(|papers|, |f.excluded|));
    assert RowsOf(rows, t) != [];
    assert used <= |shuffled| && papers == Interleave(Groups(store, emb, f, shuffled, used, Depth(|shuffled|)), Depth(|shuffled|));
  }

  /** What the search for `strategy` followed by `has_more` gives: distinct
      stored papers, `has_more` only with results, nothing without a
      search, and otherwise what the chosen search gives. */
  ghost predicate Outcome(req: Request, strategy: Strategy, store: Store, emb: BitTable, rows: seq<TaggedRow>,
                          currentTag: Option<TagId>, now: int, shuffle: seq<PaperId> -> seq<PaperId>, found: Found)
  {
    && Distinct(found.papers)
    && (forall x :: x in found.papers ==> x in store)
    && (found.hasMore ==> found.papers != [])
    && (strategy == NoSearch ==> found == Found([], false))
    && (strategy.SinglePaper? ==> Ok(found) == PaperSearchOutcome(req, strategy.ref, store, emb, rows, currentTag, now))
    && (strategy.Keyword? ==> found == KeywordOutcome(req, strategy.query, store, rows, currentTag, now))
    && (strategy.TagAll? ==> TagOutcome(req, strategy.tag, store, emb, rows, currentTag, now, shuffle, found))
  }

  /** The dispatch at the end of the parsing, followed by `has_more`. Only
      a single-paper search whose paper cannot be found fails. */
  method Execute(req: Request, strategy: Strategy, store: Store, emb: BitTable, rows: seq<TaggedRow>,
                 currentTag: Option<TagId>, now: int,
                 shuffle: seq<PaperId> -> seq<PaperId>, overBudget: nat -> bool)
    returns (r: Result<Found, HttpError>)
    requires IsShuffle(shuffle)
    ensures r.Err? <==> strategy.SinglePaper? && ResolvePaper(store, strategy.ref).Err?
    ensures r.Err? ==> r.error == ResolvePaper(store, strategy.ref).error
    ensures r.Ok? ==> Outcome(req, strategy, store, emb, rows, currentTag, now, shuffle, r.value)
  {
    match strategy {
      case NoSearch =>
        r := Ok(Found([], false));
      case SinglePaper(ref) =>
        r := PaperSearchRun(req, ref, store, emb, rows, currentTag, now);
      case Keyword(query) =>
        var found := KeywordRun(req, query, store, rows, currentTag, now);
        r := Ok(found);
      case TagAll(t) =>
        var found := TagRun(req, t, store, emb, rows, currentTag, now, shuffle, overBudget);
        r := Ok(found);
    }
  }

  /** The categories present among the results, each once, in code-point
      order: the view's `sorted(set(...))`. */
  ghost predicate HasCategory(store: Store, papers: seq<PaperId>, c: string)
  {
    exists i :: 0 <= i < |papers| && papers[i] in store && c in store[papers[i]].categories
  }

  function KeepAllText(c: string): bool { true }

  method CollectCategories(store: Store, papers: seq<PaperId>) returns (cats: seq<string>)
    ensures forall c :: c in cats <==> HasCategory(store, papers, c)
    ensures Distinct(cats)
    ensures forall i, j :: 0 <= i < j < |cats| ==> KeyLe(TextKey(cats[i]), TextKey(cats[j]))
  {
    var found := CategorySet(store, papers);
    cats := Query(found, KeepAllText, TextKey, |found|);
    SortedText(found);
  }

  /** `sorted(...)` of distinct strings: the same strings, in code-point
      order. */
  lemma SortedText(found: seq<string>)
    requires Distinct(found)
    ensures var cats := Query(found, KeepAllText, TextKey, |found|);
      && (forall c :: c in cats <==> c in found)
      && Distinct(cats)
      && forall i, j :: 0 <= i < j < |cats| ==> KeyLe(TextKey(cats[i]), TextKey(cats[j]))
  {
    QueryFiltered(found, KeepAllText, TextKey, |found| + 1);
    QueryComplete(found, KeepAllText, TextKey, |found| + 1);
    QueryOrdered(found, KeepAllText, TextKey, |found|);
    assert Query(found, KeepAllText, TextKey, |found| + 1) == Query(found, KeepAllText, TextKey, |found|);
  }

  /** The set the view's loop collects, held as a list without repeats. */
  method CategorySet(store: Store, papers: seq<PaperId>) returns (found: seq<string>)
    ensures forall c :: c in found <==> HasCategory(store, papers, c)
    ensures Distinct(found)
  {
    found := [];
    for i := 0 to |papers|
      invariant Distinct(found)
      invariant forall c :: c in found <==> HasCategory(store, papers[..i], c)
    {
      var own := if papers[i] in store then store[papers[i]].categories else [];
      for j := 0 to |own|
        invariant Distinct(found)
        invariant forall c :: c in found <==> HasCategory(store, papers[..i], c) || c in own[..j]
      {
        if own[j] !in found {
          found := found + [own[j]];
        }
      }
      CategoriesStep(store, papers, i);
    }
    assert papers[..|papers|] == papers;
  }

  lemma CategoriesStep(store: Store, papers: seq<PaperId>, i: nat)
    requires i < |papers|
    ensures forall c :: HasCategory(store, papers[..i + 1], c) <==>
      HasCategory(store, papers[..i], c) || (papers[i] in store && c in store[papers[i]].categories)
  {
    assert papers[..i + 1][..i] == papers[..i];
    forall c | HasCategory(store, papers[..i + 1], c) && !(papers[i] in store && c in store[papers[i]].categories)
      ensures HasCategory(store, papers[..i], c)
    {
      var k :| 0 <= k < i + 1 && papers[..i + 1][k] in store && c in store[papers[..i + 1][k]].categories;
      assert papers[..i][k] == papers[k];
    }
    forall c | HasCategory(store, papers[..i], c) ensures HasCategory(store, papers[..i + 1], c) {
      var k :| 0 <= k < i && papers[..i][k] in store && c in store[papers[..i][k]].categories;
      assert papers[..i + 1][k] == papers[k];
    }
    forall c | papers[i] in store && c in store[papers[i]].categories ensures HasCategory(store, papers[..i + 1], c) {
      assert papers[..i + 1][i] == papers[i];
    }
  }

  /** The user's memberships of the result papers, most recently added
      first (the membership table's default order). */
  function TagRowsFor(st: TagState, user: UserId, papers: seq<PaperId>): seq<TaggedRow>
  {
    Query(st.rows, MineFor(st, user, papers), AddedKey, |st.rows|)
  }

  /** Every such row is the user's, for a result paper, in an existing tag. */
  lemma TagRowsForMine(st: TagState, user: UserId, papers: seq<PaperId>)
    ensures forall x :: x in TagRowsFor(st, user, papers) ==>
      x in st.rows && x.tag in st.tags && st.tags[x.tag].user == user && x.paper in papers
  {
    QueryFromTable(st.rows, MineFor(st, user, papers), AddedKey, |st.rows|);
  }

  function MineFor(st: TagState, user: UserId, papers: seq<PaperId>): TaggedRow -> bool
  {
    (r: TaggedRow) => r.tag in st.tags && st.tags[r.tag].user == user && r.paper in papers
  }

  function AddedKey(r: TaggedRow): Key
  {
    [-(r.addedAt as real)]
  }

  /** The names, in row order, that `name` gives the rows for paper `p`. */
  function NamesFor(rows: seq<TaggedRow>, name: TaggedRow -> string, p: PaperId): seq<string>
  {
    if rows == [] then []
    else NamesFor(rows[..|rows| - 1], name, p) + NameOf(rows[|rows| - 1], name, p)
  }

  function NameOf(x: TaggedRow, name: TaggedRow -> string, p: PaperId): seq<string>
  {
    if x.paper == p then [name(x)] else []
  }

  /** The name of a membership's tag (`tp.tag.name`). */
  function TagName(tags: map<TagId, Tag>): TaggedRow -> string
  {
    (x: TaggedRow) => if x.tag in tags then tags[x.tag].name else ""
  }

  /** Extending the rows by one extends every paper's names by that row's. */
  lemma NamesStep(rows: seq<TaggedRow>, name: TaggedRow -> string, i: nat)
    requires i < |rows|
    ensures forall p :: NamesFor(rows[..i + 1], name, p) == NamesFor(rows[..i], name, p) + NameOf(rows[i], name, p)
  {
    assert rows[..i + 1][..i] == rows[..i];
  }

  /** A name is listed for `p` exactly when some row for `p` carries it. */
  lemma {:induction false} NamesForMembers(rows: seq<TaggedRow>, name: TaggedRow -> string, p: PaperId, nm: string)
    ensures nm in NamesFor(rows, name, p) <==> exists x :: x in rows && x.paper == p && name(x) == nm
  {
    if rows != [] {
      var init := rows[..|rows| - 1];
      NamesForMembers(init, name, p, nm);
      assert rows == init + [rows[|rows| - 1]];
    }
  }

  /** The view's `paper_tags` loop over the memberships `rows`: each paper's
      tag names, in row order. A paper without any is absent from the map. */
  method PaperTags(rows: seq<TaggedRow>, name: TaggedRow -> string) returns (m: map<PaperId, seq<string>>)
    ensures forall p :: p in m <==> NamesFor(rows, name, p) != []
    ensures forall p :: p in m ==> m[p] == NamesFor(rows, name, p)
  {
    m := map[];
    for i := 0 to |rows|
      invariant forall p :: p in m <==> NamesFor(rows[..i], name, p) != []
      invariant forall p :: p in m ==> m[p] == NamesFor(rows[..i], name, p)
    {
      var tp := rows[i];
      NamesStep(rows, name, i);
      var names := if tp.paper in m then m[tp.paper] else [];
      m := m[tp.paper := names + [name(tp)]];
    }
    assert rows[..|rows|] == rows;
  }

  /** The names listed for a result paper are exactly the names of the
      user's tags that hold it. */
  lemma PaperTagsExact(st: TagState, user: UserId, papers: seq<PaperId>, p: PaperId)
    requires p in papers
    ensures forall nm :: nm in NamesFor(TagRowsFor(st, user, papers), TagName(st.tags), p) <==>
      exists t :: t in st.tags && st.tags[t] == Tag(user, nm) && HasRow(st.rows, t, p)
  {
    var rows := TagRowsFor(st, user, papers);
    var name := TagName(st.tags);
    TagRowsForMine(st, user, papers);
    TagRowsForAll(st, user, papers);
    forall nm ensures nm in NamesFor(rows, name, p) <==>
      exists t :: t in st.tags && st.tags[t] == Tag(user, nm) && HasRow(st.rows, t, p)
    {
      NamesForMembers(rows, name, p, nm);
      if nm in NamesFor(rows, name, p) {
        var x :| x in rows && x.paper == p && name(x) == nm;
        RowIsHasRow(st.rows, x);
      }
      if exists t :: t in st.tags && st.tags[t] == Tag(user, nm) && HasRow(st.rows, t, p) {
        var t :| t in st.tags && st.tags[t] == Tag(user, nm) && HasRow(st.rows, t, p);
        var i :| 0 <= i < |st.rows| && st.rows[i].tag == t && st.rows[i].paper == p;
        assert st.rows[i] in st.rows;
        assert name(st.rows[i]) == nm;
      }
    }
  }

  lemma RowIsHasRow(rows: seq<TaggedRow>, x: TaggedRow)
    requires x in rows
    ensures HasRow(rows, x.tag, x.paper)
  {
    var i :| 0 <= i < |rows| && rows[i] == x;
  }

  /** Every row of the user's for a result paper is listed. */
  lemma TagRowsForAll(st: TagState, user: UserId, papers: seq<PaperId>)
    ensures forall x :: x in st.rows && x.tag in st.tags && st.tags[x.tag].user == user && x.paper in papers ==>
      x in TagRowsFor(st, user, papers)
  {
    var keep := MineFor(st, user, papers);
    QueryComplete(st.rows, keep, AddedKey, |st.rows| + 1);
    assert Query(st.rows, keep, AddedKey, |st.rows| + 1) == TagRowsFor(st, user, papers);
    forall x | x in st.rows && x.tag in st.tags && st.tags[x.tag].user == user && x.paper in papers
      ensures x in TagRowsFor(st, user, papers)
    {
      assert keep(x);
    }
  }

  /** A drawer row of the search page: the membership and its processed
      title. */
  datatype DrawerItem = DrawerItem(row: TaggedRow, title: string)

  function TitleOf(store: Store, p: PaperId): string
  {
    if p in store then store[p].title else ""
  }

  function SummaryOf(store: Store, p: PaperId): string
  {
    if p in store then store[p].summary else ""
  }

  function ItemOf(store: Store, row: TaggedRow, autolink: string -> string): DrawerItem
  {
    DrawerItem(row, ProcessLatex(TitleOf(store, row.paper), autolink))
  }

  /** The drawer of the search page, in the order `sort` asks for, each
      membership with its processed title. */
  method DrawerItems(store: Store, rows: seq<TaggedRow>, t: TagId, sort: string, autolink: string -> string)
    returns (items: seq<DrawerItem>)
    ensures |items| == |DrawerOrder(store, rows, t, sort)|
    ensures forall i :: 0 <= i < |items| ==> items[i] == ItemOf(store, DrawerOrder(store, rows, t, sort)[i], autolink)
  {
    var ordered := DrawerOrder(store, rows, t, sort);
    items := MapSeq(ordered, (r: TaggedRow) => ItemOf(store, r, autolink));
  }

  /** One result card. */
  datatype ResultRow = ResultRow(paper: PaperId, tags: seq<string>, title: string, summary: string)

  function ResultIds(results: seq<ResultRow>): (r: seq<PaperId>)
    ensures |r| == |results| && forall i :: 0 <= i < |results| ==> r[i] == results[i].paper
  {
    seq(|results|, i requires 0 <= i < |results| => results[i].paper)
  }

  /** The tag names a result card shows: none for an anonymous user. */
  function TagsShown(st: TagState, user: Option<UserId>, papers: seq<PaperId>, p: PaperId): seq<string>
  {
    if user.None? then [] else NamesFor(TagRowsFor(st, user.value, papers), TagName(st.tags), p)
  }

  /** The card of result `p` showing the tag names `tags`. */
  function Card(store: Store, autolink: string -> string, p: PaperId, tags: seq<string>): ResultRow
  {
    ResultRow(p, tags, ProcessLatex(TitleOf(store, p), autolink), ProcessLatex(SummaryOf(store, p), autolink))
  }

  /** What a card shows for a stored result: its processed title and
      abstract, and, for a logged-in user, the names of exactly those of the
      user's tags that hold the paper. */
  lemma CardShows(store: Store, st: TagState, user: Option<UserId>, papers: seq<PaperId>,
                  autolink: string -> string, p: PaperId)
    requires p in papers && p in store
    ensures var c := Card(store, autolink, p, TagsShown(st, user, papers, p));
      && c.paper == p
      && c.title == ProcessLatex(store[p].title, autolink)
      && c.summary == ProcessLatex(store[p].summary, autolink)
      && (user.None? ==> c.tags == [])
      && (user.Some? ==> forall nm :: nm in c.tags <==>
            exists t :: t in st.tags && st.tags[t] == Tag(user.value, nm) && HasRow(st.rows, t, p))
  {
    if user.Some? {
      PaperTagsExact(st, user.value, papers, p);
    }
  }

  /** The tag names the map `tagsOf` lists for `p`. */
  function Listed(tagsOf: map<PaperId, seq<string>>, p: PaperId): seq<string>
  {
    if p in tagsOf then tagsOf[p] else []
  }

  /** The view's `results` list: a card per paper, in the papers' order. */
  method Cards(store: Store, tagsOf: map<PaperId, seq<string>>, papers: seq<PaperId>, autolink: string -> string)
    returns (results: seq<ResultRow>)
    ensures ResultIds(results) == papers
    ensures forall i :: 0 <= i < |results| ==> results[i] == Card(store, autolink, papers[i], Listed(tagsOf, papers[i]))
  {
    results := MapSeq(papers, (p: PaperId) => Card(store, autolink, p, Listed(tagsOf, p)));
    assert ResultIds(results) == papers;
  }

  /** The view's `paper_tags` map, for a logged-in user, and `results`
      list. */
  method Assemble(store: Store, st: TagState, user: Option<UserId>, papers: seq<PaperId>, autolink: string -> string)
    returns (results: seq<ResultRow>)
    ensures ResultIds(results) == papers
    ensures forall i :: 0 <= i < |results| ==>
      results[i] == Card(store, autolink, papers[i], TagsShown(st, user, papers, papers[i]))
  {
    var tagsOf: map<PaperId, seq<string>> := map[];
    if user.Some? {
      tagsOf := PaperTags(TagRowsFor(st, user.value, papers), TagName(st.tags));
    }
    assert forall p :: Listed(tagsOf, p) == TagsShown(st, user, papers, p);
    results := Cards(store, tagsOf, papers, autolink);
  }

  /** The drawer the search page shows: the open tag's memberships in the
      order `sort` asks for, each with its processed title, and nothing for
      an AJAX request or without an open tag. */
  ghost predicate DrawerShown(req: Request, st: TagState, store: Store, autolink: string -> string,
                              currentTag: Option<TagId>, drawer: seq<DrawerItem>)
  {
    if currentTag.None? || req.ajax then drawer == []
    else
      var d := DrawerOrder(store, st.rows, currentTag.value, ParamOr(req.get, "sort", "added"));
      && |drawer| == |d|
      && forall i :: 0 <= i < |d| ==> drawer[i] == ItemOf(store, d[i], autolink)
  }

  /** The tag lookup for the drawer and the drawer's content. A failed
      lookup is the request's error. */
  method OpenDrawer(req: Request, st: TagState, store: Store, autolink: string -> string)
    returns (r: Result<(Option<TagId>, seq<DrawerItem>), HttpError>)
    ensures r.Err? <==> DrawerLookup(req, st).Some? && DrawerLookup(req, st).value.Err?
    ensures r.Err? ==> r.error == DrawerLookup(req, st).value.error
    ensures r.Ok? ==> r.value.0 == OpenTag(req, st) && DrawerShown(req, st, store, autolink, r.value.0, r.value.1)
  {
    var lookup := DrawerLookup(req, st);
    if lookup.None? {
      return Ok((None, []));
    }
    if lookup.value.Err? {
      return Err(lookup.value.error);
    }
    var drawer: seq<DrawerItem> := [];
    if !req.ajax {
      drawer := DrawerItems(store, st.rows, lookup.value.value, ParamOr(req.get, "sort", "added"), autolink);
    }
    r := Ok((Some(lookup.value.value), drawer));
  }

  /** The result part of the page: the cards, whether another page can
      follow, and the categories present among the results. */
  datatype Listing = Listing(results: seq<ResultRow>, hasMore: bool, categories: seq<string>)

  /** The cards and categories of the result part of the page: each
      paper shown as its card, and the papers' categories, each once and in
      code-point order. */
  ghost predicate CardsShown(st: TagState, store: Store, user: Option<UserId>, autolink: string -> string, l: Listing)
  {
    var papers := ResultIds(l.results);
    && (forall i :: 0 <= i < |papers| ==>
          l.results[i] == Card(store, autolink, papers[i], TagsShown(st, user, papers, papers[i])))
    && (forall c :: c in l.categories <==> HasCategory(store, papers, c))
    && Distinct(l.categories)
    && (forall i, j :: 0 <= i < j < |l.categories| ==> KeyLe(TextKey(l.categories[i]), TextKey(l.categories[j])))
  }

  /** What the result part of the page holds for the strategy `strategy`
      run with the drawer of `currentTag` open. */
  ghost predicate ListingShown(req: Request, st: TagState, store: Store, emb: BitTable, now: int,
                               autolink: string -> string, shuffle: seq<PaperId> -> seq<PaperId>,
                               strategy: Strategy, currentTag: Option<TagId>, l: Listing)
  {
    && Outcome(req, strategy, store, emb, st.rows, currentTag, now, shuffle, Found(ResultIds(l.results), l.hasMore))
    && CardsShown(st, store, req.user, autolink, l)
  }

  /** The search and the assembly of its results. Only a single-paper
      search whose paper cannot be found fails. */
  method List(req: Request, st: TagState, store: Store, emb: BitTable, now: int, autolink: string -> string,
              shuffle: seq<PaperId> -> seq<PaperId>, overBudget: nat -> bool,
              strategy: Strategy, currentTag: Option<TagId>)
    returns (r: Result<Listing, HttpError>)
    requires IsShuffle(shuffle)
    ensures r.Err? <==> strategy.SinglePaper? && ResolvePaper(store, strategy.ref).Err?
    ensures r.Err? ==> r.error == ResolvePaper(store, strategy.ref).error
    ensures r.Ok? ==> ListingShown(req, st, store, emb, now, autolink, shuffle, strategy, currentTag, r.value)
  {
    var found := Execute(req, strategy, store, emb, st.rows, currentTag, now, shuffle, overBudget);
    if found.Err? {
      return Err(found.error);
    }
    var papers := found.value.papers;
    var categories := CollectCategories(store, papers);
    var results := Assemble(store, st, req.user, papers, autolink);
    r := Ok(Listing(results, found.value.hasMore, categories));
    assert Found(ResultIds(results), found.value.hasMore) == found.value;
  }

  /** What the page shows. */
  datatype Page = Page(
    listing: Listing,
    error: Option<QueryError>,
    strategy: Strategy,
    dateFilter: string,
    currentTag: Option<TagId>,
    drawer: seq<DrawerItem>)

  /** The view. `autolink` is the bare-URL step of the LaTeX processing,
      `shuffle` the order `random.shuffle` leaves the tag's papers in, and
      `overBudget(i)` whether the two-second budget has run out after the
      `i`-th source. A failed drawer lookup ends the request first; a
      single-paper search whose paper cannot be found ends it next. */
  method Search(req: Request, st: TagState, store: Store, emb: BitTable, now: int,
                autolink: string -> string, shuffle: seq<PaperId> -> seq<PaperId>, overBudget: nat -> bool)
    returns (r: Result<Page, HttpError>)
    requires IsShuffle(shuffle)
    ensures DrawerLookup(req, st).Some? && DrawerLookup(req, st).value.Err? ==>
      r == Err(DrawerLookup(req, st).value.error)
    ensures r.Err? <==>
      (DrawerLookup(req, st).Some? && DrawerLookup(req, st).value.Err?)
      || (StrategyOf(req, st, store).SinglePaper? && ResolvePaper(store, StrategyOf(req, st, store).ref).Err?)
    ensures r.Ok? ==>
      && r.value.strategy == StrategyOf(req, st, store)
      && r.value.error == ParsedOf(req, st, store).error
      && r.value.dateFilter == DateFilterOf(req)
      && r.value.currentTag == OpenTag(req, st)
      && DrawerShown(req, st, store, autolink, OpenTag(req, st), r.value.drawer)
      && ListingShown(req, st, store, emb, now, autolink, shuffle, StrategyOf(req, st, store), OpenTag(req, st), r.value.listing)
  {
    var drawn := OpenDrawer(req, st, store, autolink);
    if drawn.Err? {
      return Err(drawn.error);
    }
    var strategy := StrategyOf(req, st, store);
    var listed := List(req, st, store, emb, now, autolink, shuffle, overBudget, strategy, drawn.value.0);
    if listed.Err? {
      return Err(listed.error);
    }
    r := Ok(Page(listed.value, ParsedOf(req, st, store).error, strategy, DateFilterOf(req), drawn.value.0, drawn.value.1));
  }
}

=== FILE: Tags.dfy ===
/** The tag store behind the curation endpoints: each user owns named tags,
    and a tag holds papers through membership rows. Every endpoint looks a
    tag up among the requesting user's tags only, so no request can reach
    another user's tag. */
module Tags {
  import opened Wrappers
  import opened Text
  import opened Ranking
  import opened Corpus
  import opened Latex
  import opened Chunking

  /** The tag and membership tables; `nextId` is the id the next created
      tag receives. */
  datatype TagState = TagState(tags: map<TagId, Tag>, rows: seq<TaggedRow>, nextId: TagId)

  /** `Tag.name` is a `CharField(max_length=100)`: the database refuses a
      longer name with `DataError`, which the views do not catch (a 500). */
  const TagNameLimit: nat := 100

  /** The table constraints: tag ids were handed out below `nextId`, names
      fit their column, (user, name) is unique, every membership names an
      existing tag and an existing paper, and (tag, paper) is unique. */
  ghost predicate Valid(s: TagState, papers: Store)
  {
    && (forall t :: t in s.tags ==> t < s.nextId)
    && (forall t :: t in s.tags ==> |s.tags[t].name| <= TagNameLimit)
    && (forall a, b :: a in s.tags && b in s.tags && a != b ==> s.tags[a] != s.tags[b])
    && (forall x :: x in s.rows ==> x.tag in s.tags && x.paper in papers)
    && UniqueRows(s.rows)
  }

  /** No two membership rows pair the same tag and paper. */
  predicate UniqueRows(rows: seq<TaggedRow>)
  {
    forall i, j :: 0 <= i < j < |rows| ==> rows[i].tag != rows[j].tag || rows[i].paper != rows[j].paper
  }

  /** `get_object_or_404(Tag, id=tag_id, user=request.user)`: an absent
      parameter matches no row (404), one that `int()` refuses raises (500),
      and a negative number, an unused id or a tag of another user is not
      found (404). */
  function LookupTag(tags: map<TagId, Tag>, user: UserId, param: Option<string>): (r: Result<TagId, HttpError>)
    ensures r.Ok? <==>
      (param.Some? && ParseInt(param.value).Some?
       && ParseInt(param.value).value in tags && tags[ParseInt(param.value).value].user == user)
    ensures r.Ok? ==> r.value in tags && tags[r.value].user == user && Some(r.value) == ParseInt(param.value)
    ensures r.Err? ==> r.error == if param.Some? && ParseInt(param.value).None? then ServerError else NotFound
  {
    if param.None? then Err(NotFound)
    else match ParseInt(param.value)
      case None => Err(ServerError)
      case Some(t) => if t in tags && tags[t].user == user then Ok(t) else Err(NotFound)
  }

  /** The tag of `user` called `name`, if there is one. */
  function FindTag(tags: map<TagId, Tag>, user: UserId, name: string): (r: Option<TagId>)
    ensures r.Some? ==> r.value in tags && tags[r.value] == Tag(user, name)
    ensures r.None? ==> forall t :: t in tags ==> tags[t] != Tag(user, name)
  {
    var ids := set t | t in tags && tags[t] == Tag(user, name);
    if ids == {} then
      assert forall t :: t in tags && tags[t] == Tag(user, name) ==> t in ids;
      None
    else Some(Min(ids))
  }

  /** Under the table constraints the tag found is the only one with that
      owner and name. */
  lemma FindTagUnique(s: TagState, papers: Store, user: UserId, name: string, t: TagId)
    requires Valid(s, papers)
    requires t in s.tags && s.tags[t] == Tag(user, name)
    ensures FindTag(s.tags, user, name) == Some(t)
  {
  }

  /** Whether the membership (t, p) exists. */
  predicate HasRow(rows: seq<TaggedRow>, t: TagId, p: int)
  {
    exists i :: 0 <= i < |rows| && rows[i].tag == t && rows[i].paper == p
  }

  /** `Tag.objects.get_or_create(user=..., name=...)`: the user's tag of
      that name, or a new one; creating a name too long for its column
      raises (500). */
  function GetOrCreateTag(s: TagState, user: UserId, name: string): (out: Result<(TagState, TagId), HttpError>)
    ensures out.Err? <==> FindTag(s.tags, user, name).None? && |name| > TagNameLimit
    ensures out.Err? ==> out.error == ServerError
    ensures out.Ok? ==> out.value.1 in out.value.0.tags && out.value.0.tags[out.value.1] == Tag(user, name)
    ensures out.Ok? ==> out.value.0.rows == s.rows
    ensures FindTag(s.tags, user, name).Some? ==> out == Ok((s, FindTag(s.tags, user, name).value))
    ensures FindTag(s.tags, user, name).None? && out.Ok? ==>
      out.value == (TagState(s.tags[s.nextId := Tag(user, name)], s.rows, s.nextId + 1), s.nextId)
  {
    match FindTag(s.tags, user, name)
    case Some(t) => Ok((s, t))
    case None =>
      if |name| > TagNameLimit then Err(ServerError)
      else Ok((TagState(s.tags[s.nextId := Tag(user, name)], s.rows, s.nextId + 1), s.nextId))
  }

  /** `TaggedPaper.objects.get_or_create(tag=..., paper=...)`, stamped `now`. */
  function Attach(s: TagState, t: TagId, p: PaperId, now: int): (s': TagState)
    ensures HasRow(s'.rows, t, p)
    ensures s'.tags == s.tags && s'.nextId == s.nextId
    ensures HasRow(s.rows, t, p) ==> s' == s
    ensures !HasRow(s.rows, t, p) ==> s'.rows == s.rows + [TaggedRow(t, p, now)]
  {
    if HasRow(s.rows, t, p) then s
    else
      var rows := s.rows + [TaggedRow(t, p, now)];
      assert rows[|s.rows|].tag == t && rows[|s.rows|].paper == p;
      TagState(s.tags, rows, s.nextId)
  }

  /** `add_to_tag` on the tables: the new tables and the reply (tag id and
      tag name) or the error status. Checks run in the view's order:
      missing paper id, paper lookup, then the tag by id or by name. */
  function AddToTagSpec(s: TagState, papers: Store, user: UserId, paperParam: Option<string>,
                        tagName: string, tagParam: Option<string>, now: int): (out: (TagState, Result<(TagId, string), HttpError>))
  {
    if paperParam.None? || paperParam.value == "" then (s, Err(BadRequest))
    else match ParseInt(paperParam.value)
      case None => (s, Err(ServerError))
      case Some(p) =>
        if p !in papers then (s, Err(NotFound))
        else if tagParam.Some? && tagParam.value != "" then AddById(s, user, p, tagParam, now)
        else AddByName(s, user, p, Strip(tagName), now)
  }

  /** Adding paper `p` to the user's tag given by id. */
  function AddById(s: TagState, user: UserId, p: PaperId, tagParam: Option<string>, now: int)
    : (out: (TagState, Result<(TagId, string), HttpError>))
  {
    match LookupTag(s.tags, user, tagParam)
    case Err(e) => (s, Err(e))
    case Ok(t) => (Attach(s, t, p, now), Ok((t, s.tags[t].name)))
  }

  /** Adding paper `p` to the user's tag of the stripped name, created when
      missing; a blank name is rejected. */
  function AddByName(s: TagState, user: UserId, p: PaperId, name: string, now: int)
    : (out: (TagState, Result<(TagId, string), HttpError>))
  {
    if name == "" then (s, Err(BadRequest))
    else match GetOrCreateTag(s, user, name)
      case Err(e) => (s, Err(e))
      case Ok((s1, t)) => (Attach(s1, t, p, now), Ok((t, name)))
  }

  /** A rejected request changes nothing; a missing paper id and a request
      naming no tag are rejected with 400. */
  lemma AddToTagRejects(s: TagState, papers: Store, user: UserId, paperParam: Option<string>,
                        tagName: string, tagParam: Option<string>, now: int)
    ensures var out := AddToTagSpec(s, papers, user, paperParam, tagName, tagParam, now);
      out.1.Err? ==> out.0 == s
    ensures paperParam.None? || paperParam == Some("") ==>
      AddToTagSpec(s, papers, user, paperParam, tagName, tagParam, now).1 == Err(BadRequest)
    ensures (paperParam.Some? && ParseInt(paperParam.value).Some? && ParseInt(paperParam.value).value in papers
        && (tagParam.None? || tagParam == Some("")) && Strip(tagName) == "") ==>
      AddToTagSpec(s, papers, user, paperParam, tagName, tagParam, now).1 == Err(BadRequest)
  {
  }

  /** On success the paper is in the tag, the tag belongs to the user, and
      a tag given by name now exists under that name. */
  lemma AddToTagAttaches(s: TagState, papers: Store, user: UserId, paperParam: Option<string>,
                         tagName: string, tagParam: Option<string>, now: int)
    ensures var out := AddToTagSpec(s, papers, user, paperParam, tagName, tagParam, now);
      out.1.Ok? ==>
        && paperParam.Some? && ParseInt(paperParam.value).Some?
        && HasRow(out.0.rows, out.1.value.0, ParseInt(paperParam.value).value)
        && out.1.value.0 in out.0.tags && out.0.tags[out.1.value.0] == Tag(user, out.1.value.1)
  {
    var out := AddToTagSpec(s, papers, user, paperParam, tagName, tagParam, now);
    if out.1.Ok? {
      var p := ParseInt(paperParam.value).value;
      if tagParam.Some? && tagParam.value != "" {
        assert out == AddById(s, user, p, tagParam, now);
      } else {
        assert out == AddByName(s, user, p, Strip(tagName), now);
      }
    }
  }

  /** Adding is idempotent: repeating a successful request changes nothing
      more and gives the same reply. */
  lemma AddToTagIdempotent(s: TagState, papers: Store, user: UserId, paperParam: Option<string>,
                           tagName: string, tagParam: Option<string>, now: int, later: int)
    requires Valid(s, papers)
    ensures var out := AddToTagSpec(s, papers, user, paperParam, tagName, tagParam, now);
      AddToTagSpec(out.0, papers, user, paperParam, tagName, tagParam, later) == out
  {
    var out := AddToTagSpec(s, papers, user, paperParam, tagName, tagParam, now);
    if out.1.Ok? {
      var p := ParseInt(paperParam.value).value;
      if tagParam.Some? && tagParam.value != "" {
        assert out == AddById(s, user, p, tagParam, now);
      } else {
        var name := Strip(tagName);
        assert out == AddByName(s, user, p, name, now);
        AddByNameAgain(s, papers, user, p, name, now);
      }
    }
  }

  /** After attaching a paper to the tag `get_or_create` gave for `name`,
      the same name finds that tag. */
  lemma AddByNameAgain(s: TagState, papers: Store, user: UserId, p: PaperId, name: string, now: int)
    requires Valid(s, papers) && GetOrCreateTag(s, user, name).Ok?
    ensures var (s1, t) := GetOrCreateTag(s, user, name).value;
      FindTag(Attach(s1, t, p, now).tags, user, name) == Some(t)
  {
    var (s1, t) := GetOrCreateTag(s, user, name).value;
    if FindTag(s.tags, user, name).None? {
      assert forall u :: u in s1.tags && s1.tags[u] == Tag(user, name) ==> u == t;
      assert (set u | u in s1.tags && s1.tags[u] == Tag(user, name)) == {t};
    }
  }

  /** Adding keeps the table constraints. */
  lemma AddToTagValid(s: TagState, papers: Store, user: UserId, paperParam: Option<string>,
                      tagName: string, tagParam: Option<string>, now: int)
    requires Valid(s, papers)
    ensures Valid(AddToTagSpec(s, papers, user, paperParam, tagName, tagParam, now).0, papers)
  {
    var out := AddToTagSpec(s, papers, user, paperParam, tagName, tagParam, now);
    if out.1.Ok? {
      var p := ParseInt(paperParam.value).value;
      if tagParam.Some? && tagParam.value != "" {
        assert out == AddById(s, user, p, tagParam, now);
        AttachValid(s, papers, LookupTag(s.tags, user, tagParam).value, p, now);
      } else {
        assert out == AddByName(s, user, p, Strip(tagName), now);
        var (s1, t) := GetOrCreateTag(s, user, Strip(tagName)).value;
        GetOrCreateValid(s, papers, user, Strip(tagName));
        AttachValid(s1, papers, t, p, now);
      }
    }
  }

  lemma GetOrCreateValid(s: TagState, papers: Store, user: UserId, name: string)
    requires Valid(s, papers)
    ensures GetOrCreateTag(s, user, name).Ok? ==> Valid(GetOrCreateTag(s, user, name).value.0, papers)
  {
  }

  lemma AttachValid(s: TagState, papers: Store, t: TagId, p: PaperId, now: int)
    requires Valid(s, papers) && t in s.tags && p in papers
    ensures Valid(Attach(s, t, p, now), papers)
  {
    if !HasRow(s.rows, t, p) {
      AppendUnique(s.rows, TaggedRow(t, p, now));
    }
  }

  lemma AppendUnique(rows: seq<TaggedRow>, x: TaggedRow)
    requires UniqueRows(rows) && !HasRow(rows, x.tag, x.paper)
    ensures UniqueRows(rows + [x])
  {
    var r := rows + [x];
    forall i, j | 0 <= i < j < |r| ensures r[i].tag != r[j].tag || r[i].paper != r[j].paper {
      if j == |rows| {
        assert r[i] == rows[i];
      }
    }
  }

  /** Going from `s` to `s'` leaves the tags of other users alone, creates
      tags only for `user`, only appends memberships, and puts every new
      membership into a tag of `user`. */
  ghost predicate OwnChange(s: TagState, s': TagState, user: UserId)
  {
    && (forall t :: t in s.tags ==> t in s'.tags && s'.tags[t] == s.tags[t])
    && (forall t :: t in s'.tags && t !in s.tags ==> s'.tags[t].user == user)
    && s.rows <= s'.rows
    && (forall i :: |s.rows| <= i < |s'.rows| ==> s'.rows[i].tag in s'.tags && s'.tags[s'.rows[i].tag].user == user)
  }

  lemma AttachOwn(s0: TagState, s1: TagState, user: UserId, t: TagId, p: PaperId, now: int)
    requires OwnChange(s0, s1, user)
    requires t in s1.tags && s1.tags[t].user == user
    ensures OwnChange(s0, Attach(s1, t, p, now), user)
  {
  }

  lemma GetOrCreateOwn(s: TagState, papers: Store, user: UserId, name: string)
    requires Valid(s, papers)
    ensures GetOrCreateTag(s, user, name).Ok? ==> OwnChange(s, GetOrCreateTag(s, user, name).value.0, user)
  {
    assert s.nextId !in s.tags;
  }

  /** Tags of other users are never changed, created or removed, and new
      memberships go only into the user's own tags. */
  lemma AddToTagOwnTagsOnly(s: TagState, papers: Store, user: UserId, paperParam: Option<string>,
                            tagName: string, tagParam: Option<string>, now: int)
    requires Valid(s, papers)
    ensures var s' := AddToTagSpec(s, papers, user, paperParam, tagName, tagParam, now).0;
      && (forall t :: t in s.tags ==> t in s'.tags && s'.tags[t] == s.tags[t])
      && (forall t :: t in s'.tags && t !in s.tags ==> s'.tags[t].user == user)
      && s.rows <= s'.rows
      && (forall i :: |s.rows| <= i < |s'.rows| ==> s'.rows[i].tag in s'.tags && s'.tags[s'.rows[i].tag].user == user)
  {
    var out := AddToTagSpec(s, papers, user, paperParam, tagName, tagParam, now);
    assert OwnChange(s, s, user);
    if out.1.Ok? {
      var p := ParseInt(paperParam.value).value;
      if tagParam.Some? && tagParam.value != "" {
        var t := LookupTag(s.tags, user, tagParam).value;
        AttachOwn(s, s, user, t, p, now);
        assert out.0 == Attach(s, t, p, now);
      } else {
        var (s1, t) := GetOrCreateTag(s, user, Strip(tagName)).value;
        GetOrCreateOwn(s, papers, user, Strip(tagName));
        AttachOwn(s, s1, user, t, p, now);
        assert out.0 == Attach(s1, t, p, now);
      }
    }
    assert OwnChange(s, out.0, user);
  }

  /** `remove_from_tag` on the tables: the user's tag is looked up, then its
      membership for the given paper id is deleted. An absent paper id
      deletes nothing; a non-numeric one raises. */
  function RemoveFromTagSpec(s: TagState, user: UserId, paperParam: Option<string>, tagParam: Option<string>)
    : (out: (TagState, Result<string, HttpError>))
  {
    match LookupTag(s.tags, user, tagParam)
    case Err(e) => (s, Err(e))
    case Ok(t) =>
      if paperParam.None? then (s, Ok(s.tags[t].name))
      else match ParseInt(paperParam.value)
        case None => (s, Err(ServerError))
        case Some(p) => (TagState(s.tags, Unlink(s.rows, t, p), s.nextId), Ok(s.tags[t].name))
  }

  /** The membership rows other than (t, p), in table order. */
  function Unlink(rows: seq<TaggedRow>, t: TagId, p: int): (r: seq<TaggedRow>)
    ensures forall x :: x in r <==> x in rows && !(x.tag == t && x.paper == p)
    ensures |r| <= |rows|
  {
    if rows == [] then []
    else (if rows[0].tag == t && rows[0].paper == p then [] else [rows[0]]) + Unlink(rows[1..], t, p)
  }

  /** Removing deletes exactly that one membership: tags and all other
      memberships are unchanged. */
  lemma RemoveFromTagOnlyThatRow(s: TagState, user: UserId, paperParam: Option<string>, tagParam: Option<string>)
    ensures var out := RemoveFromTagSpec(s, user, paperParam, tagParam);
      && out.0.tags == s.tags && out.0.nextId == s.nextId
      && (out.1.Err? ==> out.0 == s)
      && (out.1.Ok? && paperParam.Some? ==>
            var t := ParseInt(tagParam.value).value;
            var p := ParseInt(paperParam.value).value;
            s.tags[t].user == user && !HasRow(out.0.rows, t, p)
            && forall x :: x in out.0.rows <==> x in s.rows && !(x.tag == t && x.paper == p))
  {
    var lookup := LookupTag(s.tags, user, tagParam);
    if lookup.Ok? && paperParam.Some? && ParseInt(paperParam.value).Some? {
      var t, p := lookup.value, ParseInt(paperParam.value).value;
      var rows := Unlink(s.rows, t, p);
      assert RemoveFromTagSpec(s, user, paperParam, tagParam).0.rows == rows;
      assert forall i :: 0 <= i < |rows| ==> rows[i] in rows;
    }
  }

  /** Removing keeps the table constraints. */
  lemma UnlinkValid(s: TagState, papers: Store, t: TagId, p: int)
    requires Valid(s, papers)
    ensures Valid(TagState(s.tags, Unlink(s.rows, t, p), s.nextId), papers)
  {
    UnlinkUnique(s.rows, t, p);
  }

  lemma UnlinkUnique(rows: seq<TaggedRow>, t: TagId, p: int)
    requires UniqueRows(rows)
    ensures UniqueRows(Unlink(rows, t, p))
  {
    if rows != [] {
      UnlinkUnique(rows[1..], t, p);
      if !(rows[0].tag == t && rows[0].paper == p) {
        ConsUnique(rows, Unlink(rows[1..], t, p));
      }
    }
  }

  /** Putting the first row back in front of rows taken from the rest keeps
      them unique. */
  lemma ConsUnique(rows: seq<TaggedRow>, rest: seq<TaggedRow>)
    requires rows != [] && UniqueRows(rows) && UniqueRows(rest)
    requires forall x :: x in rest ==> x in rows[1..]
    ensures UniqueRows([rows[0]] + rest)
  {
    var r := [rows[0]] + rest;
    forall i, j | 0 <= i < j < |r| ensures r[i].tag != r[j].tag || r[i].paper != r[j].paper {
      if i == 0 {
        assert r[j] in rest;
        var k :| 0 <= k < |rows[1..]| && rows[1..][k] == r[j];
        assert rows[k + 1] == r[j];
      } else {
        assert r[i] == rest[i - 1] && r[j] == rest[j - 1];
      }
    }
  }

  /** `rename_tag` on the tables: the stripped name must be non-empty, the
      tag must be the user's, and no other tag of the user may hold the
      name already; saving a name too long for its column raises. Only the
      tag's name changes. */
  function RenameTagSpec(s: TagState, user: UserId, tagParam: Option<string>, newName: string)
    : (out: (TagState, Result<string, HttpError>))
  {
    var name := Strip(newName);
    if name == "" then (s, Err(BadRequest))
    else match LookupTag(s.tags, user, tagParam)
      case Err(e) => (s, Err(e))
      case Ok(t) =>
        if exists u :: u in s.tags && u != t && s.tags[u] == Tag(user, name) then (s, Err(BadRequest))
        else if |name| > TagNameLimit then (s, Err(ServerError))
        else (TagState(s.tags[t := Tag(user, name)], s.rows, s.nextId), Ok(name))
  }

  /** Rename rejects an empty name and a name another tag of the user holds,
      fails with 500 on a free name too long for the column, and otherwise
      changes the name of that tag and nothing else; a failure changes
      nothing. */
  lemma RenameTagRules(s: TagState, user: UserId, tagParam: Option<string>, newName: string)
    ensures var out := RenameTagSpec(s, user, tagParam, newName);
      && (Strip(newName) == "" ==> out == (s, Err(BadRequest)))
      && (out.1.Err? ==> out.0 == s)
      && (LookupTag(s.tags, user, tagParam).Ok? && Strip(newName) != "" ==>
            var t := LookupTag(s.tags, user, tagParam).value;
            && ((exists u :: u in s.tags && u != t && s.tags[u] == Tag(user, Strip(newName))) <==> out.1 == Err(BadRequest))
            && (out.1 == Err(ServerError) <==>
                  !(exists u :: u in s.tags && u != t && s.tags[u] == Tag(user, Strip(newName))) && |Strip(newName)| > TagNameLimit)
            && (out.1.Ok? ==> out.0 == TagState(s.tags[t := Tag(user, Strip(newName))], s.rows, s.nextId)))
  {
  }

  lemma RenameToOwnNameSucceeds(s: TagState, papers: Store, user: UserId, t: TagId)
    requires Valid(s, papers)
    requires t in s.tags && s.tags[t].user == user
    requires Strip(s.tags[t].name) == s.tags[t].name != ""
    ensures RenameTagSpec(s, user, Some(NatToString(t)), s.tags[t].name) == (s, Ok(s.tags[t].name))
  {
    ParseIntToString(t);
    assert s.tags[t := Tag(user, s.tags[t].name)] == s.tags;
  }

  /** Renaming keeps the table constraints. */
  lemma RenameTagValid(s: TagState, papers: Store, user: UserId, tagParam: Option<string>, newName: string)
    requires Valid(s, papers)
    ensures Valid(RenameTagSpec(s, user, tagParam, newName).0, papers)
  {
    var out := RenameTagSpec(s, user, tagParam, newName);
    if out.1.Ok? {
      var t := LookupTag(s.tags, user, tagParam).value;
      var name := Strip(newName);
      var tags := s.tags[t := Tag(user, name)];
      assert out.0 == TagState(tags, s.rows, s.nextId);
      assert !exists u :: u in s.tags && u != t && s.tags[u] == Tag(user, name);
      forall a, b | a in tags && b in tags && a != b ensures tags[a] != tags[b] {
        if a != t && b != t {
          assert tags[a] == s.tags[a] && tags[b] == s.tags[b];
        }
      }
    }
  }

  /** `delete_tag` on the tables: a missing id is rejected with 400; the
      user's tag is removed with all its memberships. */
  function DeleteTagSpec(s: TagState, user: UserId, tagParam: Option<string>): (out: (TagState, Result<string, HttpError>))
  {
    if tagParam.None? || tagParam.value == "" then (s, Err(BadRequest))
    else match LookupTag(s.tags, user, tagParam)
      case Err(e) => (s, Err(e))
      case Ok(t) => (TagState(s.tags - {t}, Drop(s.rows, t), s.nextId), Ok(s.tags[t].name))
  }

  /** The membership rows of tags other than `t`, in table order. */
  function Drop(rows: seq<TaggedRow>, t: TagId): (r: seq<TaggedRow>)
    ensures forall x :: x in r <==> x in rows && x.tag != t
  {
    if rows == [] then []
    else (if rows[0].tag == t then [] else [rows[0]]) + Drop(rows[1..], t)
  }

  /** Deleting removes the tag and every membership of it, and keeps every
      other tag and membership. */
  lemma DeleteTagCascades(s: TagState, user: UserId, tagParam: Option<string>)
    ensures var out := DeleteTagSpec(s, user, tagParam);
      && (tagParam.None? || tagParam == Some("") ==> out == (s, Err(BadRequest)))
      && (out.1.Err? ==> out.0 == s)
      && (out.1.Ok? ==>
            var t := ParseInt(tagParam.value).value;
            && t in s.tags && s.tags[t].user == user
            && out.0.tags == s.tags - {t}
            && (forall x :: x in out.0.rows <==> x in s.rows && x.tag != t))
  {
  }

  /** Deleting keeps the table constraints. */
  lemma DeleteTagValid(s: TagState, papers: Store, user: UserId, tagParam: Option<string>)
    requires Valid(s, papers)
    ensures Valid(DeleteTagSpec(s, user, tagParam).0, papers)
  {
    var out := DeleteTagSpec(s, user, tagParam);
    if out.1.Ok? {
      var t := ParseInt(tagParam.value).value;
      DropValid(s, papers, t);
    }
  }

  lemma DropValid(s: TagState, papers: Store, t: TagId)
    requires Valid(s, papers)
    ensures Valid(TagState(s.tags - {t}, Drop(s.rows, t), s.nextId), papers)
  {
    DropUnique(s.rows, t);
  }

  lemma DropUnique(rows: seq<TaggedRow>, t: TagId)
    requires UniqueRows(rows)
    ensures UniqueRows(Drop(rows, t))
  {
    if rows != [] {
      DropUnique(rows[1..], t);
      if rows[0].tag != t {
        ConsUnique(rows, Drop(rows[1..], t));
      }
    }
  }

  /** `-updated` in the datastore's descending order, where an absent
      timestamp sorts first. */
  function UpdatedKey(u: Option<int>): Key
  {
    if u.None? then [0.0] else [1.0, -(u.value as real)]
  }

  /** The drawer's `order_by` for each `sort` value. */
  function DrawerKey(papers: Store, sort: string): TaggedRow -> Key
  {
    (r: TaggedRow) =>
      if r.paper !in papers then []
      else if sort == "alpha" then TextKey(papers[r.paper].title)
      else if sort == "submitted" then [-(papers[r.paper].created as real)]
      else if sort == "updated" then UpdatedKey(papers[r.paper].updated)
      else [-(r.addedAt as real)]
  }

  function KeepAll(r: TaggedRow): bool { true }

  /** The memberships of tag `t` in drawer order. */
  function DrawerOrder(papers: Store, rows: seq<TaggedRow>, t: TagId, sort: string): (r: seq<TaggedRow>)
    ensures |r| == |RowsOf(rows, t)|
  {
    var ids := RowsOf(rows, t);
    Query(ids, KeepAll, DrawerKey(papers, sort), |ids|)
  }

  /** The drawer lists every membership of the tag exactly once. */
  lemma DrawerIsPermutation(s: TagState, papers: Store, t: TagId, sort: string)
    requires Valid(s, papers)
    ensures Distinct(DrawerOrder(papers, s.rows, t, sort))
    ensures forall x :: x in DrawerOrder(papers, s.rows, t, sort) <==> x in s.rows && x.tag == t
  {
    var ids := RowsOf(s.rows, t);
    RowsOfDistinct(s.rows, t);
    QueryFiltered(ids, KeepAll, DrawerKey(papers, sort), |ids| + 1);
    QueryComplete(ids, KeepAll, DrawerKey(papers, sort), |ids| + 1);
    assert Query(ids, KeepAll, DrawerKey(papers, sort), |ids| + 1) == DrawerOrder(papers, s.rows, t, sort);
  }

  lemma RowsOfDistinct(rows: seq<TaggedRow>, t: TagId)
    requires UniqueRows(rows)
    ensures Distinct(RowsOf(rows, t))
  {
    if rows != [] {
      RowsOfDistinct(rows[1..], t);
      var rest := RowsOf(rows[1..], t);
      if rows[0].tag == t {
        forall x | x in rest ensures x != rows[0] {
          var k :| 0 <= k < |rows[1..]| && rows[1..][k] == x;
          assert rows[k + 1] == x;
        }
      }
    }
  }

  /** Consecutive or not, earlier drawer rows have keys no greater than
      later ones, and all are rows of the tag. */
  lemma DrawerKeysOrdered(papers: Store, rows: seq<TaggedRow>, t: TagId, sort: string, i: nat, j: nat)
    requires i < j < |DrawerOrder(papers, rows, t, sort)|
    ensures var d := DrawerOrder(papers, rows, t, sort);
      d[i] in rows && d[j] in rows && KeyLe(DrawerKey(papers, sort)(d[i]), DrawerKey(papers, sort)(d[j]))
  {
    var d := DrawerOrder(papers, rows, t, sort);
    var ids := RowsOf(rows, t);
    QueryOrdered(ids, KeepAll, DrawerKey(papers, sort), |ids|);
    QueryFromTable(ids, KeepAll, DrawerKey(papers, sort), |ids|);
    assert d[i] in d && d[j] in d;
  }

  /** The order each `sort` value gives the drawer: titles ascending,
      creation newest first, update newest first with the never-updated
      ahead, and otherwise most recently added first. */
  lemma DrawerOrdered(s: TagState, papers: Store, t: TagId, sort: string, i: nat, j: nat)
    requires Valid(s, papers)
    requires i < j < |DrawerOrder(papers, s.rows, t, sort)|
    ensures var d := DrawerOrder(papers, s.rows, t, sort);
      && d[i].paper in papers && d[j].paper in papers
      && (sort == "alpha" ==> KeyLe(TextKey(papers[d[i].paper].title), TextKey(papers[d[j].paper].title)))
      && (sort == "submitted" ==> papers[d[i].paper].created >= papers[d[j].paper].created)
      && (sort == "updated" ==>
            (papers[d[j].paper].updated.None? ==> papers[d[i].paper].updated.None?)
            && (papers[d[i].paper].updated.Some? && papers[d[j].paper].updated.Some? ==>
                  papers[d[i].paper].updated.value >= papers[d[j].paper].updated.value))
      && (sort !in {"alpha", "submitted", "updated"} ==> d[i].addedAt >= d[j].addedAt)
  {
    var d := DrawerOrder(papers, s.rows, t, sort);
    DrawerKeysOrdered(papers, s.rows, t, sort, i, j);
    DrawerKeyMeaning(papers, sort, d[i], d[j]);
  }

  /** What one drawer key being no greater than another says about the two
      rows, for each `sort` value. */
  lemma DrawerKeyMeaning(papers: Store, sort: string, a: TaggedRow, b: TaggedRow)
    requires a.paper in papers && b.paper in papers
    requires KeyLe(DrawerKey(papers, sort)(a), DrawerKey(papers, sort)(b))
    ensures sort == "alpha" ==> KeyLe(TextKey(papers[a.paper].title), TextKey(papers[b.paper].title))
    ensures sort == "submitted" ==> papers[a.paper].created >= papers[b.paper].created
    ensures sort == "updated" ==>
      (papers[b.paper].updated.None? ==> papers[a.paper].updated.None?)
      && (papers[a.paper].updated.Some? && papers[b.paper].updated.Some? ==>
            papers[a.paper].updated.value >= papers[b.paper].updated.value)
    ensures sort !in {"alpha", "submitted", "updated"} ==> a.addedAt >= b.addedAt
  {
    var ka, kb := DrawerKey(papers, sort)(a), DrawerKey(papers, sort)(b);
    if sort == "alpha" {
      assert ka == TextKey(papers[a.paper].title) && kb == TextKey(papers[b.paper].title);
    } else if sort == "submitted" {
      assert ka == [-(papers[a.paper].created as real)] && kb == [-(papers[b.paper].created as real)];
    } else if sort == "updated" {
      assert ka == UpdatedKey(papers[a.paper].updated) && kb == UpdatedKey(papers[b.paper].updated);
    } else {
      assert ka == [-(a.addedAt as real)] && kb == [-(b.addedAt as real)];
    }
  }

  /** A drawer title: the first 60 characters, with "..." appended exactly
      when the title is longer. */
  function Truncate60(title: string): (r: string)
    ensures |title| <= 60 ==> r == title
    ensures |title| > 60 ==> |r| == 63 && r[..60] == title[..60] && r[60..] == "..."
  {
    if |title| > 60 then title[..60] + "..." else title
  }

  /** One row of the drawer listing. */
  datatype DrawerEntry = DrawerEntry(paper: PaperId, arxivId: string, title: string)

  function Entry(papers: Store, r: TaggedRow, autolink: string -> string): DrawerEntry
  {
    var title := if r.paper in papers then papers[r.paper].title else "";
    var arxiv := if r.paper in papers then papers[r.paper].arxivId else "";
    DrawerEntry(r.paper, arxiv, Truncate60(ProcessLatex(title, autolink)))
  }

  /** The tables, updated in place by the endpoints. The paper table is read
      only. Requests come from an authenticated `user`. */
  class TagStore {
    var tags: map<TagId, Tag>
    var rows: seq<TaggedRow>
    var nextId: TagId
    const papers: Store

    function State(): TagState
      reads this
    {
      TagState(tags, rows, nextId)
    }

    constructor(papers: Store)
      ensures State() == TagState(map[], [], 1) && this.papers == papers
    {
      tags := map[];
      rows := [];
      nextId := 1;
      this.papers := papers;
    }

    /** `Tag.objects.get_or_create(user=..., name=...)`. */
    method GetOrCreate(user: UserId, name: string) returns (r: Result<TagId, HttpError>)
      modifies this
      ensures r.Ok? ==> GetOrCreateTag(old(State()), user, name) == Ok((State(), r.value))
      ensures r.Err? ==> GetOrCreateTag(old(State()), user, name) == Err(r.error) && State() == old(State())
    {
      var existing := FindTag(tags, user, name);
      if existing.Some? {
        return Ok(existing.value);
      }
      if |name| > TagNameLimit {
        return Err(ServerError);
      }
      r := Ok(nextId);
      tags := tags[nextId := Tag(user, name)];
      nextId := nextId + 1;
    }

    /** `TaggedPaper.objects.get_or_create(tag=..., paper=...)`, stamped
        `now`. */
    method AttachPaper(t: TagId, p: PaperId, now: int)
      modifies this
      ensures State() == Attach(old(State()), t, p, now)
    {
      if !HasRow(rows, t, p) {
        rows := rows + [TaggedRow(t, p, now)];
      }
    }

    /** `add_to_tag`. */
    method AddToTag(user: UserId, paperParam: Option<string>, tagName: string, tagParam: Option<string>, now: int)
      returns (r: Result<(TagId, string), HttpError>)
      modifies this
      ensures (State(), r) == AddToTagSpec(old(State()), papers, user, paperParam, tagName, tagParam, now)
    {
      if paperParam.None? || paperParam.value == "" {
        return Err(BadRequest);
      }
      var p := ParseInt(paperParam.value);
      if p.None? {
        return Err(ServerError);
      }
      if p.value !in papers {
        return Err(NotFound);
      }
      var t: TagId;
      var name: string;
      if tagParam.Some? && tagParam.value != "" {
        var found := LookupTag(tags, user, tagParam);
        if found.Err? {
          return Err(found.error);
        }
        t, name := found.value, tags[found.value].name;
      } else {
        name := Strip(tagName);
        if name == "" {
          return Err(BadRequest);
        }
        var got := GetOrCreate(user, name);
        if got.Err? {
          return Err(got.error);
        }
        t := got.value;
      }
      AttachPaper(t, p.value, now);
      r := Ok((t, name));
    }

    /** `remove_from_tag`. */
    method RemoveFromTag(user: UserId, paperParam: Option<string>, tagParam: Option<string>)
      returns (r: Result<string, HttpError>)
      modifies this
      ensures (State(), r) == RemoveFromTagSpec(old(State()), user, paperParam, tagParam)
    {
      var found := LookupTag(tags, user, tagParam);
      if found.Err? {
        return Err(found.error);
      }
      var t := found.value;
      if paperParam.Some? {
        var p := ParseInt(paperParam.value);
        if p.None? {
          return Err(ServerError);
        }
        rows := Unlink(rows, t, p.value);
      }
      r := Ok(tags[t].name);
    }

    /** `rename_tag`. */
    method RenameTag(user: UserId, tagParam: Option<string>, newName: string) returns (r: Result<string, HttpError>)
      modifies this
      ensures (State(), r) == RenameTagSpec(old(State()), user, tagParam, newName)
    {
      var name := Strip(newName);
      if name == "" {
        return Err(BadRequest);
      }
      var found := LookupTag(tags, user, tagParam);
      if found.Err? {
        return Err(found.error);
      }
      var t := found.value;
      if exists u :: u in tags && u != t && tags[u] == Tag(user, name) {
        return Err(BadRequest);
      }
      if |name| > TagNameLimit {
        return Err(ServerError);
      }
      tags := tags[t := Tag(user, name)];
      r := Ok(name);
    }

    /** `delete_tag`; the memberships go with the tag. */
    method DeleteTag(user: UserId, tagParam: Option<string>) returns (r: Result<string, HttpError>)
      modifies this
      ensures (State(), r) == DeleteTagSpec(old(State()), user, tagParam)
    {
      if tagParam.None? || tagParam.value == "" {
        return Err(BadRequest);
      }
      var found := LookupTag(tags, user, tagParam);
      if found.Err? {
        return Err(found.error);
      }
      var t := found.value;
      r := Ok(tags[t].name);
      tags := tags - {t};
      rows := Drop(rows, t);
    }

    /** `get_tag_drawer`: the tag's papers in the requested order, each with
      its truncated processed title. `autolink` is the bare-URL step of the
      LaTeX processing. */
    method GetTagDrawer(user: UserId, tagParam: Option<string>, sort: string, autolink: string -> string)
      returns (r: Result<(string, seq<DrawerEntry>), HttpError>)
      ensures tagParam.None? || tagParam == Some("") ==> r == Err(BadRequest)
      ensures !(tagParam.None? || tagParam == Some("")) && LookupTag(tags, user, tagParam).Err? ==>
        r == Err(LookupTag(tags, user, tagParam).error)
      ensures !(tagParam.None? || tagParam == Some("")) && LookupTag(tags, user, tagParam).Ok? ==> r.Ok?
      ensures r.Ok? ==>
        var t := LookupTag(tags, user, tagParam).value;
        var d := DrawerOrder(papers, rows, t, sort);
        && r.value.0 == tags[t].name
        && |r.value.1| == |d|
        && forall i :: 0 <= i < |d| ==> r.value.1[i] == Entry(papers, d[i], autolink)
    {
      if tagParam.None? || tagParam.value == "" {
        return Err(BadRequest);
      }
      var found := LookupTag(tags, user, tagParam);
      if found.Err? {
        return Err(found.error);
      }
      var t := found.value;
      var ordered := DrawerOrder(papers, rows, t, sort);
      var entries := MapSeq(ordered, (row: TaggedRow) => Entry(papers, row, autolink));
      r := Ok((tags[t].name, entries));
    }
  }
}

=== FILE: Text.dfy ===
/** String helpers with the meaning Python gives them in the modelled code:
    `str.strip`, the regex class `\s`, `str.split(" ")`, `int()` on a
    string, case-insensitive containment (`icontains`) and literal `re.sub`. */
module Text {
  import opened Wrappers

  /** Whitespace as `str.isspace()`, `str.strip()`, `int()` and the regex
      class `\s` see it: \t, \n, \v, \f, \r, the separators 0x1C-0x1F,
      the space, NEL, the no-break space and the Unicode space characters. */
  predicate IsSpace(c: char) {
    || '\t' <= c <= '\r'
    || '\U{1C}' <= c <= ' '
    || c == '\U{85}' || c == '\U{A0}' || c == '\U{1680}'
    || '\U{2000}' <= c <= '\U{200A}'
    || c == '\U{2028}' || c == '\U{2029}' || c == '\U{202F}' || c == '\U{205F}' || c == '\U{3000}'
  }

  /** Drops leading whitespace: the result is the suffix after the longest
      all-whitespace prefix. */
  function StripLeft(s: string): (r: string)
    ensures |r| <= |s| && r == s[|s| - |r|..]
    ensures r == [] || !IsSpace(r[0])
    ensures forall i :: 0 <= i < |s| - |r| ==> IsSpace(s[i])
  {
    if s != [] && IsSpace(s[0]) then StripLeft(s[1..]) else s
  }

  /** Drops trailing whitespace: the result is the prefix before the longest
      all-whitespace suffix. */
  function StripRight(s: string): (r: string)
    ensures |r| <= |s| && r == s[..|r|]
    ensures r == [] || !IsSpace(r[|r| - 1])
    ensures forall i :: |r| <= i < |s| ==> IsSpace(s[i])
  {
    if s != [] && IsSpace(s[|s| - 1]) then StripRight(s[..|s| - 1]) else s
  }

  /** Python's `s.strip()`. */
  function Strip(s: string): (r: string)
    ensures |r| <= |s|
    ensures r == [] || (!IsSpace(r[0]) && !IsSpace(r[|r| - 1]))
  {
    StripRight(StripLeft(s))
  }

  /** `s.strip()` is empty exactly when every character of `s` is whitespace. */
  lemma StripEmptyIff(s: string)
    ensures Strip(s) == [] <==> forall i :: 0 <= i < |s| ==> IsSpace(s[i])
  {
    var l := StripLeft(s);
    if l != [] {
      assert l[0] == s[|s| - |l|];
    }
  }

  /** Whether `s` holds a character that is not whitespace. */
  predicate HasText(s: string)
  {
    s != [] && (!IsSpace(s[0]) || HasText(s[1..]))
  }

  /** `s` has text exactly when `s.strip()` is not empty. */
  lemma {:induction false} HasTextStrip(s: string)
    ensures HasText(s) <==> Strip(s) != []
  {
    StripEmptyIff(s);
    if s != [] {
      HasTextStrip(s[1..]);
      StripEmptyIff(s[1..]);
      assert forall i :: 1 <= i < |s| ==> s[i] == s[1..][i - 1];
    }
  }

  /** Stripping is idempotent. */
  lemma StripIdempotent(s: string)
    ensures Strip(Strip(s)) == Strip(s)
  {
    var r := Strip(s);
    assert StripLeft(r) == r;
    assert StripRight(r) == r;
  }

  function LowerChar(c: char): (d: char)
  {
    if 'A' <= c <= 'Z' then (c as int + 32) as char else c
  }

  /** ASCII lower-casing, the case folding the model uses for `icontains`. */
  function Lower(s: string): (r: string)
    ensures |r| == |s|
    ensures forall i :: 0 <= i < |s| ==> r[i] == LowerChar(s[i])
  {
    if s == [] then [] else [LowerChar(s[0])] + Lower(s[1..])
  }

  /** `sub` occurs in `s` at position `i`. */
  predicate OccursAt(s: string, sub: string, i: nat)
  {
    i + |sub| <= |s| && s[i..i + |sub|] == sub
  }

  /** `sub in s`. */
  predicate Contains(s: string, sub: string)
  {
    exists i :: 0 <= i <= |s| - |sub| && OccursAt(s, sub, i)
  }

  /** Django's `field__icontains=q`. */
  predicate ContainsIgnoreCase(s: string, q: string)
  {
    Contains(Lower(s), Lower(q))
  }

  lemma EmptyContained(s: string)
    ensures Contains(s, [])
  {
    assert OccursAt(s, [], 0);
  }

  /** Python's `s.split(sep)` for a one-character separator: cuts at every
      occurrence, so runs of separators give empty pieces and "" gives [""]. */
  function Split(s: string, sep: char): (r: seq<string>)
    ensures |r| >= 1
    ensures forall i :: 0 <= i < |r| ==> sep !in r[i]
  {
    if s == [] then [""]
    else
      var rest := Split(s[1..], sep);
      if s[0] == sep then [""] + rest else [[s[0]] + rest[0]] + rest[1..]
  }

  /** `sep.join(parts)`. */
  function Join(parts: seq<string>, sep: char): string
  {
    if parts == [] then ""
    else if |parts| == 1 then parts[0]
    else parts[0] + [sep] + Join(parts[1..], sep)
  }

  /** Splitting and joining on the same separator gives the string back. */
  lemma {:induction false} JoinSplit(s: string, sep: char)
    ensures Join(Split(s, sep), sep) == s
  {
    if s != [] {
      var rest := Split(s[1..], sep);
      JoinSplit(s[1..], sep);
      if s[0] == sep {
        assert Split(s, sep) == [""] + rest;
        assert ([""] + rest)[1..] == rest;
      } else {
        var p := [[s[0]] + rest[0]] + rest[1..];
        assert Split(s, sep) == p;
        if |rest| == 1 {
          assert Join(p, sep) == [s[0]] + rest[0];
        } else {
          assert p[1..] == rest[1..];
          assert Join(p, sep) == [s[0]] + rest[0] + [sep] + Join(rest[1..], sep);
        }
      }
    }
  }

  predicate IsDigit(c: char) { '0' <= c <= '9' }

  function DigitChar(d: nat): (c: char)
    requires d < 10
    ensures IsDigit(c) && c as int - '0' as int == d
  {
    ('0' as int + d) as char
  }

  /** The value of a string of decimal digits, underscores skipped. */
  function DigitsValue(s: string): (n: nat)
    requires forall i :: 0 <= i < |s| ==> IsDigit(s[i]) || s[i] == '_'
  {
    if s == [] then 0
    else if s[|s| - 1] == '_' then DigitsValue(s[..|s| - 1])
    else
      assert IsDigit(s[|s| - 1]);
      DigitsValue(s[..|s| - 1]) * 10 + (s[|s| - 1] as int - '0' as int)
  }

  /** Python's integer literal body: decimal digits, with single
      underscores allowed between two digits ("1_000"). */
  predicate DigitGroups(s: string)
  {
    && s != [] && IsDigit(s[0]) && IsDigit(s[|s| - 1])
    && (forall i :: 0 <= i < |s| ==> IsDigit(s[i]) || s[i] == '_')
    && (forall i :: 0 <= i < |s| - 1 && s[i] == '_' ==> s[i + 1] != '_')
  }

  /** Python's `int(s)` on a string, in base 10: whitespace around the
      number is ignored, one optional sign, then digits with single
      underscores between them. None where `int` raises ValueError. */
  function ParseInt(s: string): (r: Option<int>)
  {
    ParseSigned(Strip(s))
  }

  /** An optional sign, then an unsigned literal. */
  function ParseSigned(t: string): (r: Option<int>)
  {
    if t != [] && (t[0] == '+' || t[0] == '-') then
      match ParseUnsigned(t[1..])
      case None => None
      case Some(n) => Some(if t[0] == '-' then -(n as int) else n)
    else
      match ParseUnsigned(t)
      case None => None
      case Some(n) => Some(n)
  }

  function ParseUnsigned(t: string): (r: Option<nat>)
  {
    if DigitGroups(t) then Some(DigitsValue(t)) else None
  }

  /** Python's `str(n)` for a natural number. */
  function NatToString(n: nat): (s: string)
    ensures s != [] && forall i :: 0 <= i < |s| ==> IsDigit(s[i])
  {
    if n < 10 then [DigitChar(n)] else NatToString(n / 10) + [DigitChar(n % 10)]
  }

  /** The digits of `str(n)` are worth `n`. */
  lemma {:induction false} DigitsValueToString(n: nat)
    ensures DigitsValue(NatToString(n)) == n
  {
    var s := NatToString(n);
    if n >= 10 {
      DigitsValueToString(n / 10);
      assert s[..|s| - 1] == NatToString(n / 10);
      assert s[|s| - 1] == DigitChar(n % 10);
    }
  }

  /** No digit is whitespace. */
  lemma DigitNotSpace(c: char)
    requires IsDigit(c)
    ensures !IsSpace(c)
  {
  }

  /** A string without whitespace at either end is its own strip. */
  lemma StripNoSpace(s: string)
    requires s != [] && !IsSpace(s[0]) && !IsSpace(s[|s| - 1])
    ensures Strip(s) == s
  {
    assert StripLeft(s) == s;
  }

  /** `int(str(n)) == n`. */
  lemma ParseIntToString(n: nat)
    ensures ParseInt(NatToString(n)) == Some(n)
  {
    var s := NatToString(n);
    DigitNotSpace(s[0]);
    DigitNotSpace(s[|s| - 1]);
    StripNoSpace(s);
    UnsignedToString(n);
    assert ParseSigned(s) == Some(n);
  }

  /** `int("+" + str(n)) == n` and `int("-" + str(n)) == -n`. */
  lemma ParseIntSigned(n: nat)
    ensures ParseInt("+" + NatToString(n)) == Some(n)
    ensures ParseInt("-" + NatToString(n)) == Some(0 - n)
  {
    var s := NatToString(n);
    DigitNotSpace(s[|s| - 1]);
    StripNoSpace("-" + s);
    StripNoSpace("+" + s);
    assert ("-" + s)[1..] == s && ("+" + s)[1..] == s;
    UnsignedToString(n);
    assert ParseSigned("+" + s) == Some(n);
    assert ParseSigned("-" + s) == Some(0 - n);
  }

  lemma UnsignedToString(n: nat)
    ensures ParseUnsigned(NatToString(n)) == Some(n)
  {
    DigitsValueToString(n);
  }

  /** A character other than whitespace, a digit, a sign or an underscore
      makes `int` raise: an arXiv id such as "2401.12345" is no number. */
  lemma ParseIntRefuses(s: string, i: nat)
    requires i < |s|
    requires !IsSpace(s[i]) && !IsDigit(s[i]) && s[i] !in "+-_"
    ensures ParseInt(s) == None
  {
    var c := s[i];
    StripKeeps(s, i);
    var t := Strip(s);
    var j :| 0 <= j < |t| && t[j] == c;
    if t != [] && (t[0] == '+' || t[0] == '-') {
      assert t[1..][j - 1] == c;
    }
  }

  /** Stripping keeps every character that is not whitespace. */
  lemma StripKeeps(s: string, i: nat)
    requires i < |s| && !IsSpace(s[i])
    ensures s[i] in Strip(s)
  {
    var l := StripLeft(s);
    var k := |s| - |l|;
    assert l[i - k] == s[i];
    var r := StripRight(l);
    assert r[i - k] == l[i - k];
  }

  /** Whitespace in front of the number is ignored. */
  lemma ParseIntLeadingSpace(c: char, s: string)
    requires IsSpace(c)
    ensures ParseInt([c] + s) == ParseInt(s)
  {
    assert ([c] + s)[1..] == s;
    assert StripLeft([c] + s) == StripLeft(s);
    assert Strip([c] + s) == Strip(s);
  }

  /** An underscore between two digits is skipped. */
  lemma ParseIntUnderscore(a: string, b: string)
    requires a != [] && b != []
    requires forall i :: 0 <= i < |a| ==> IsDigit(a[i])
    requires forall i :: 0 <= i < |b| ==> IsDigit(b[i])
    ensures ParseInt(a + "_" + b) == ParseInt(a + b)
  {
    var s, t := a + "_" + b, a + b;
    DigitNotSpace(s[0]);
    DigitNotSpace(s[|s| - 1]);
    StripNoSpace(s);
    StripNoSpace(t);
    assert forall i :: 0 <= i < |s| - 1 && s[i] == '_' ==> i == |a| && s[i + 1] == b[0];
    assert DigitGroups(s);
    assert DigitGroups(t);
    DigitsValueSkip(a, b);
  }

  lemma {:induction false} DigitsValueSkip(a: string, b: string)
    requires forall i :: 0 <= i < |a| ==> IsDigit(a[i])
    requires forall i :: 0 <= i < |b| ==> IsDigit(b[i])
    ensures DigitsValue(a + "_" + b) == DigitsValue(a + b)
  {
    if b == [] {
      assert a + "_" + b == a + "_" && (a + "_")[..|a|] == a && a + b == a;
    } else {
      var b' := b[..|b| - 1];
      DigitsValueSkip(a, b');
      assert (a + "_" + b)[..|a + "_" + b| - 1] == a + "_" + b';
      assert (a + b)[..|a + b| - 1] == a + b';
    }
  }

  /** Python's `re.sub(p, rep, s)` for a literal pattern `p`: every leftmost,
      non-overlapping occurrence of `pat` is replaced. */
  function ReplaceAll(s: string, pat: string, rep: string): (r: string)
    requires pat != []
    ensures forall c :: c in r ==> c in s || c in rep
    decreases |s|
  {
    if |s| < |pat| then s
    else if s[..|pat|] == pat then rep + ReplaceAll(s[|pat|..], pat, rep)
    else [s[0]] + ReplaceAll(s[1..], pat, rep)
  }

  /** A string with no occurrence of the pattern is left unchanged. */
  lemma {:induction false} ReplaceAbsent(s: string, pat: string, rep: string)
    requires pat != []
    requires !Contains(s, pat)
    ensures ReplaceAll(s, pat, rep) == s
    decreases |s|
  {
    if |s| >= |pat| {
      assert !OccursAt(s, pat, 0);
      if !Contains(s[1..], pat) {
        ReplaceAbsent(s[1..], pat, rep);
      } else {
        var i :| 0 <= i <= |s[1..]| - |pat| && OccursAt(s[1..], pat, i);
        assert s[i + 1..i + 1 + |pat|] == s[1..][i..i + |pat|];
        assert OccursAt(s, pat, i + 1);
      }
    }
  }

  /** Replacing a one-character pattern by text without that character
      leaves no occurrence of it. */
  lemma {:induction false} ReplaceCharRemovesAll(s: string, c: char, rep: string)
    requires c !in rep
    ensures c !in ReplaceAll(s, [c], rep)
    decreases |s|
  {
    if |s| >= 1 {
      ReplaceCharRemovesAll(s[1..], c, rep);
    }
  }
}

=== FILE: Voyage.dfy ===
/** The voyage embedding loader (`add_voyage_embeddings`): the papers
    without a half-precision 2048-wide embedding are cut into id batches;
    each batch's abstracts are embedded once, and every (paper, embedding)
    pair gives one row of each of three variants: the full vector, its first
    256 components, and its sign bits as a '0'/'1' string, the form the
    Hamming search reads. */
module Voyage {
  import opened Wrappers
  import opened Ranking
  import opened Chunking
  import opened Corpus
  import opened Retrieval

  /** The width of the `halfvec(256)` variant. */
  const PrefixLength: nat := 256

  /** An embedding as the service returns it. */
  type Vector = seq<real>

  /** An `EmbeddingVoyageHalf2048` row. */
  datatype HalfRow = HalfRow(paper: PaperId, vector: Vector)

  /** An `EmbeddingVoyageHalf256` row; `prefix` is the first 256 components
      before their division by their norm. */
  datatype SmallRow = SmallRow(paper: PaperId, prefix: Vector)

  /** An `EmbeddingVoyageBit2048` row. */
  datatype BitRow = BitRow(paper: PaperId, bits: string)

  /** How computing the batches can raise: `range` with a zero step. */
  datatype ChunkError = ZeroBatchSize

  /** The papers that have a half-2048 row. */
  function HalfPapers(rows: seq<HalfRow>): (r: set<PaperId>)
    ensures forall x :: x in r <==> exists i :: 0 <= i < |rows| && rows[i].paper == x
  {
    set i | 0 <= i < |rows| :: rows[i].paper
  }

  /** `Paper.objects.filter(embeddingvoyagehalf2048__isnull=True).order_by("id")`:
      the ids of the papers without a half-2048 row, ascending. */
  function Pending(store: Store, half: seq<HalfRow>): (r: seq<PaperId>)
    ensures forall x :: x in r <==> x in store && x !in HalfPapers(half)
    ensures forall i, j :: 0 <= i < j < |r| ==> r[i] < r[j]
  {
    SortedKeys(store.Keys - HalfPapers(half))
  }

  /** `[ids[i : i + size] for i in range(0, len(ids), size)]` for any integer
      `size`: a zero step raises, a negative one gives an empty range. */
  function IdChunks(ids: seq<PaperId>, size: int): (r: Result<seq<seq<PaperId>>, ChunkError>)
    ensures r.Err? <==> size == 0
    ensures size < 0 ==> r == Ok([])
    ensures size > 0 ==> r.Ok? && Flatten(r.value) == ids
    ensures size > 0 ==> forall i :: 0 <= i < |r.value| ==> 0 < |r.value[i]| <= size
    ensures size > 0 ==> forall i :: 0 <= i < |r.value| - 1 ==> |r.value[i]| == size
  {
    if size == 0 then Err(ZeroBatchSize)
    else if size < 0 then Ok([])
    else
      FlattenChunks(ids, size);
      Ok(Chunks(ids, size))
  }

  function InStore(store: Store): PaperId -> bool
  {
    (id: PaperId) => id in store
  }

  /** `Paper.objects.filter(id__in=chunk)`: the chunk's papers that exist, in
      the model's default order, newest first. */
  function BatchOf(store: Store, chunk: seq<PaperId>): (r: seq<PaperId>)
    ensures forall x :: x in r ==> x in store && x in chunk
  {
    QueryFromTable(chunk, InStore(store), CreatedKey(store), |chunk| + 1);
    Query(chunk, InStore(store), CreatedKey(store), |chunk| + 1)
  }

  /** A batch holds each stored paper of the chunk once, and nothing else. */
  lemma BatchOfChunk(store: Store, chunk: seq<PaperId>)
    requires Distinct(chunk)
    ensures Distinct(BatchOf(store, chunk))
    ensures forall x :: x in BatchOf(store, chunk) <==> x in chunk && x in store
  {
    QueryFiltered(chunk, InStore(store), CreatedKey(store), |chunk| + 1);
    QueryComplete(chunk, InStore(store), CreatedKey(store), |chunk| + 1);
  }

  /** A batch comes newest first. */
  lemma BatchOfNewestFirst(store: Store, chunk: seq<PaperId>)
    ensures forall i, j :: 0 <= i < j < |BatchOf(store, chunk)| ==>
      store[BatchOf(store, chunk)[i]].created >= store[BatchOf(store, chunk)[j]].created
  {
    var r := BatchOf(store, chunk);
    BatchKeysOrdered(store, chunk);
    forall i, j | 0 <= i < j < |r| ensures store[r[i]].created >= store[r[j]].created {
      NewerKey(store, r[i], r[j]);
    }
  }

  lemma BatchKeysOrdered(store: Store, chunk: seq<PaperId>)
    ensures forall i, j :: 0 <= i < j < |BatchOf(store, chunk)| ==>
      KeyLe(CreatedKey(store)(BatchOf(store, chunk)[i]), CreatedKey(store)(BatchOf(store, chunk)[j]))
  {
    QueryOrdered(chunk, InStore(store), CreatedKey(store), |chunk| + 1);
  }

  lemma NewerKey(store: Store, x: PaperId, y: PaperId)
    requires x in store && y in store
    requires KeyLe(CreatedKey(store)(x), CreatedKey(store)(y))
    ensures store[x].created >= store[y].created
  {
    NewestFirstOrder(store[x], store[y]);
  }

  /** One sign bit: `"1" if x > 0 else "0"`. */
  function Bit(x: real): char
  {
    if x > 0.0 then '1' else '0'
  }

  /** `"".join("1" if x > 0 else "0" for x in embedding)`. */
  function BitString(v: Vector): (s: string)
    ensures |s| == |v|
    ensures forall i :: 0 <= i < |v| ==> (s[i] == '1' <==> v[i] > 0.0)
    ensures forall i :: 0 <= i < |v| ==> (s[i] == '0' <==> v[i] <= 0.0)
  {
    if v == [] then [] else [Bit(v[0])] + BitString(v[1..])
  }

  /** `embedding[:256]`. */
  function Prefix(v: Vector): (p: Vector)
    ensures |p| <= PrefixLength && |p| <= |v| && p == v[..|p|]
    ensures |v| >= PrefixLength ==> |p| == PrefixLength
  {
    if |v| < PrefixLength then v else v[..PrefixLength]
  }

  /** A vector multiplied by a constant, as the division by the norm does. */
  function Scale(v: Vector, c: real): (w: Vector)
    ensures |w| == |v| && forall i :: 0 <= i < |v| ==> w[i] == v[i] * c
  {
    seq(|v|, i requires 0 <= i < |v| => v[i] * c)
  }

  /** Dividing by a positive norm keeps every sign bit. */
  lemma ScaleKeepsBits(v: Vector, c: real)
    requires c > 0.0
    ensures BitString(Scale(v, c)) == BitString(v)
  {
    var a := BitString(Scale(v, c));
    var b := BitString(v);
    assert |a| == |b|;
    forall i | 0 <= i < |v| ensures a[i] == b[i] {
      PositiveFactor(v[i], c);
    }
  }

  /** A positive factor keeps the sign of a component. */
  lemma PositiveFactor(x: real, c: real)
    requires c > 0.0
    ensures x * c > 0.0 <==> x > 0.0
  {
    if x <= 0.0 {
      assert x * c == -((-x) * c);
      assert (-x) * c >= 0.0;
    }
  }

  /** The bits of the 256 prefix are the first bits of the whole vector. */
  lemma PrefixBits(v: Vector)
    ensures BitString(Prefix(v)) == BitString(v)[..|Prefix(v)|]
  {
  }

  /** How the Hamming search reads a bit string. */
  function ToBits(s: string): (b: seq<bool>)
    ensures |b| == |s| && forall i :: 0 <= i < |s| ==> (b[i] <==> s[i] == '1')
  {
    seq(|s|, i requires 0 <= i < |s| => s[i] == '1')
  }

  /** Two embeddings of one width are at Hamming distance zero exactly when
      every component has the same sign (positive, or not). */
  lemma HammingZeroSigns(u: Vector, v: Vector)
    requires |u| == |v|
    ensures Hamming(ToBits(BitString(u)), ToBits(BitString(v))) == 0 <==>
      forall i :: 0 <= i < |u| ==> (u[i] > 0.0 <==> v[i] > 0.0)
  {
    var a := ToBits(BitString(u));
    var b := ToBits(BitString(v));
    HammingZeroIff(a, b);
    if forall i :: 0 <= i < |u| ==> (u[i] > 0.0 <==> v[i] > 0.0) {
      assert a == b;
    }
    if a == b {
      forall i | 0 <= i < |u| ensures u[i] > 0.0 <==> v[i] > 0.0 {
        assert a[i] == b[i];
      }
    }
  }

  function Shorter(m: nat, n: nat): nat
  {
    if m < n then m else n
  }

  /** The rows `zip(batch, embeddings)` gives each variant. */
  function HalfRows(batch: seq<PaperId>, es: seq<Vector>): seq<HalfRow>
  {
    seq(Shorter(|batch|, |es|), i requires 0 <= i < Shorter(|batch|, |es|) => HalfRow(batch[i], es[i]))
  }

  function SmallRows(batch: seq<PaperId>, es: seq<Vector>): seq<SmallRow>
  {
    seq(Shorter(|batch|, |es|), i requires 0 <= i < Shorter(|batch|, |es|) => SmallRow(batch[i], Prefix(es[i])))
  }

  function BitRows(batch: seq<PaperId>, es: seq<Vector>): seq<BitRow>
  {
    seq(Shorter(|batch|, |es|), i requires 0 <= i < Shorter(|batch|, |es|) => BitRow(batch[i], BitString(es[i])))
  }

  /** Rows of the three variants that describe the same embeddings: one row
      of each per pair, naming the same paper, with the prefix and the sign
      bits of the full vector. */
  predicate Aligned(half: seq<HalfRow>, small: seq<SmallRow>, bits: seq<BitRow>)
  {
    && |half| == |small| == |bits|
    && forall j :: 0 <= j < |half| ==>
      && small[j].paper == half[j].paper && bits[j].paper == half[j].paper
      && small[j].prefix == Prefix(half[j].vector)
      && bits[j].bits == BitString(half[j].vector)
  }

  /** The papers named by rows, in order. */
  function Papers(rows: seq<HalfRow>): (r: seq<PaperId>)
    ensures |r| == |rows| && forall i :: 0 <= i < |rows| ==> r[i] == rows[i].paper
  {
    seq(|rows|, i requires 0 <= i < |rows| => rows[i].paper)
  }

  /** The zip stops at the shorter input and pairs the `i`-th paper with the
      `i`-th embedding in every variant. */
  lemma ZipRows(batch: seq<PaperId>, es: seq<Vector>)
    ensures Aligned(HalfRows(batch, es), SmallRows(batch, es), BitRows(batch, es))
    ensures Papers(HalfRows(batch, es)) == batch[..Shorter(|batch|, |es|)]
    ensures |es| >= |batch| ==> Papers(HalfRows(batch, es)) == batch
    ensures forall j :: 0 <= j < |HalfRows(batch, es)| ==> HalfRows(batch, es)[j].vector == es[j]
  {
  }

  /** The loop over `zip(batch, embeddings)` that fills the three lists. */
  method BuildVariants(batch: seq<PaperId>, es: seq<Vector>)
    returns (half: seq<HalfRow>, small: seq<SmallRow>, bits: seq<BitRow>)
    ensures half == HalfRows(batch, es) && small == SmallRows(batch, es) && bits == BitRows(batch, es)
  {
    half, small, bits := [], [], [];
    var n := Shorter(|batch|, |es|);
    for i := 0 to n
      invariant half == HalfRows(batch[..i], es[..i])
      invariant small == SmallRows(batch[..i], es[..i])
      invariant bits == BitRows(batch[..i], es[..i])
    {
      half := half + [HalfRow(batch[i], es[i])];
      small := small + [SmallRow(batch[i], Prefix(es[i]))];
      bits := bits + [BitRow(batch[i], BitString(es[i]))];
    }
    assert batch[..n] == batch[..|batch|][..n];
  }

  /** The three embedding tables, appended to by `bulk_create`. */
  class VoyageTables {
    var half: seq<HalfRow>
    var small: seq<SmallRow>
    var bits: seq<BitRow>

    constructor()
      ensures half == [] && small == [] && bits == []
    {
      half, small, bits := [], [], [];
    }
  }

  /** The rows a batch adds to each of the three tables. */
  datatype Rows = Rows(half: seq<HalfRow>, small: seq<SmallRow>, bits: seq<BitRow>)

  /** What `process_batch_by_ids` writes for a chunk: nothing when the
      service call raises, else one row of each variant per zipped pair. */
  function Written(store: Store, chunk: seq<PaperId>, reply: Option<seq<Vector>>): Rows
  {
    if reply.None? then Rows([], [], [])
    else
      var batch := BatchOf(store, chunk);
      Rows(HalfRows(batch, reply.value), SmallRows(batch, reply.value), BitRows(batch, reply.value))
  }

  /** The rows `process_batch_by_ids` builds before its `bulk_create`s.
      `reply` is the embedding service's answer for the batch's abstracts,
      `None` when the call raises. */
  method EmbedBatch(store: Store, chunk: seq<PaperId>, reply: Option<seq<Vector>>) returns (rows: Rows)
    ensures rows == Written(store, chunk, reply)
  {
    var batch := BatchOf(store, chunk);
    if batch == [] || reply.None? {
      return Rows([], [], []);
    }
    var half, small, bits := BuildVariants(batch, reply.value);
    return Rows(half, small, bits);
  }

  /** `process_batch_by_ids`: the three `bulk_create`s of the batch's rows. */
  method ProcessBatch(db: VoyageTables, store: Store, chunk: seq<PaperId>, reply: Option<seq<Vector>>)
    modifies db
    ensures db.half == old(db.half) + Written(store, chunk, reply).half
    ensures db.small == old(db.small) + Written(store, chunk, reply).small
    ensures db.bits == old(db.bits) + Written(store, chunk, reply).bits
  {
    var rows := EmbedBatch(store, chunk, reply);
    db.half := db.half + rows.half;
    db.small := db.small + rows.small;
    db.bits := db.bits + rows.bits;
  }

  /** A batch writes rows only for the chunk's papers, each once, in all
      three variants alike. */
  lemma WrittenFromChunk(store: Store, chunk: seq<PaperId>, reply: Option<seq<Vector>>)
    requires Distinct(chunk)
    ensures Distinct(Papers(Written(store, chunk, reply).half))
    ensures forall x :: x in Papers(Written(store, chunk, reply).half) ==> x in chunk && x in store
  {
    if reply.Some? {
      var batch := BatchOf(store, chunk);
      BatchOfChunk(store, chunk);
      ZipRows(batch, reply.value);
      var n := Shorter(|batch|, |reply.value|);
      assert Distinct(batch[..n]) by {
        forall i, j | 0 <= i < j < n ensures batch[..n][i] != batch[..n][j] {
          assert batch[..n][i] == batch[i] && batch[..n][j] == batch[j];
        }
      }
      forall x | x in batch[..n] ensures x in batch {
      }
    }
  }

  lemma AlignedAppend(h: seq<HalfRow>, s: seq<SmallRow>, b: seq<BitRow>, h': seq<HalfRow>, s': seq<SmallRow>, b': seq<BitRow>)
    requires Aligned(h, s, b) && Aligned(h', s', b')
    ensures Aligned(h + h', s + s', b + b')
  {
    forall j | 0 <= j < |h + h'|
      ensures (s + s')[j].paper == (h + h')[j].paper && (b + b')[j].paper == (h + h')[j].paper
      ensures (s + s')[j].prefix == Prefix((h + h')[j].vector) && (b + b')[j].bits == BitString((h + h')[j].vector)
    {
      if j >= |h| {
        assert (h + h')[j] == h'[j - |h|];
      }
    }
  }

  /** In chunks of a sequence without repeats, no id of a chunk occurs in
      an earlier one. */
  lemma ChunksDisjoint(chunks: seq<seq<PaperId>>, i: nat)
    requires i < |chunks| && Distinct(Flatten(chunks))
    ensures Distinct(chunks[i])
    ensures forall x :: x in chunks[i] ==> x !in Flatten(chunks[..i])
  {
    var a := Flatten(chunks[..i]);
    SplitAround(chunks, i);
    FlattenConcat(chunks[..i] + [chunks[i]], chunks[i + 1..]);
    FlattenAppend(chunks[..i], chunks[i]);
    DistinctParts(a + chunks[i], Flatten(chunks[i + 1..]));
    DistinctParts(a, chunks[i]);
  }

  /** A sequence is its part before `i`, its element `i` and the rest. */
  lemma SplitAround<T>(ss: seq<T>, i: nat)
    requires i < |ss|
    ensures ss == (ss[..i] + [ss[i]]) + ss[i + 1..]
  {
    assert ss[..i] + [ss[i]] == ss[..i + 1];
  }

  lemma DistinctParts(a: seq<PaperId>, b: seq<PaperId>)
    requires Distinct(a + b)
    ensures Distinct(a) && Distinct(b)
    ensures forall x :: x in b ==> x !in a
  {
    var ab := a + b;
    forall p, q | 0 <= p < q < |a| ensures a[p] != a[q] {
      assert ab[p] == a[p] && ab[q] == a[q];
    }
    forall p, q | 0 <= p < q < |b| ensures b[p] != b[q] {
      assert ab[|a| + p] == b[p] && ab[|a| + q] == b[q];
    }
    forall x | x in b ensures x !in a {
      var q :| 0 <= q < |b| && b[q] == x;
      forall p | 0 <= p < |a| ensures a[p] != x {
        assert ab[p] == a[p] && ab[|a| + q] == x;
      }
    }
  }

  lemma {:induction false} FlattenConcat<T>(ss: seq<seq<T>>, tt: seq<seq<T>>)
    ensures Flatten(ss + tt) == Flatten(ss) + Flatten(tt)
  {
    if ss == [] {
      assert ss + tt == tt;
    } else {
      assert (ss + tt)[1..] == ss[1..] + tt;
      FlattenConcat(ss[1..], tt);
    }
  }

  /** The tables `h`, `s`, `b` are the tables `h0`, `s0`, `b0` with rows
      appended: as many to each, aligned across the variants, naming each
      paper at most once, and only papers of `covered`. */
  ghost predicate Appended(h0: seq<HalfRow>, s0: seq<SmallRow>, b0: seq<BitRow>,
                           h: seq<HalfRow>, s: seq<SmallRow>, b: seq<BitRow>, covered: seq<PaperId>)
  {
    && |h0| <= |h| && h[..|h0|] == h0
    && |s0| <= |s| && s[..|s0|] == s0
    && |b0| <= |b| && b[..|b0|] == b0
    && Aligned(h[|h0|..], s[|s0|..], b[|b0|..])
    && Distinct(Papers(h[|h0|..]))
    && (forall x :: x in Papers(h[|h0|..]) ==> x in covered)
  }

  /** The service's answer for batch `i`: a batch past the end of `replies`
      fails like a raising call. */
  function ReplyAt(replies: seq<Option<seq<Vector>>>, i: nat): (reply: Option<seq<Vector>>)
    ensures i < |replies| ==> reply == replies[i]
    ensures i >= |replies| ==> reply.None?
  {
    if i < |replies| then replies[i] else None
  }

  /** The rows each batch writes, batch `i` answered by `ReplyAt(replies, i)`. */
  function BatchRows(store: Store, cs: seq<seq<PaperId>>, replies: seq<Option<seq<Vector>>>): (ws: seq<Rows>)
    ensures |ws| == |cs| && forall i :: 0 <= i < |cs| ==> ws[i] == Written(store, cs[i], ReplyAt(replies, i))
  {
    seq(|cs|, i requires 0 <= i < |cs| => Written(store, cs[i], ReplyAt(replies, i)))
  }

  /** The rows of several batches, batch after batch, in each table. */
  function Joined(ws: seq<Rows>): Rows
  {
    if ws == [] then Rows([], [], [])
    else
      var before := Joined(ws[..|ws| - 1]);
      var w := ws[|ws| - 1];
      Rows(before.half + w.half, before.small + w.small, before.bits + w.bits)
  }

  /** One more batch appends its rows. */
  lemma JoinedTake(ws: seq<Rows>, i: nat)
    requires i < |ws|
    ensures Joined(ws[..i + 1]).half == Joined(ws[..i]).half + ws[i].half
    ensures Joined(ws[..i + 1]).small == Joined(ws[..i]).small + ws[i].small
    ensures Joined(ws[..i + 1]).bits == Joined(ws[..i]).bits + ws[i].bits
  {
    assert ws[..i + 1][..i] == ws[..i];
  }

  /** Tables holding the rows of the first `i` batches, with batch `i`'s
      rows appended, hold the rows of the first `i + 1`. */
  lemma JoinedStep(ws: seq<Rows>, i: nat, h0: seq<HalfRow>, s0: seq<SmallRow>, b0: seq<BitRow>,
                   h1: seq<HalfRow>, s1: seq<SmallRow>, b1: seq<BitRow>)
    requires i < |ws|
    requires h1 == h0 + Joined(ws[..i]).half && s1 == s0 + Joined(ws[..i]).small && b1 == b0 + Joined(ws[..i]).bits
    ensures var w := Joined(ws[..i + 1]);
      h1 + ws[i].half == h0 + w.half && s1 + ws[i].small == s0 + w.small && b1 + ws[i].bits == b0 + w.bits
  {
    JoinedTake(ws, i);
  }

  /** A row one batch writes stays among the rows of all batches. */
  lemma {:induction false} JoinedKeeps(ws: seq<Rows>, j: nat, x: PaperId)
    requires j < |ws| && x in Papers(ws[j].half)
    ensures x in Papers(Joined(ws).half)
  {
    var n := |ws|;
    var before := Joined(ws[..n - 1]);
    PapersAppend(before.half, ws[n - 1].half);
    if j < n - 1 {
      assert ws[..n - 1][j] == ws[j];
      JoinedKeeps(ws[..n - 1], j, x);
    }
  }

  /** A batch the service answers in full writes a row for each paper of
      the batch. */
  lemma WrittenInFull(store: Store, chunk: seq<PaperId>, reply: Option<seq<Vector>>)
    requires reply.Some? && |reply.value| >= |BatchOf(store, chunk)|
    ensures Papers(Written(store, chunk, reply).half) == BatchOf(store, chunk)
  {
    ZipRows(BatchOf(store, chunk), reply.value);
  }

  /** After `handle`, every pending paper of a batch the service answered
      in full has its row in each of the three tables. */
  lemma HandleCovers(store: Store, half: seq<HalfRow>, batchSize: int, replies: seq<Option<seq<Vector>>>, j: nat)
    requires batchSize > 0
    requires j < |IdChunks(Pending(store, half), batchSize).value|
    requires var cs := IdChunks(Pending(store, half), batchSize).value;
      ReplyAt(replies, j).Some? && |ReplyAt(replies, j).value| >= |BatchOf(store, cs[j])|
    ensures var cs := IdChunks(Pending(store, half), batchSize).value;
      forall x :: x in cs[j] ==> x in Papers(Joined(BatchRows(store, cs, replies)).half)
  {
    var ids := Pending(store, half);
    var cs := IdChunks(ids, batchSize).value;
    assert Flatten(cs) == ids && Distinct(ids);
    ChunksDisjoint(cs, j);
    BatchOfChunk(store, cs[j]);
    WrittenInFull(store, cs[j], ReplyAt(replies, j));
    var ws := BatchRows(store, cs, replies);
    assert Papers(ws[j].half) == BatchOf(store, cs[j]);
    forall x | x in cs[j] ensures x in Papers(Joined(ws).half) {
      FlattenHas(cs, j, x);
      JoinedKeeps(ws, j, x);
    }
  }

  /** `handle`. The batches run one after another here (the source runs
      them on a thread pool); `replies[i]` is the service's answer for batch
      `i`, and a batch past the end of `replies` fails like a raising call.
      It answers with the number of batches. */
  method Handle(db: VoyageTables, store: Store, batchSize: int, replies: seq<Option<seq<Vector>>>)
    returns (r: Result<nat, ChunkError>)
    modifies db
    ensures r.Err? <==> batchSize == 0
    ensures r.Err? || batchSize < 0 ==> unchanged(db)
    ensures Appended(old(db.half), old(db.small), old(db.bits), db.half, db.small, db.bits, Pending(store, old(db.half)))
    ensures batchSize > 0 ==>
      var cs := IdChunks(Pending(store, old(db.half)), batchSize).value;
      var w := Joined(BatchRows(store, cs, replies));
      && r == Ok(|cs|)
      && db.half == old(db.half) + w.half && db.small == old(db.small) + w.small && db.bits == old(db.bits) + w.bits
  {
    var ids := Pending(store, db.half);
    var chunks := IdChunks(ids, batchSize);
    ghost var h0, s0, b0 := db.half, db.small, db.bits;
    Start(h0, s0, b0, ids);
    if chunks.Err? {
      return Err(chunks.error);
    }
    if batchSize < 0 {
      return Ok(0);
    }
    var cs := chunks.value;
    assert Flatten(cs) == ids && Distinct(ids);
    RunBatches(db, store, cs, replies);
    return Ok(|cs|);
  }

  /** The batches of `handle`, one after another. */
  method RunBatches(db: VoyageTables, store: Store, cs: seq<seq<PaperId>>, replies: seq<Option<seq<Vector>>>)
    requires Distinct(Flatten(cs))
    modifies db
    ensures Appended(old(db.half), old(db.small), old(db.bits), db.half, db.small, db.bits, Flatten(cs))
    ensures var w := Joined(BatchRows(store, cs, replies));
      db.half == old(db.half) + w.half && db.small == old(db.small) + w.small && db.bits == old(db.bits) + w.bits
  {
    ghost var h0, s0, b0 := db.half, db.small, db.bits;
    Start(h0, s0, b0, []);
    assert cs[..0] == [];
    ghost var ws := BatchRows(store, cs, replies);
    assert ws[..0] == [];
    for i := 0 to |cs|
      invariant Appended(h0, s0, b0, db.half, db.small, db.bits, Flatten(cs[..i]))
      invariant var w := Joined(ws[..i]);
        db.half == h0 + w.half && db.small == s0 + w.small && db.bits == b0 + w.bits
    {
      var reply := ReplyAt(replies, i);
      ghost var h1, s1, b1 := db.half, db.small, db.bits;
      ProcessBatch(db, store, cs[i], reply);
      Step(store, cs, i, reply, h0, s0, b0, h1, s1, b1);
      assert ws[i] == Written(store, cs[i], reply);
      JoinedStep(ws, i, h0, s0, b0, h1, s1, b1);
    }
    assert cs[..|cs|] == cs && ws[..|cs|] == ws;
  }

  /** Nothing appended yet. */
  lemma Start(h0: seq<HalfRow>, s0: seq<SmallRow>, b0: seq<BitRow>, covered: seq<PaperId>)
    ensures Appended(h0, s0, b0, h0, s0, b0, covered)
  {
    assert h0[|h0|..] == [] && s0[|s0|..] == [] && b0[|b0|..] == [];
  }

  /** One batch through `handle` keeps the rows appended in order. */
  lemma Step(store: Store, cs: seq<seq<PaperId>>, i: nat, reply: Option<seq<Vector>>,
             h0: seq<HalfRow>, s0: seq<SmallRow>, b0: seq<BitRow>,
             h1: seq<HalfRow>, s1: seq<SmallRow>, b1: seq<BitRow>)
    requires i < |cs| && Distinct(Flatten(cs))
    requires Appended(h0, s0, b0, h1, s1, b1, Flatten(cs[..i]))
    ensures var w := Written(store, cs[i], reply);
      Appended(h0, s0, b0, h1 + w.half, s1 + w.small, b1 + w.bits, Flatten(cs[..i + 1]))
  {
    var w := Written(store, cs[i], reply);
    FlattenTake(cs, i);
    ChunksDisjoint(cs, i);
    WrittenFromChunk(store, cs[i], reply);
    Grow(h0, h1, w.half);
    Grow(s0, s1, w.small);
    Grow(b0, b1, w.bits);
    if reply.Some? {
      ZipRows(BatchOf(store, cs[i]), reply.value);
    }
    AlignedAppend(h1[|h0|..], s1[|s0|..], b1[|b0|..], w.half, w.small, w.bits);
    PapersAppend(h1[|h0|..], w.half);
    DistinctConcat(Papers(h1[|h0|..]), Papers(w.half));
  }

  /** An element of a chunk is an element of the whole. */
  lemma FlattenHas<T>(ss: seq<seq<T>>, j: nat, x: T)
    requires j < |ss| && x in ss[j]
    ensures x in Flatten(ss)
  {
    assert ss == ss[..j + 1] + ss[j + 1..];
    FlattenConcat(ss[..j + 1], ss[j + 1..]);
    FlattenTake(ss, j);
  }

  lemma FlattenTake<T>(ss: seq<seq<T>>, i: nat)
    requires i < |ss|
    ensures Flatten(ss[..i + 1]) == Flatten(ss[..i]) + ss[i]
  {
    assert ss[..i + 1] == ss[..i] + [ss[i]];
    FlattenAppend(ss[..i], ss[i]);
  }

  lemma Grow<T>(x0: seq<T>, x1: seq<T>, w: seq<T>)
    requires |x0| <= |x1| && x1[..|x0|] == x0
    ensures |x0| <= |x1 + w| && (x1 + w)[..|x0|] == x0
    ensures (x1 + w)[|x0|..] == x1[|x0|..] + w
  {
    assert (x1 + w)[..|x0|] == x1[..|x0|];
  }

  lemma PapersAppend(a: seq<HalfRow>, b: seq<HalfRow>)
    ensures Papers(a + b) == Papers(a) + Papers(b)
  {
  }

  lemma DistinctConcat(a: seq<PaperId>, b: seq<PaperId>)
    requires Distinct(a) && Distinct(b)
    requires forall x :: x in b ==> x !in a
    ensures Distinct(a + b)
  {
    forall i, j | 0 <= i < j < |a + b| ensures (a + b)[i] != (a + b)[j] {
      if i < |a| <= j {
        assert (a + b)[j] in b;
      }
    }
  }
}

=== FILE: Wrappers.dfy ===
/** Failure-carrying wrappers shared by every module of the model. */
module Wrappers {

  datatype Option<+T> = None | Some(value: T)

  /** The outcome of an operation that either produces a value or fails with
      an error the caller can tell apart from an empty result. */
  datatype Result<+T, +E> = Ok(value: T) | Err(error: E)
}
